=== FILE: README.md ===
# TigerFire core, modelled in Dafny

TigerFire is a fire-safety game for young children. The player visits three
scenes in a fixed order: the fire station (learn four devices), the school
(watch an evacuation video) and the forest (rescue two sheep). Each scene
awards badges. A parent area, gated by an arithmetic question, sets session
time limits and shows usage statistics. A Python script draws the game's
PNG placeholder images.

This project models the deterministic core of that system and proves what
it promises:

- **PNG writer** (`scripts/generate_images.py`): chunk layout, CRC-32, the
  IHDR payload and file assembly, the filter-type-0 scanlines, and the
  gradient and round-button pixel rules. Each is proved against a decoder
  written here, as in the PNG Specification, Second Edition (ISO/IEC
  15948:2004): section 5.2 (signature), 5.3 (chunk layout), 5.5 (CRC),
  9.2 (filter type 0) and 11.2.2, 11.2.4, 11.2.5 (IHDR, IDAT, IEND).
- **Domain model**: game progress and its unlock rules, badges and their
  variants, parent settings with daily usage statistics, crash-log file names
  and sizes.
- **Use cases**: scene unlocking, badge awarding, the time-limit check and
  usage recording, all over a repository.
- **Guards and timers**: the rapid-click guard, the idle timer and the
  session timer. Each is a class; the clock is a `now` parameter and one
  pass of the polling loop is a `Tick`.
- **View models**: collection, map, parent, school and welcome. Each is a
  class with a `state` field and an `effects` log.

The repository (`Store.ProgressStore`) is a class holding the stored
progress row, the badge table and the parent settings. It also keeps a log
of every write, so a contract can say which writes an operation issues and
in what order. Kotlin's `Int`/`Long` truncating division and two's-complement
wrap-around are written out in `Arith` where the code depends on them.

Parameters stand in for what is outside the model:

- random draws (`a`, `b` in 1..5 for the parent question);
- the clock (`now`) and today's date (`today`);
- the video path;
- `zlib.compress`, an opaque function. The round trip assumes an inverse
  `decompress`.

Where the code disagrees with its own tests, with its declarations or with
other code, the model follows the code that runs. Three places:

- `GameProgress.initial()` has all three scenes UNLOCKED, while
  `GameProgressTest.kt` expects the school and forest LOCKED.
  `Progress.InitialScenesUnlocked` states the code's behaviour.
- `UnlockSceneUseCase` opens the school when exactly four devices are done,
  while `isSceneUnlockedByCompletion` needs at least four.
  `UnlockScene.UnlockRulesAgree` proves the two agree up to four items and
  differ above.
- `WelcomeEvent.kt` and `SchoolEvent.kt` declare event lists that do not
  match the view models' handlers. The model follows the handlers.

## Model

| member | source | states |
|---|---|---|
| Scenes.SceneIndex | composeApp/src/commonMain/kotlin/com/cryallen/tigerfire/domain/model/SceneType.kt:11-20 | every scene has a position in the declaration order FIRE_STATION, SCHOOL, FOREST |
| PngFormat.BeU32 | scripts/generate_images.py:35 | `struct.pack('>I')`: four bytes for any value that fits 32 bits |
| PngFormat.BeU32RoundTrip | scripts/generate_images.py:35 | reading the four big-endian bytes back gives the value |
| PngFormat.Crc32 | scripts/generate_images.py:36 | `zlib.crc32(...) & 0xffffffff` fits 32 bits (CRC-32 of section 5.5, reflected polynomial EDB88320) |
| PngFormat.CrcRegisterAppend | scripts/generate_images.py:36 | the CRC register over `a ‖ b` is the register over `b` started from the register over `a`, so the type and data can be fed in turn |
| PngFormat.CreateChunk | scripts/generate_images.py:33-38 | a chunk exists exactly when its length fits 32 bits; it is 12 bytes longer than its data |
| PngFormat.ChunkRoundTrip | scripts/generate_images.py:33-38 | parsing a created chunk gives back its type and data and the CRC matches; trailing bytes are left over unchanged |
| PngFormat.IendChunkBytes | scripts/generate_images.py:29-31 | the IEND chunk is exactly the 12 bytes 00 00 00 00 49 45 4E 44 AE 42 60 82 |
| PngFormat.IhdrData | scripts/generate_images.py:18 | the IHDR payload exists for 32-bit width and height and is exactly 13 bytes |
| PngFormat.HeaderRoundTrip | scripts/generate_images.py:63 | the IHDR payload reads back as width, height, depth 8, the colour type and three zero method bytes |
| PngFormat.AssemblePng | scripts/generate_images.py:77-80 | a file is 57 bytes plus the compressed data and starts with the 8-byte signature |
| PngFormat.AssembleParseRoundTrip | scripts/generate_images.py:77-80 | an assembled file parses back as signature, the IHDR header, one IDAT holding the compressed data, IEND and nothing after |
| PngImages.Join | scripts/generate_images.py:56-57 | packing `n` pixels with `struct.pack('4B')` gives `4n` bytes |
| PngImages.SplitJoin | scripts/generate_images.py:56-57 | unpacking packed pixels gives the pixels back |
| PngImages.Scanlines | scripts/generate_images.py:66-72 | the filtered buffer is height·(1+4·width) bytes |
| PngImages.FilterScanlines | scripts/generate_images.py:66-72 | the row loop (corrected) builds exactly the scanlines: filter byte 0, then that row's pixels, top row first |
| PngImages.UnfilterScanlines | scripts/generate_images.py:66-72 | a filter-type-0 decoder applied to the scanlines gives back the first width·height pixels |
| PngImages.FilterScanlinesAsWritten | scripts/generate_images.py:66-72 | the row loop as written builds `ScanlinesAsWritten`, which slices the pixel list with a byte stride |
| PngImages.ScanlinesAsWrittenLength | scripts/generate_images.py:66-72 | the as-written buffer has `h + 4·min(n, 4hw)` bytes for `n` pixels |
| PngImages.ScanlinesAsWrittenFullLength | scripts/generate_images.py:66-72 | with `w·h` pixels the as-written buffer has the right length, so its length does not give the error away |
| PngImages.ScanlinesAsWrittenMisplaceRows | scripts/generate_images.py:66-72 | for a 1×2 image the as-written buffer has no filter byte where row 2 begins and does not decode |
| PngImages.ScanlinesPlaceRows | scripts/generate_images.py:66-72 | the same 1×2 image filtered correctly decodes to its two pixels |
| PngImages.Lerp | scripts/generate_images.py:50-55 | `c1 + (c2 - c1)·t` with `t = num/den < 1` lies between the two channel values and is `c1` at `t = 0` |
| PngImages.GradientPixel | scripts/generate_images.py:46-57 | the first column (horizontal) or first row (vertical) is the start colour |
| PngImages.GradientBetweenEnds | scripts/generate_images.py:46-57 | every channel of every gradient pixel lies between the start and end values |
| PngImages.GradientPixels | scripts/generate_images.py:46-57 | the nested pixel loop yields exactly `width·height` gradient pixels in row-major order |
| PngImages.ButtonPixel | scripts/generate_images.py:134-153 | a button pixel is transparent exactly when `dx²+dy² > radius²`; otherwise its alpha is 255 |
| PngImages.ButtonMargin | scripts/generate_images.py:130-133 | with radius `min(w,h)//2 − 4` around `(w//2, h//2)`, every opaque pixel is at least four pixels from each edge |
| PngImages.ButtonCentreIsBackground | scripts/generate_images.py:141-151 | the centre of a button at least 28 pixels wide keeps the background colour unshaded |
| PngImages.ButtonPixels | scripts/generate_images.py:134-153 | the nested pixel loop yields exactly `width·height` button pixels in row-major order |
| PngImages.RgbaPngRoundTrip | scripts/generate_images.py:59-80 | an RGBA file (colour type 6) decodes to exactly its pixels, and the IHDR declares the length the scanlines have |
| PngImages.CreateGradientPng | scripts/generate_images.py:40-80 | `create_gradient_png` (rows corrected) is the RGBA file of the gradient image |
| PngImages.CreateRoundButton | scripts/generate_images.py:127-176 | `create_round_button` (rows corrected) is the RGBA file of the button image |
| PngImages.CreatePngMisdescribesRows | scripts/generate_images.py:11-31 | `create_png` declares colour type 2 (3 bytes a pixel) but compresses 4 bytes a pixel, so for every non-empty image the data is longer than the header declares |
| PngImages.TruecolourRowsShorter | scripts/generate_images.py:18 | colour-type-2 rows are `1+3w` bytes, shorter than the `1+4w` written |
| PngImages.CreateSolidPngDecodes | scripts/generate_images.py:11-31 | the corrected solid image compresses the same rows as `create_png`, declares colour type 6 and decodes to `w·h` pixels of the colour |
| Badges.GenerateId | composeApp/src/commonMain/kotlin/com/cryallen/tigerfire/domain/model/Badge.kt:44-46 | the id is the base type, then `_v`, then the decimal variant |
| Badges.GenerateIdInjective | composeApp/src/commonMain/kotlin/com/cryallen/tigerfire/domain/model/Badge.kt:44-46 | two variants of one base type never share an id |
| Badges.DisplayName | composeApp/src/commonMain/kotlin/com/cryallen/tigerfire/domain/model/Badge.kt:33 | the display name is the generated id of the badge's base type and variant |
| Badges.BadgesByBaseType | composeApp/src/commonMain/kotlin/com/cryallen/tigerfire/domain/model/BadgeExtensions.kt:29-31 | an order-preserving subsequence holding exactly the input's badges of that type |
| Badges.BadgesByScene | composeApp/src/commonMain/kotlin/com/cryallen/tigerfire/domain/model/BadgeExtensions.kt:39-41 | an order-preserving subsequence holding exactly the input's badges of that scene |
| Badges.CountByScene | composeApp/src/commonMain/kotlin/com/cryallen/tigerfire/domain/model/BadgeExtensions.kt:83-85 | at most the list length; zero exactly when no badge belongs to the scene |
| Badges.SceneCountsAddUp | composeApp/src/commonMain/kotlin/com/cryallen/tigerfire/domain/model/BadgeExtensions.kt:83-85 | the three scene counts add up to the list length |
| Badges.HasBadgeType | composeApp/src/commonMain/kotlin/com/cryallen/tigerfire/domain/model/BadgeExtensions.kt:49-51 | true exactly when the type filter is non-empty |
| Badges.CalculateNextVariant | composeApp/src/commonMain/kotlin/com/cryallen/tigerfire/domain/model/BadgeExtensions.kt:18-21 | always in 0..3; equals the count of that type while fewer than four are held |
| Badges.NextVariantCycles | composeApp/src/commonMain/kotlin/com/cryallen/tigerfire/domain/model/BadgeExtensions.kt:18-21 | adding a badge of the type advances the variant by one modulo 4; a badge of another type leaves it alone |
| Badges.LatestBadgeByBaseType | composeApp/src/commonMain/kotlin/com/cryallen/tigerfire/domain/model/BadgeExtensions.kt:59-63 | none exactly when no badge has the type; otherwise a held badge of the type earned no earlier than any other, and the first such badge in list order, as `maxByOrNull` keeps the first maximum |
| Badges.LatestOfTypeComesFirst | composeApp/src/commonMain/kotlin/com/cryallen/tigerfire/domain/model/BadgeExtensions.kt:59-63 | no badge of the type before the latest one is as recent as it |
| Badges.LatestIndex | composeApp/src/commonMain/kotlin/com/cryallen/tigerfire/domain/model/BadgeExtensions.kt:59-63 | `maxByOrNull`: the first position holding the greatest `earnedAt` |
| Badges.MaxVariant | composeApp/src/commonMain/kotlin/com/cryallen/tigerfire/domain/model/BadgeExtensions.kt:71-75 | −1 when no badge has the type; otherwise the greatest variant among them |
| Badges.GroupByScene | composeApp/src/commonMain/kotlin/com/cryallen/tigerfire/domain/model/BadgeExtensions.kt:92-94 | the keys are exactly the scenes present; each group is that scene's filter and is non-empty |
| Badges.GroupByBaseType | composeApp/src/commonMain/kotlin/com/cryallen/tigerfire/domain/model/BadgeExtensions.kt:101-103 | the keys are exactly the types present; each group is that type's filter and is non-empty |
| Badges.HasAllUniqueBadges | composeApp/src/commonMain/kotlin/com/cryallen/tigerfire/domain/model/BadgeExtensions.kt:115-123 | true exactly when each of the seven required type strings is held |
| Badges.CollectionProgress | composeApp/src/commonMain/kotlin/com/cryallen/tigerfire/domain/model/BadgeExtensions.kt:130-139 | the fraction is (n, 7) where n is the number of distinct required types the list holds |
| Badges.AllUniqueIffFullProgress | composeApp/src/commonMain/kotlin/com/cryallen/tigerfire/domain/model/BadgeExtensions.kt:115-139 | the collection is complete exactly when the progress fraction is 7/7 |
| Badges.DistinctByBaseType | composeApp/src/commonMain/kotlin/com/cryallen/tigerfire/domain/usecase/AwardBadgeUseCase.kt:128 | `distinctBy { baseType }`: a subsequence with the same types, each type once |
| Badges.DistinctKeepsFirst | composeApp/src/commonMain/kotlin/com/cryallen/tigerfire/domain/usecase/AwardBadgeUseCase.kt:128 | each badge kept is the first of its base type in the list, as `distinctBy` keeps first occurrences |
| Badges.DistinctCountIsBaseTypeCount | composeApp/src/commonMain/kotlin/com/cryallen/tigerfire/domain/usecase/AwardBadgeUseCase.kt:128 | its length is the number of distinct types |
| Progress.Initial | composeApp/src/commonMain/kotlin/com/cryallen/tigerfire/domain/model/GameProgress.kt:40-61 | every scene UNLOCKED, no badges or items, zero time and sheep |
| Progress.InitialScenesUnlocked | composeApp/src/commonMain/kotlin/com/cryallen/tigerfire/domain/model/GameProgress.kt:40-61 | in the initial progress every scene is unlocked and none completed |
| Progress.GetSceneStatus | composeApp/src/commonMain/kotlin/com/cryallen/tigerfire/domain/model/GameProgress.kt:67-69 | the stored status, or LOCKED for a missing scene |
| Progress.IsSceneUnlocked | composeApp/src/commonMain/kotlin/com/cryallen/tigerfire/domain/model/GameProgress.kt:74-77 | true exactly when the status is not LOCKED |
| Progress.IsSceneCompleted | composeApp/src/commonMain/kotlin/com/cryallen/tigerfire/domain/model/GameProgress.kt:82-84 | true exactly when the status is COMPLETED; a completed scene is unlocked |
| Progress.IsFireStationCompleted | composeApp/src/commonMain/kotlin/com/cryallen/tigerfire/domain/model/GameProgress.kt:89-91 | true exactly when exactly four items are done |
| Progress.IsForestCompleted | composeApp/src/commonMain/kotlin/com/cryallen/tigerfire/domain/model/GameProgress.kt:96-98 | true exactly when at least two sheep are rescued |
| Progress.TotalBadgeCount | composeApp/src/commonMain/kotlin/com/cryallen/tigerfire/domain/model/GameProgress.kt:103 | the badge list length |
| Progress.UniqueBadgeCount | composeApp/src/commonMain/kotlin/com/cryallen/tigerfire/domain/model/GameProgress.kt:108 | the number of distinct base types |
| Progress.UniqueAtMostTotal | composeApp/src/commonMain/kotlin/com/cryallen/tigerfire/domain/model/GameProgress.kt:103-108 | the unique count never exceeds the total |
| Progress.HasCollectedAllBadges | composeApp/src/commonMain/kotlin/com/cryallen/tigerfire/domain/model/GameProgress.kt:113-115 | true exactly when at least seven distinct types are held |
| Progress.AddPlayTime | composeApp/src/commonMain/kotlin/com/cryallen/tigerfire/domain/model/GameProgress.kt:120-122 | total play time grows by exactly the amount; nothing else changes |
| Progress.AddBadge | composeApp/src/commonMain/kotlin/com/cryallen/tigerfire/domain/model/GameProgress.kt:127-129 | the badge is appended at the end; nothing else changes |
| Progress.UpdateSceneStatus | composeApp/src/commonMain/kotlin/com/cryallen/tigerfire/domain/model/GameProgress.kt:134-136 | the scene reads back the new status; every other scene and field is unchanged |
| Progress.AddFireStationCompletedItem | composeApp/src/commonMain/kotlin/com/cryallen/tigerfire/domain/model/GameProgress.kt:141-143 | set insertion: the item set grows by at most one; nothing else changes |
| Progress.AddItemIdempotent | composeApp/src/commonMain/kotlin/com/cryallen/tigerfire/domain/model/GameProgress.kt:141-143 | adding the same item twice equals adding it once |
| Progress.IncrementForestRescuedSheep | composeApp/src/commonMain/kotlin/com/cryallen/tigerfire/domain/model/GameProgress.kt:148-150 | the sheep count grows by one; nothing else changes |
| Progress.TwoRescuesCompleteForest | composeApp/src/commonMain/kotlin/com/cryallen/tigerfire/domain/model/GameProgress.kt:96-98 | from zero, one rescue does not complete the forest and two do |
| Progress.IsSceneUnlockedByCompletion | composeApp/src/commonMain/kotlin/com/cryallen/tigerfire/domain/model/GameProgressExtensions.kt:17-32 | the fire station always; the school with at least four items; the forest once the school is COMPLETED |
| Progress.UnlockProgressDescription | composeApp/src/commonMain/kotlin/com/cryallen/tigerfire/domain/model/GameProgressExtensions.kt:39-55 | "已解锁" exactly for the fire station, and for the forest once the school is completed; the school's text counts the items |
| Progress.DescriptionMatchesCompletionRule | composeApp/src/commonMain/kotlin/com/cryallen/tigerfire/domain/model/GameProgressExtensions.kt:17-55 | for the fire station and forest, the text reads unlocked exactly when the completion rule opens the scene |
| Progress.NextUnlockableScene | composeApp/src/commonMain/kotlin/com/cryallen/tigerfire/domain/model/GameProgressExtensions.kt:64-78 | the school when the fire station is not COMPLETED and four items are done; else the forest when the school is COMPLETED and the forest LOCKED; never the fire station |
| Progress.NextUnlockableIsUnlockedByCompletion | composeApp/src/commonMain/kotlin/com/cryallen/tigerfire/domain/model/GameProgressExtensions.kt:64-78 | any scene offered next is opened by the completion rule |
| Progress.HasUnlockableScene | composeApp/src/commonMain/kotlin/com/cryallen/tigerfire/domain/model/GameProgressExtensions.kt:121-123 | true exactly when a next scene exists |
| Progress.RecommendedScene | composeApp/src/commonMain/kotlin/com/cryallen/tigerfire/domain/model/GameProgressExtensions.kt:87-99 | the first scene in order that the rule opens and that is not COMPLETED, else the fire station; so while the fire station is not completed it is the recommendation |
| Progress.CompletedSceneCount | composeApp/src/commonMain/kotlin/com/cryallen/tigerfire/domain/model/GameProgressExtensions.kt:106-114 | the overall-progress numerator: in 0..3, 3 exactly when all are completed, 0 exactly when none is |
| Progress.CompletingRaisesCount | composeApp/src/commonMain/kotlin/com/cryallen/tigerfire/domain/model/GameProgressExtensions.kt:106-114 | completing an uncompleted scene raises the numerator by one |
| Progress.FireStationProgress | composeApp/src/commonMain/kotlin/com/cryallen/tigerfire/domain/model/GameProgressExtensions.kt:130-135 | (items done, 4) |
| Progress.ForestProgress | composeApp/src/commonMain/kotlin/com/cryallen/tigerfire/domain/model/GameProgressExtensions.kt:142-147 | (sheep rescued, 2) |
| Progress.CountersMatchRules | composeApp/src/commonMain/kotlin/com/cryallen/tigerfire/domain/model/GameProgressExtensions.kt:130-147 | a full fire-station counter is the school unlock rule; a full forest counter is forest completion |
| Settings.Default | composeApp/src/commonMain/kotlin/com/cryallen/tigerfire/domain/model/ParentSettings.kt:33-39 | 15-minute sessions, 2-minute reminder, no usage |
| Settings.SessionDurationMillis | composeApp/src/commonMain/kotlin/com/cryallen/tigerfire/domain/model/ParentSettings.kt:45-47 | the wrapped conversion of the session minutes; exactly minutes × 60000 whenever minutes × 60 fits an `Int` |
| Settings.ReminderMillis | composeApp/src/commonMain/kotlin/com/cryallen/tigerfire/domain/model/ParentSettings.kt:52-54 | the wrapped conversion of the reminder minutes; exactly minutes × 60000 whenever minutes × 60 fits an `Int` |
| Settings.MinutesToMillis | composeApp/src/commonMain/kotlin/com/cryallen/tigerfire/presentation/common/SessionTimer.kt:149-150 | `minutes * 60 * 1000L`: within `Int` bounds times 1000, congruent to minutes × 60000 modulo 2³² seconds, and equal to it when minutes × 60 fits an `Int` |
| Settings.MinutesToMillisWraps | composeApp/src/commonMain/kotlin/com/cryallen/tigerfire/domain/model/ParentSettings.kt:45-47 | 35791395 minutes overflow the `Int` product and give −2147483596000 ms |
| Settings.UpdateSessionDuration | composeApp/src/commonMain/kotlin/com/cryallen/tigerfire/domain/model/ParentSettings.kt:59-64 | succeeds exactly for 5, 10, 15 or 30 and changes only the duration; otherwise fails with the `require` message |
| Settings.UsageForDate | composeApp/src/commonMain/kotlin/com/cryallen/tigerfire/domain/model/ParentSettings.kt:85-87 | the stored usage, or 0 for an unrecorded date |
| Settings.RecordUsage | composeApp/src/commonMain/kotlin/com/cryallen/tigerfire/domain/model/ParentSettings.kt:72-77 | the date's usage grows by the amount, every other date is unchanged, the date becomes a key, the durations are kept |
| Settings.WeeklyUsage | composeApp/src/commonMain/kotlin/com/cryallen/tigerfire/domain/model/ParentSettings.kt:95-97 | the sum over the listed days is non-negative when all usage is |
| Settings.WeeklyUsageAfterRecord | composeApp/src/commonMain/kotlin/com/cryallen/tigerfire/domain/model/ParentSettings.kt:72-97 | recording `ms` on a date raises the weekly sum by `ms` times the number of times the date is listed |
| Settings.ClearUsageStats | composeApp/src/commonMain/kotlin/com/cryallen/tigerfire/domain/model/ParentSettings.kt:102-104 | the usage map is empty, every date reads 0, both durations are kept |
| Settings.SortedDates | composeApp/src/commonMain/kotlin/com/cryallen/tigerfire/domain/model/ParentSettings.kt:109-111 | the map's dates, each once, strictly descending in string order |
| Lex.SortedDescendingUnique | composeApp/src/commonMain/kotlin/com/cryallen/tigerfire/domain/model/ParentSettings.kt:109-111 | the descending ordering of a set of dates is unique |
| Lex.DescendingUnique | composeApp/src/commonMain/kotlin/com/cryallen/tigerfire/domain/model/ParentSettings.kt:109-111 | two strictly descending lists with the same elements are equal |
| CrashLogs.ReadableParts | composeApp/src/commonMain/kotlin/com/cryallen/tigerfire/domain/model/CrashLogFile.kt:25-31 | B below 1024, KB below 1048576, MB otherwise; the KB figure is in 1..1023 and each figure is the truncated quotient |
| CrashLogs.ReadableSize | composeApp/src/commonMain/kotlin/com/cryallen/tigerfire/domain/model/CrashLogFile.kt:25-31 | the decimal figure followed by the unit |
| CrashLogs.ReadableSizeSuffix | composeApp/src/commonMain/kotlin/com/cryallen/tigerfire/domain/model/CrashLogFile.kt:25-31 | the text ends in "KB" or "MB" exactly in those size ranges |
| CrashLogs.HasNamePrefix | composeApp/src/commonMain/kotlin/com/cryallen/tigerfire/domain/model/CrashLogFile.kt:36-41 | `startsWith`: true exactly when the name begins with the prefix; `isCrashLog` and `isErrorLog` are its instances for "crash_" and "error_" |
| CrashLogs.CrashAndErrorExclusive | composeApp/src/commonMain/kotlin/com/cryallen/tigerfire/domain/model/CrashLogFile.kt:36-41 | no file is both |
| Store.ProgressStore.CurrentProgress | composeApp/src/commonMain/kotlin/com/cryallen/tigerfire/data/repository/ProgressRepositoryImpl.kt:271-282 | the stored row read back with an empty badge list |
| Store.ProgressStore.UpdateSingleSceneStatus | composeApp/src/commonMain/kotlin/com/cryallen/tigerfire/data/repository/ProgressRepositoryImpl.kt:111-128 | only that scene's status changes; one write is logged |
| Store.ProgressStore.AddBadge | composeApp/src/commonMain/kotlin/com/cryallen/tigerfire/data/repository/ProgressRepositoryImpl.kt:201-209 | the badge is appended to the table; one write is logged |
| Store.ProgressStore.AddTotalPlayTime | composeApp/src/commonMain/kotlin/com/cryallen/tigerfire/data/repository/ProgressRepositoryImpl.kt:92-104 | only the total play time grows; one write is logged |
| Store.ProgressStore.RecordUsage | composeApp/src/commonMain/kotlin/com/cryallen/tigerfire/domain/repository/ProgressRepository.kt:110 | corrected: records the usage on the stored settings |
| Store.ProgressStore.UpdateParentSettings | composeApp/src/commonMain/kotlin/com/cryallen/tigerfire/data/repository/ProgressRepositoryImpl.kt:146-152 | the settings are replaced; one write is logged |
| Store.ProgressStore.ResetProgress | composeApp/src/commonMain/kotlin/com/cryallen/tigerfire/data/repository/ProgressRepositoryImpl.kt:130-134 | the progress row returns to its initial values, the badge table empties, the settings return to their defaults; one write is logged |
| Store.RecordUsageAsWritten | composeApp/src/commonMain/kotlin/com/cryallen/tigerfire/data/repository/ProgressRepositoryImpl.kt:138-164 | as written: the write-back has the default durations and only the new date's usage |
| Store.RecordUsageAsWrittenAgreesOnlyOnDefaults | composeApp/src/commonMain/kotlin/com/cryallen/tigerfire/data/repository/ProgressRepositoryImpl.kt:138-164 | the as-written write-back equals recording on the stored settings exactly when those hold the default durations and no usage except a zero entry for that date |
| Store.RecordUsageForgetsStoredSettings | composeApp/src/commonMain/kotlin/com/cryallen/tigerfire/data/repository/ProgressRepositoryImpl.kt:138-164 | a parent's 30/5 settings and yesterday's usage are lost when today's usage is recorded |
| UnlockScene.CheckUnlockCondition | composeApp/src/commonMain/kotlin/com/cryallen/tigerfire/domain/usecase/UnlockSceneUseCase.kt:68-83 | the fire station always; the school with exactly four items; the forest once the school is COMPLETED |
| UnlockScene.UnlockRulesAgree | composeApp/src/commonMain/kotlin/com/cryallen/tigerfire/domain/usecase/UnlockSceneUseCase.kt:68-83 | agrees with the completion rule up to four items; with more, the rule opens the school and the use case does not |
| UnlockScene.PrerequisitesMessage | composeApp/src/commonMain/kotlin/com/cryallen/tigerfire/domain/usecase/UnlockSceneUseCase.kt:45-47 | the message is "Cannot unlock scene: ", the scene's enum name, then ", prerequisites not met" |
| UnlockScene.PrerequisitesMessagesDistinct | composeApp/src/commonMain/kotlin/com/cryallen/tigerfire/domain/usecase/UnlockSceneUseCase.kt:45-47 | different scenes give different messages |
| UnlockScene.UnlockHintsDistinct | composeApp/src/commonMain/kotlin/com/cryallen/tigerfire/domain/usecase/UnlockSceneUseCase.kt:102-108 | each scene has its own non-empty hint |
| UnlockScene.UnlockSceneUseCase.Invoke | composeApp/src/commonMain/kotlin/com/cryallen/tigerfire/domain/usecase/UnlockSceneUseCase.kt:32-59 | succeeds exactly when the scene is open or its condition holds; an open scene or a failure writes nothing; otherwise only that scene becomes UNLOCKED and the result is the re-read progress |
| AwardBadge.NextVariant | composeApp/src/commonMain/kotlin/com/cryallen/tigerfire/domain/usecase/AwardBadgeUseCase.kt:94-97 | equals the extension's `calculateNextVariant`, in 0..3 |
| AwardBadge.CountInScene | composeApp/src/commonMain/kotlin/com/cryallen/tigerfire/domain/usecase/AwardBadgeUseCase.kt:105-108 | the number of badges of the scene |
| AwardBadge.ProgressOf | composeApp/src/commonMain/kotlin/com/cryallen/tigerfire/domain/usecase/AwardBadgeUseCase.kt:125-138 | total = length, unique = distinct types ≤ total; each scene count is the count of that scene among the first badges of each type, and the three add up to unique; complete exactly at seven types |
| AwardBadge.DisplayText | composeApp/src/commonMain/kotlin/com/cryallen/tigerfire/domain/usecase/AwardBadgeUseCase.kt:169-171 | the text is "已收集 ", then N, then " / 7 枚徽章", with N the decimal unique count; prefix, number and suffix each pinned |
| AwardBadge.AwardVariantCounterexample | composeApp/src/commonMain/kotlin/com/cryallen/tigerfire/domain/usecase/AwardBadgeUseCase.kt:46 | the variant read from the re-read progress is 0 even when the badge table asks for 1 |
| AwardBadge.HasCollectedAllNeverHolds | composeApp/src/commonMain/kotlin/com/cryallen/tigerfire/domain/usecase/AwardBadgeUseCase.kt:115-118 | as written, the check is false for every repository |
| AwardBadge.AwardBadgeUseCase.Invoke | composeApp/src/commonMain/kotlin/com/cryallen/tigerfire/domain/usecase/AwardBadgeUseCase.kt:37-64 | as written: one badge of variant 0 with id `generateId(type, 0)` is appended and logged |
| AwardBadge.AwardBadgeUseCase.InvokeCorrected | composeApp/src/commonMain/kotlin/com/cryallen/tigerfire/domain/usecase/AwardBadgeUseCase.kt:37-64 | corrected: the variant follows the badge table's count of the type modulo 4 |
| AwardBadge.AwardBadgeUseCase.AwardMultiple | composeApp/src/commonMain/kotlin/com/cryallen/tigerfire/domain/usecase/AwardBadgeUseCase.kt:74-83 | the badges are appended and logged in order and returned unchanged |
| AwardBadge.AwardBadgeUseCase.BadgeCountForScene | composeApp/src/commonMain/kotlin/com/cryallen/tigerfire/domain/usecase/AwardBadgeUseCase.kt:105-108 | the scene count of the badge table |
| AwardBadge.AwardBadgeUseCase.CollectionProgress | composeApp/src/commonMain/kotlin/com/cryallen/tigerfire/domain/usecase/AwardBadgeUseCase.kt:125-138 | the progress summary of the badge table |
| AwardBadge.AwardBadgeUseCase.HasCollectedAllCorrected | composeApp/src/commonMain/kotlin/com/cryallen/tigerfire/domain/usecase/AwardBadgeUseCase.kt:115-118 | corrected: true exactly when the badge table holds seven distinct types, as the summary says |
| TimeLimit.Check | composeApp/src/commonMain/kotlin/com/cryallen/tigerfire/domain/usecase/CheckTimeLimitUseCase.kt:62-98 | with the limit and reminder from the wrapped minutes-to-milliseconds conversion: remaining = max(0, limit − elapsed); reached exactly when elapsed ≥ limit; reminder exactly when 0 < limit − elapsed ≤ reminder, never with reached; canExtend = reached |
| TimeLimit.CheckMonotone | composeApp/src/commonMain/kotlin/com/cryallen/tigerfire/domain/usecase/CheckTimeLimitUseCase.kt:62-98 | more elapsed time never raises the remaining time or un-reaches the limit |
| TimeLimit.ShouldShowReminder | composeApp/src/commonMain/kotlin/com/cryallen/tigerfire/domain/usecase/CheckTimeLimitUseCase.kt:106-114 | the reminder flow agrees with `invoke`'s flag |
| TimeLimit.HasReachedLimit | composeApp/src/commonMain/kotlin/com/cryallen/tigerfire/domain/usecase/CheckTimeLimitUseCase.kt:123-128 | agrees with `invoke`'s flag |
| TimeLimit.RemainingTime | composeApp/src/commonMain/kotlin/com/cryallen/tigerfire/domain/usecase/CheckTimeLimitUseCase.kt:136-141 | agrees with `invoke`'s remaining time |
| TimeLimit.TodayRemainingTime | composeApp/src/commonMain/kotlin/com/cryallen/tigerfire/domain/usecase/CheckTimeLimitUseCase.kt:157-166 | what a check reports before any time has elapsed (a non-positive wrapped length is a reached limit); exactly minutes × 60000 when the product fits |
| TimeLimit.TodayRemainingIgnoresUsage | composeApp/src/commonMain/kotlin/com/cryallen/tigerfire/domain/usecase/CheckTimeLimitUseCase.kt:157-166 | recording usage for today, or asking on another day, does not change it |
| TimeLimit.RemainingMinutes | composeApp/src/commonMain/kotlin/com/cryallen/tigerfire/domain/usecase/CheckTimeLimitUseCase.kt:43-45 | the whole minutes of the remaining time |
| TimeLimit.MinutesSeconds | composeApp/src/commonMain/kotlin/com/cryallen/tigerfire/domain/usecase/CheckTimeLimitUseCase.kt:49-53 | minutes·60 + seconds is the whole seconds; seconds in 0..59 |
| TimeLimit.RemainingTimeTextInjective | composeApp/src/commonMain/kotlin/com/cryallen/tigerfire/domain/usecase/CheckTimeLimitUseCase.kt:49-53 | equal texts mean equal minutes and seconds |
| TimeLimit.CheckTimeLimitUseCase.Invoke | composeApp/src/commonMain/kotlin/com/cryallen/tigerfire/domain/usecase/CheckTimeLimitUseCase.kt:62-98 | the check on the stored settings |
| TimeLimit.CheckTimeLimitUseCase.TodayUsage | composeApp/src/commonMain/kotlin/com/cryallen/tigerfire/domain/usecase/CheckTimeLimitUseCase.kt:148-150 | today's stored usage, 0 when none |
| TimeLimit.CheckTimeLimitUseCase.ExtendTime | composeApp/src/commonMain/kotlin/com/cryallen/tigerfire/domain/usecase/CheckTimeLimitUseCase.kt:176-187 | the duration becomes the `Int` sum of the old duration and the extra minutes, wrapped, and the plain sum when it fits; nothing else changes; one write |
| TimeLimit.CheckTimeLimitUseCase.UpdateTimeLimit | composeApp/src/commonMain/kotlin/com/cryallen/tigerfire/domain/usecase/CheckTimeLimitUseCase.kt:204-218 | stores the minutes clamped to 5..120, nothing else changes, one write |
| TimeLimit.TimeLimitWiderThanDurations | composeApp/src/commonMain/kotlin/com/cryallen/tigerfire/domain/usecase/CheckTimeLimitUseCase.kt:204-218 | 45 minutes passes the use case's clamp but not the settings' own validation |
| UsageStats.Total | composeApp/src/commonMain/kotlin/com/cryallen/tigerfire/domain/usecase/RecordUsageUseCase.kt:67 | the sum of the stored usage, non-negative when each entry is |
| UsageStats.TotalAfterRecord | composeApp/src/commonMain/kotlin/com/cryallen/tigerfire/domain/usecase/RecordUsageUseCase.kt:32-45 | recording `ms` raises the total by exactly `ms` |
| UsageStats.MaxValue | composeApp/src/commonMain/kotlin/com/cryallen/tigerfire/domain/usecase/RecordUsageUseCase.kt:139-145 | 0 when empty; otherwise a stored value no smaller than any other |
| UsageStats.MaxAtMostTotal | composeApp/src/commonMain/kotlin/com/cryallen/tigerfire/domain/usecase/RecordUsageUseCase.kt:139-145 | the longest day is at most the total |
| UsageStats.DailyUsageOf | composeApp/src/commonMain/kotlin/com/cryallen/tigerfire/domain/usecase/RecordUsageUseCase.kt:263-267 | the minutes are the whole minutes of the duration |
| UsageStats.Last7DaysStats | composeApp/src/commonMain/kotlin/com/cryallen/tigerfire/domain/usecase/RecordUsageUseCase.kt:200-226 | seven entries, all for today, because `getDateDaysAgo` ignores its argument |
| UsageStats.DailyUsageList | composeApp/src/commonMain/kotlin/com/cryallen/tigerfire/domain/usecase/RecordUsageUseCase.kt:115-132 | fails for a negative count; otherwise min(n, days) entries for the latest dates, ascending, with their stored usage |
| UsageStats.WeeklyStatsOf | composeApp/src/commonMain/kotlin/com/cryallen/tigerfire/domain/usecase/RecordUsageUseCase.kt:63-86 | total = sum, active days = number of dates, average = total ÷ days (0 when empty) |
| UsageStats.TotalMinutes | composeApp/src/commonMain/kotlin/com/cryallen/tigerfire/domain/usecase/RecordUsageUseCase.kt:237-254 | the whole minutes of the total |
| UsageStats.DailyAverageMinutes | composeApp/src/commonMain/kotlin/com/cryallen/tigerfire/domain/usecase/RecordUsageUseCase.kt:237-254 | the whole minutes of the average |
| UsageStats.UsageReportOf | composeApp/src/commonMain/kotlin/com/cryallen/tigerfire/domain/usecase/RecordUsageUseCase.kt:95-107 | minutes = ms ÷ 60000, hours = ms ÷ 3600000, minutes = hours·60 + the remainder |
| UsageStats.FormattedTotalTime | composeApp/src/commonMain/kotlin/com/cryallen/tigerfire/domain/usecase/RecordUsageUseCase.kt:284-290 | "H小时M分钟" when there are hours, "M分钟" when only minutes, else "0分钟" |
| UsageStats.FormattedShape | composeApp/src/commonMain/kotlin/com/cryallen/tigerfire/domain/usecase/RecordUsageUseCase.kt:284-290 | for a non-negative total the text shows the hours and the minutes past the hour |
| UsageStats.FormattedTotalTimeInjective | composeApp/src/commonMain/kotlin/com/cryallen/tigerfire/domain/usecase/RecordUsageUseCase.kt:284-290 | two totals with the same text have the same whole minutes |
| UsageStats.RecordUsageUseCase.Invoke | composeApp/src/commonMain/kotlin/com/cryallen/tigerfire/domain/usecase/RecordUsageUseCase.kt:32-45 | records today's usage, then adds the same amount to total play time, in that order |
| UsageStats.RecordUsageUseCase.HasUsedToday | composeApp/src/commonMain/kotlin/com/cryallen/tigerfire/domain/usecase/RecordUsageUseCase.kt:152-155 | true exactly when today's usage is positive |
| ClickGuard.LastClicks | composeApp/src/commonMain/kotlin/com/cryallen/tigerfire/presentation/common/RapidClickGuard.kt:43-52 | the queue is the latest `triggerCount` stamps of the click history |
| ClickGuard.PushKeepsLastClicks | composeApp/src/commonMain/kotlin/com/cryallen/tigerfire/presentation/common/RapidClickGuard.kt:43-52 | adding a stamp and evicting the oldest keeps the queue equal to the latest stamps |
| ClickGuard.RapidClickGuard.CheckClick | composeApp/src/commonMain/kotlin/com/cryallen/tigerfire/presentation/common/RapidClickGuard.kt:43-61 | the queue grows by one up to `triggerCount`; fires exactly when it is full and every gap is below the threshold; never with fewer stamps |
| ClickGuard.RapidClickGuard.IsRapidClickSequence | composeApp/src/commonMain/kotlin/com/cryallen/tigerfire/presentation/common/RapidClickGuard.kt:107-126 | true exactly when the queue is full and every adjacent gap is below the threshold |
| ClickGuard.RapidClickGuard.Reset | composeApp/src/commonMain/kotlin/com/cryallen/tigerfire/presentation/common/RapidClickGuard.kt:73-75 | the queue is empty |
| ClickGuard.RapidClickGuard.ClickCount | composeApp/src/commonMain/kotlin/com/cryallen/tigerfire/presentation/common/RapidClickGuard.kt:82-84 | min(clicks since reset, `triggerCount`) |
| ClickGuard.RapidClickGuard.TimeSinceLastClick | composeApp/src/commonMain/kotlin/com/cryallen/tigerfire/presentation/common/RapidClickGuard.kt:91-96 | `Long.MAX_VALUE` with no stamps, otherwise now minus the last click |
| Idle.NextCheckDelay | composeApp/src/commonMain/kotlin/com/cryallen/tigerfire/presentation/common/IdleTimer.kt:200-203 | the time left, clamped to 100..1000 ms |
| Idle.IdleTimer.StartIdleDetection | composeApp/src/commonMain/kotlin/com/cryallen/tigerfire/presentation/common/IdleTimer.kt:92-109 | RUNNING with the timeout, a callback and the activity time now |
| Idle.IdleTimer.StopIdleDetection | composeApp/src/commonMain/kotlin/com/cryallen/tigerfire/presentation/common/IdleTimer.kt:116-120 | IDLE, not running, no callback |
| Idle.IdleTimer.PauseIdleDetection | composeApp/src/commonMain/kotlin/com/cryallen/tigerfire/presentation/common/IdleTimer.kt:128-133 | RUNNING becomes PAUSED; any other state is left alone |
| Idle.IdleTimer.ResumeIdleDetection | composeApp/src/commonMain/kotlin/com/cryallen/tigerfire/presentation/common/IdleTimer.kt:140-147 | PAUSED becomes RUNNING with the activity time now; any other state is left alone |
| Idle.IdleTimer.ReportActivity | composeApp/src/commonMain/kotlin/com/cryallen/tigerfire/presentation/common/IdleTimer.kt:160-167 | moves the activity time to now only while running |
| Idle.IdleTimer.TimeUntilIdle | composeApp/src/commonMain/kotlin/com/cryallen/tigerfire/presentation/common/IdleTimer.kt:174-181 | `Long.MAX_VALUE` when stopped or without a timeout, else max(0, timeout − idle time) |
| Idle.IdleTimer.Tick | composeApp/src/commonMain/kotlin/com/cryallen/tigerfire/presentation/common/IdleTimer.kt:188-206 | stopped: nothing; timed out: TRIGGERED, stopped, callback once; otherwise the next delay |
| Idle.IdleTimer.HandleIdleTimeout | composeApp/src/commonMain/kotlin/com/cryallen/tigerfire/presentation/common/IdleTimer.kt:211-217 | TRIGGERED, stopped, the callback invoked once more |
| Session.RemainingMinutesOf | composeApp/src/commonMain/kotlin/com/cryallen/tigerfire/presentation/common/SessionTimer.kt:296-300 | 0 when nothing remains, else the ceiling of the remaining minutes, within `Int` |
| Session.CeilingFits | composeApp/src/commonMain/kotlin/com/cryallen/tigerfire/presentation/common/SessionTimer.kt:296-300 | the wrapped `(remaining + 59999) / 60000` is the true ceiling when it fits an `Int` |
| Session.NeverStartedMinutes | composeApp/src/commonMain/kotlin/com/cryallen/tigerfire/presentation/common/SessionTimer.kt:296-300 | a never-started timer, whose remaining time is `Long.MAX_VALUE`, reports −1692789775 minutes |
| Session.SessionTimer.StartSession | composeApp/src/commonMain/kotlin/com/cryallen/tigerfire/presentation/common/SessionTimer.kt:141-163 | RUNNING with the new duration and reminder, zero elapsed and paused time, no reminder sent, the whole duration remaining |
| Session.SessionTimer.PauseSession | composeApp/src/commonMain/kotlin/com/cryallen/tigerfire/presentation/common/SessionTimer.kt:170-176 | RUNNING becomes PAUSED at now; otherwise nothing changes |
| Session.SessionTimer.ResumeSession | composeApp/src/commonMain/kotlin/com/cryallen/tigerfire/presentation/common/SessionTimer.kt:183-192 | PAUSED becomes RUNNING and the pause is added to the paused total; otherwise nothing changes |
| Session.SessionTimer.StopSession | composeApp/src/commonMain/kotlin/com/cryallen/tigerfire/presentation/common/SessionTimer.kt:199-202 | IDLE and not running; the counters are kept |
| Session.SessionTimer.EndSessionAndRecord | composeApp/src/commonMain/kotlin/com/cryallen/tigerfire/presentation/common/SessionTimer.kt:209-222 | records the elapsed time exactly when it is positive, then ends IDLE |
| Session.SessionTimer.Tick | composeApp/src/commonMain/kotlin/com/cryallen/tigerfire/presentation/common/SessionTimer.kt:239-265 | elapsed = max(0, now − start − paused), remaining = max(0, duration − elapsed); the reminder flag never reverts; the loop stops at the limit, recording a positive elapsed time into today's usage while progress and badges stay as they were |
| Session.SessionTimer.CheckAndSendReminder | composeApp/src/commonMain/kotlin/com/cryallen/tigerfire/presentation/common/SessionTimer.kt:270-279 | the reminder is sent once the time left is within the reminder window, and stays sent |
| Session.SessionTimer.HandleTimeLimitReached | composeApp/src/commonMain/kotlin/com/cryallen/tigerfire/presentation/common/SessionTimer.kt:284-289 | ends the session and records a positive elapsed time into today's usage (progress and badges unchanged), leaving IDLE rather than TIME_LIMIT_REACHED |
| Session.SessionTimer.RemainingMinutes | composeApp/src/commonMain/kotlin/com/cryallen/tigerfire/presentation/common/SessionTimer.kt:296-300 | once started: 0 exactly when nothing remains, else the ceiling of the minutes |
| Session.SessionTimer.ShouldShowReminder | composeApp/src/commonMain/kotlin/com/cryallen/tigerfire/presentation/common/SessionTimer.kt:307-309 | true exactly when the reminder was sent and the timer runs |
| CollectionVM.SheepIndex | composeApp/src/commonMain/kotlin/com/cryallen/tigerfire/presentation/collection/CollectionViewModel.kt:92-101 | 1 for "forest_sheep1", 2 for "forest_sheep2", 0 otherwise |
| CollectionVM.IsBacked | composeApp/src/commonMain/kotlin/com/cryallen/tigerfire/presentation/collection/CollectionViewModel.kt:84-101 | a fire-station badge needs its device done; a school badge needs the school COMPLETED; a forest badge needs its sheep rescued |
| CollectionVM.Validated | composeApp/src/commonMain/kotlin/com/cryallen/tigerfire/presentation/collection/CollectionViewModel.kt:76-110 | an order-preserving subsequence holding exactly the backed badges |
| CollectionVM.ValidatedIdempotent | composeApp/src/commonMain/kotlin/com/cryallen/tigerfire/presentation/collection/CollectionViewModel.kt:76-110 | validating twice against the same progress equals validating once |
| CollectionVM.ValidateBadgesWithProgress | composeApp/src/commonMain/kotlin/com/cryallen/tigerfire/presentation/collection/CollectionViewModel.kt:76-110 | the loop builds exactly the validated list |
| CollectionVM.DeriveState | composeApp/src/commonMain/kotlin/com/cryallen/tigerfire/presentation/collection/CollectionViewModel.kt:38-65 | validated badges, total = count, unique = distinct types ≤ total, complete exactly at seven types, groups per scene |
| CollectionVM.StateOf | composeApp/src/commonMain/kotlin/com/cryallen/tigerfire/presentation/collection/CollectionViewModel.kt:46-65 | from validated badges: total = count, unique = distinct types ≤ total, complete exactly at seven types, groups per scene |
| CollectionVM.InitialStateIsDerived | composeApp/src/commonMain/kotlin/com/cryallen/tigerfire/presentation/collection/CollectionViewModel.kt:38-65 | an empty badge table derives the initial state |
| CollectionVM.CollectionViewModel.OnDataChanged | composeApp/src/commonMain/kotlin/com/cryallen/tigerfire/presentation/collection/CollectionViewModel.kt:38-65 | the state is derived from the new progress and badges |
| CollectionVM.CollectionViewModel.BackToMapClicked | composeApp/src/commonMain/kotlin/com/cryallen/tigerfire/presentation/collection/CollectionViewModel.kt:130-133 | click sound, then navigation to the map |
| CollectionVM.CollectionViewModel.BadgeClicked | composeApp/src/commonMain/kotlin/com/cryallen/tigerfire/presentation/collection/CollectionViewModel.kt:140-143 | badge sound, then the badge's detail |
| CollectionVM.CollectionViewModel.BadgesForScene | composeApp/src/commonMain/kotlin/com/cryallen/tigerfire/presentation/collection/CollectionViewModel.kt:171-173 | the validated badges of the scene, [] for a scene with no group |
| CollectionVM.CollectionViewModel.HasBadgesForScene | composeApp/src/commonMain/kotlin/com/cryallen/tigerfire/presentation/collection/CollectionViewModel.kt:181-183 | true exactly when a validated badge belongs to the scene |
| CollectionVM.HasAllUniqueBadgesCorrected | composeApp/src/commonMain/kotlin/com/cryallen/tigerfire/domain/model/BadgeExtensions.kt:115-123 | corrected: every required type held, with the forest names the forest scene produces |
| CollectionVM.FinishedGameCollectsAll | composeApp/src/commonMain/kotlin/com/cryallen/tigerfire/presentation/collection/CollectionViewModel.kt:76-110 | once every scene is finished and each required type was awarded, the validated badges are a complete collection |
| CollectionVM.ForestNamesCounterexample | composeApp/src/commonMain/kotlin/com/cryallen/tigerfire/domain/model/BadgeExtensions.kt:115-123 | a finished game's seven badges all survive validation, yet the check as written reports the collection incomplete |
| MathQuestion.Generate | composeApp/src/commonMain/kotlin/com/cryallen/tigerfire/presentation/map/MapViewModel.kt:205-211 | the text is "a + b = ?" and the answer a + b, in 2..10 |
| MathQuestion.TextShowsAnswer | composeApp/src/commonMain/kotlin/com/cryallen/tigerfire/presentation/parent/ParentViewModel.kt:397-403 | the digits in the text add up to the answer |
| MathQuestion.SameTextSameAnswer | composeApp/src/commonMain/kotlin/com/cryallen/tigerfire/presentation/parent/ParentViewModel.kt:397-403 | the text determines the addends, so the answer |
| MapVM.DefaultMapState | composeApp/src/commonMain/kotlin/com/cryallen/tigerfire/presentation/map/MapViewModel.kt:55-73 | the fire station open, the others locked, no badges, no dialog |
| MapVM.SceneClickEffects | composeApp/src/commonMain/kotlin/com/cryallen/tigerfire/presentation/map/MapViewModel.kt:99-118 | a locked or missing scene plays the locked hint; an open one plays its sound, then navigates |
| MapVM.ClickNavigatesIffUnlocked | composeApp/src/commonMain/kotlin/com/cryallen/tigerfire/presentation/map/MapViewModel.kt:99-118 | a click navigates exactly into the clicked scene, and only when the progress unlocks it |
| MapVM.MapViewModel.OnProgress | composeApp/src/commonMain/kotlin/com/cryallen/tigerfire/presentation/map/MapViewModel.kt:55-73 | the state is rebuilt from the progress's scene statuses, closing any open dialog |
| MapVM.MapViewModel.SceneClicked | composeApp/src/commonMain/kotlin/com/cryallen/tigerfire/presentation/map/MapViewModel.kt:99-118 | appends the click effects; navigation happens exactly for an open scene |
| MapVM.MapViewModel.UpdateSelectedScene | composeApp/src/commonMain/kotlin/com/cryallen/tigerfire/presentation/map/MapViewModel.kt:125-128 | remembers the scene; the trigger goes up by one (wrapping at `Int.MAX_VALUE`) |
| MapVM.MapViewModel.UpdateScenePosition | composeApp/src/commonMain/kotlin/com/cryallen/tigerfire/presentation/map/MapViewModel.kt:136-138 | overwrites that scene's position and keeps every other |
| MapVM.MapViewModel.CollectionClicked | composeApp/src/commonMain/kotlin/com/cryallen/tigerfire/presentation/map/MapViewModel.kt:143-146 | only navigation to the collection |
| MapVM.MapViewModel.ParentModeClicked | composeApp/src/commonMain/kotlin/com/cryallen/tigerfire/presentation/map/MapViewModel.kt:151-160 | shows the gate with a fresh question |
| MapVM.MapViewModel.SubmitParentAnswer | composeApp/src/commonMain/kotlin/com/cryallen/tigerfire/presentation/map/MapViewModel.kt:167-186 | the right answer closes the gate and navigates to the parent area; anything else brings a new question and no navigation |
| MapVM.MapViewModel.CancelParentVerification | composeApp/src/commonMain/kotlin/com/cryallen/tigerfire/presentation/map/MapViewModel.kt:191-196 | the gate closes and the question is dropped |
| ParentVM.SavedSessionDuration | composeApp/src/commonMain/kotlin/com/cryallen/tigerfire/presentation/parent/ParentViewModel.kt:296-306 | enabled with a stored positive value keeps it; enabled otherwise 30; disabled 15; always positive |
| ParentVM.OpenThenSaveKeepsLength | composeApp/src/commonMain/kotlin/com/cryallen/tigerfire/presentation/parent/ParentViewModel.kt:248-306 | opening the dialog and saving without a toggle keeps a positive duration and resets any other to 15 |
| ParentVM.ParentViewModel.constructor | composeApp/src/commonMain/kotlin/com/cryallen/tigerfire/presentation/parent/ParentViewModel.kt:35-41 | the default state, no effects |
| ParentVM.ParentViewModel.OnData | composeApp/src/commonMain/kotlin/com/cryallen/tigerfire/presentation/parent/ParentViewModel.kt:45-69 | a fresh state with today's usage, total play time, statuses and badge count; every dialog closed |
| ParentVM.ParentViewModel.BackToMapClicked | composeApp/src/commonMain/kotlin/com/cryallen/tigerfire/presentation/parent/ParentViewModel.kt:101-104 | click sound, then navigation to the map |
| ParentVM.ParentViewModel.UpdateSessionTimeLimit | composeApp/src/commonMain/kotlin/com/cryallen/tigerfire/presentation/parent/ParentViewModel.kt:111-119 | remembers the minutes and opens reverification for a time-settings update |
| ParentVM.ParentViewModel.UpdateDailyTimeLimit | composeApp/src/commonMain/kotlin/com/cryallen/tigerfire/presentation/parent/ParentViewModel.kt:126-133 | opens reverification for a time-settings update without remembering minutes |
| ParentVM.ParentViewModel.UpdateReminderTime | composeApp/src/commonMain/kotlin/com/cryallen/tigerfire/presentation/parent/ParentViewModel.kt:140-152 | writes the reminder minutes into the settings and shows the saved hint |
| ParentVM.ParentViewModel.ResetProgressClicked | composeApp/src/commonMain/kotlin/com/cryallen/tigerfire/presentation/parent/ParentViewModel.kt:157-162 | only shows the confirmation |
| ParentVM.ParentViewModel.ConfirmResetProgress | composeApp/src/commonMain/kotlin/com/cryallen/tigerfire/presentation/parent/ParentViewModel.kt:167-175 | hides the confirmation and opens reverification for a reset |
| ParentVM.ParentViewModel.CancelResetProgress | composeApp/src/commonMain/kotlin/com/cryallen/tigerfire/presentation/parent/ParentViewModel.kt:180-184 | only hides the confirmation |
| ParentVM.ParentViewModel.SubmitReverificationAnswer | composeApp/src/commonMain/kotlin/com/cryallen/tigerfire/presentation/parent/ParentViewModel.kt:190-232 | a right answer closes the gate and runs the pending action; a wrong one keeps the action, brings a new question and the failure hint; the gate stays open exactly when it was open and the answer was wrong |
| ParentVM.ParentViewModel.ApproveReset | composeApp/src/commonMain/kotlin/com/cryallen/tigerfire/presentation/parent/ParentViewModel.kt:348-367 | the re-check closes (218-222), then the reset job empties the store, sets the scene statuses from the reset progress, zeroes the badge count and play time, shows and sends the success hint; the figures on show then agree with the store |
| ParentVM.ParentViewModel.ApproveTimeSettings | composeApp/src/commonMain/kotlin/com/cryallen/tigerfire/presentation/parent/ParentViewModel.kt:200-222 | the re-check closes; a pending length is then stored with the saved hint, and without one the store is untouched |
| ParentVM.ParentViewModel.ApproveClearStatistics | composeApp/src/commonMain/kotlin/com/cryallen/tigerfire/presentation/parent/ParentViewModel.kt:207-222 | only the saved-hint effect remains: the closing copy overwrites the hint flag |
| ParentVM.ParentViewModel.ExecuteUpdateTimeSettings | composeApp/src/commonMain/kotlin/com/cryallen/tigerfire/presentation/parent/ParentViewModel.kt:329-343 | writes the session minutes into the settings and shows the saved hint |
| ParentVM.ParentViewModel.CancelReverification | composeApp/src/commonMain/kotlin/com/cryallen/tigerfire/presentation/parent/ParentViewModel.kt:237-243 | clears the gate, question and action but keeps the pending minutes |
| ParentVM.ParentViewModel.ShowTimeSettingsDialog | composeApp/src/commonMain/kotlin/com/cryallen/tigerfire/presentation/parent/ParentViewModel.kt:248-256 | opens the dialog; the session toggle is on exactly when the stored duration is positive; the daily toggle off |
| ParentVM.ParentViewModel.DismissTimeSettingsDialog | composeApp/src/commonMain/kotlin/com/cryallen/tigerfire/presentation/parent/ParentViewModel.kt:261-265 | only closes the dialog |
| ParentVM.ParentViewModel.ToggleSessionTimeLimit | composeApp/src/commonMain/kotlin/com/cryallen/tigerfire/presentation/parent/ParentViewModel.kt:270-274 | only sets the session toggle |
| ParentVM.ParentViewModel.ToggleDailyTimeLimit | composeApp/src/commonMain/kotlin/com/cryallen/tigerfire/presentation/parent/ParentViewModel.kt:279-284 | only sets the daily toggle |
| ParentVM.ParentViewModel.SaveTimeSettings | composeApp/src/commonMain/kotlin/com/cryallen/tigerfire/presentation/parent/ParentViewModel.kt:289-320 | stores the saved duration (always positive), closes the dialog, shows the saved hint |
| ParentVM.ParentViewModel.DismissSettingsSavedHint | composeApp/src/commonMain/kotlin/com/cryallen/tigerfire/presentation/parent/ParentViewModel.kt:372-377 | only clears that hint |
| ParentVM.ParentViewModel.DismissResetSuccessHint | composeApp/src/commonMain/kotlin/com/cryallen/tigerfire/presentation/parent/ParentViewModel.kt:379-384 | only clears that hint |
| ParentVM.ParentViewModel.DismissVerificationFailedHint | composeApp/src/commonMain/kotlin/com/cryallen/tigerfire/presentation/parent/ParentViewModel.kt:386-391 | only clears that hint |
| SchoolVM.InitialState | composeApp/src/commonMain/kotlin/com/cryallen/tigerfire/presentation/school/SchoolState.kt:14-64 | alarm, play button and controls shown; nothing playing, paused or completed; no path |
| SchoolVM.Entered | composeApp/src/commonMain/kotlin/com/cryallen/tigerfire/presentation/school/SchoolViewModel.kt:147-157 | shows the alarm and the play button and starts the alarm sound; nothing else changes |
| SchoolVM.StartedVideo | composeApp/src/commonMain/kotlin/com/cryallen/tigerfire/presentation/school/SchoolViewModel.kt:186-193 | playing the path, play button and alarm off; the video cannot be started again |
| SchoolVM.Paused | composeApp/src/commonMain/kotlin/com/cryallen/tigerfire/presentation/school/SchoolViewModel.kt:376-391 | sets paused only while playing; nothing else changes |
| SchoolVM.Resumed | composeApp/src/commonMain/kotlin/com/cryallen/tigerfire/presentation/school/SchoolViewModel.kt:396-411 | clears paused only while playing; nothing else changes |
| SchoolVM.Exited | composeApp/src/commonMain/kotlin/com/cryallen/tigerfire/presentation/school/SchoolViewModel.kt:418-437 | while playing: stops, unpauses, shows the play button, alarm off; otherwise unchanged |
| SchoolVM.BadgeClosed | composeApp/src/commonMain/kotlin/com/cryallen/tigerfire/presentation/school/SchoolViewModel.kt:445-465 | while the badge shows: hides it, shows the play button, clears video and alarm flags; otherwise unchanged |
| SchoolVM.BackToMapEffects | composeApp/src/commonMain/kotlin/com/cryallen/tigerfire/presentation/school/SchoolViewModel.kt:329-349 | nothing while playing; otherwise ends with navigation, preceded by stopping the alarm exactly when it plays |
| SchoolVM.ResumeUndoesPause | composeApp/src/commonMain/kotlin/com/cryallen/tigerfire/presentation/school/SchoolViewModel.kt:376-411 | pausing a playing video and resuming it restores the state |
| SchoolVM.PauseUndoesResume | composeApp/src/commonMain/kotlin/com/cryallen/tigerfire/presentation/school/SchoolViewModel.kt:376-411 | resuming a paused video and pausing it restores the state |
| SchoolVM.ExitAndCloseAllowReplay | composeApp/src/commonMain/kotlin/com/cryallen/tigerfire/presentation/school/SchoolViewModel.kt:418-465 | after exiting the video or closing the badge the play button works again |
| SchoolVM.SchoolViewModel.constructor | composeApp/src/commonMain/kotlin/com/cryallen/tigerfire/presentation/school/SchoolViewModel.kt:87-105 | the initial state, an empty guard, idle detection running with a 30-second timeout |
| SchoolVM.SchoolViewModel.OnProgress | composeApp/src/commonMain/kotlin/com/cryallen/tigerfire/presentation/school/SchoolViewModel.kt:89-98 | only the completed flag follows the progress |
| SchoolVM.SchoolViewModel.ScreenEntered | composeApp/src/commonMain/kotlin/com/cryallen/tigerfire/presentation/school/SchoolViewModel.kt:134-158 | a rapid click only plays the slow-down voice; otherwise the alarm starts, then the fire-alert voice |
| SchoolVM.SchoolViewModel.PlayButtonClicked | composeApp/src/commonMain/kotlin/com/cryallen/tigerfire/presentation/school/SchoolViewModel.kt:165-200 | nothing unless the play button shows and no video plays; a rapid click only plays the slow-down voice; otherwise the video starts; an accepted click reports activity to a running idle timer |
| SchoolVM.SchoolViewModel.BadgeAnimationCompleted | composeApp/src/commonMain/kotlin/com/cryallen/tigerfire/presentation/school/SchoolViewModel.kt:312-322 | hides the badge, then navigates to the map |
| SchoolVM.SchoolViewModel.BackToMapClicked | composeApp/src/commonMain/kotlin/com/cryallen/tigerfire/presentation/school/SchoolViewModel.kt:329-349 | the back-to-map effects; idle detection stops unless a video plays |
| SchoolVM.SchoolViewModel.OnIdleTimeout | composeApp/src/commonMain/kotlin/com/cryallen/tigerfire/presentation/school/SchoolViewModel.kt:356-358 | only the idle-hint effect |
| SchoolVM.SchoolViewModel.PauseVideoClicked | composeApp/src/commonMain/kotlin/com/cryallen/tigerfire/presentation/school/SchoolViewModel.kt:376-391 | the paused state, no effect; when it acts, the activity is reported: a running idle timer's last activity becomes now, and the timer's other fields are kept |
| SchoolVM.SchoolViewModel.ResumeVideoClicked | composeApp/src/commonMain/kotlin/com/cryallen/tigerfire/presentation/school/SchoolViewModel.kt:396-411 | the resumed state, no effect; when it acts, the activity is reported: a running idle timer's last activity becomes now, and the timer's other fields are kept |
| SchoolVM.SchoolViewModel.ExitVideoClicked | composeApp/src/commonMain/kotlin/com/cryallen/tigerfire/presentation/school/SchoolViewModel.kt:418-437 | the exited state, no effect; when it acts, the activity is reported: a running idle timer's last activity becomes now, and the timer's other fields are kept |
| SchoolVM.SchoolViewModel.CloseBadgeAnimation | composeApp/src/commonMain/kotlin/com/cryallen/tigerfire/presentation/school/SchoolViewModel.kt:445-465 | the badge-closed state, no effect; when it acts, the activity is reported: a running idle timer's last activity becomes now, and the timer's other fields are kept |
| WelcomeVM.Next | composeApp/src/commonMain/kotlin/com/cryallen/tigerfire/presentation/welcome/WelcomeViewModel.kt:51-88 | truck done shows the wave and plays the voice; wave done only hides the wave; voice done stops the voice and sets navigation; the truck and navigation flags never revert |
| WelcomeVM.EffectsOf | composeApp/src/commonMain/kotlin/com/cryallen/tigerfire/presentation/welcome/WelcomeViewModel.kt:51-88 | truck done: wave animation, then the greeting voice; wave done: nothing; voice done: navigation |
| WelcomeVM.RunFlagsMonotone | composeApp/src/commonMain/kotlin/com/cryallen/tigerfire/presentation/welcome/WelcomeViewModel.kt:38-88 | after any events, navigation is set exactly when it was set or the voice finished, and likewise for the truck flag |
| WelcomeVM.NavigationFollowsGreeting | composeApp/src/commonMain/kotlin/com/cryallen/tigerfire/presentation/welcome/WelcomeViewModel.kt:38-88 | navigation is emitted exactly when the greeting voice finished |
| WelcomeVM.RunAppend | composeApp/src/commonMain/kotlin/com/cryallen/tigerfire/presentation/welcome/WelcomeViewModel.kt:38-44 | handling one more event extends the run by that event's step and effects |
| WelcomeVM.WelcomeViewModel.OnEvent | composeApp/src/commonMain/kotlin/com/cryallen/tigerfire/presentation/welcome/WelcomeViewModel.kt:38-44 | the state takes the event's step and the log its effects, so they always equal the run over the events handled |

## Left out

- `zlib.compress` is a function parameter. The model says only that IDAT holds its output; the round trips assume an inverse.
- PngImages.GradientPixel: computes `c1 + (c2 − c1)·x/w` exactly on integers, truncated, not the script's float arithmetic, which may differ by one in rare cases.
- PngImages.ButtonPixel: the rim shade `int(c * shadow)` uses `sqrt` and floats, so it is a parameter. The core of the disc, the transparent outside and the alpha are exact.
- `create_badge_icon` (scripts/generate_images.py:82-125): radial gradient in floats.
- `main` (scripts/generate_images.py:178-243): directory creation, file writes and prints.
- Kotlin `Long` wrap-around is not modelled in clock arithmetic (`now − start`, `now − lastActivity`). `Int` wrap-around is modelled in exactly four places: whole minutes narrowed from `Long`, the `minutes * 60` product of every minutes-to-milliseconds conversion (`Settings.MinutesToMillis`), the `Int` sum in `extendTime` and the animation trigger. Every other counter and sum is an unbounded integer, as the lines below list.
- Progress.IncrementForestRescuedSheep: the `Int` counter `forestRescuedSheep + 1` (GameProgress.kt:149) is not wrapped at `Int.MAX_VALUE`; the forest completes at two.
- Progress.AddPlayTime: the `Long` sum `totalPlayTime + milliseconds` (GameProgress.kt:121) is not wrapped.
- Store.ProgressStore.AddTotalPlayTime: the same `Long` sum, in the stored progress, is not wrapped.
- Settings.RecordUsage: the `Long` sum `currentDuration + durationMillis` (ParentSettings.kt:75) is not wrapped; so neither is `Store.ProgressStore.RecordUsage`, which applies it.
- Settings.WeeklyUsage: the `Long` `sumOf` over the week (ParentSettings.kt:96) is not wrapped.
- UsageStats.Total: the `Long` `values.sum()` (RecordUsageUseCase.kt:67) is not wrapped, nor are the figures `UsageStats.WeeklyStatsOf` derives from it before their `Int` narrowing.
- TimeLimit.Check: the `Long` difference `sessionDurationMs − elapsedTimeMs` is not wrapped. It can overflow only for elapsed times within 2147483648000 ms (about 68 years) of the `Long` limits.
- Coroutines, channels, `delay` and the polling loops' scheduling are not modelled. Each loop pass is a `Tick(now)` method; each launched job runs to completion right after its handler's synchronous state change.
- Exceptions caught into `Result.failure` are not modelled (use cases, repository writes); no operation in the model throws.
- The repository's `onStart { emit(default) }` is not modelled except in `Store.RecordUsageAsWritten`: it makes `first()` return the default settings. The same pattern also appears in ParentViewModel.kt:144,294,332 and CheckTimeLimitUseCase.kt:65,178,209. The model reads the stored settings there.
- TimeLimit.CheckTimeLimitUseCase.Invoke: reads the stored settings. In the source, `first()` (CheckTimeLimitUseCase.kt:65) takes the `onStart` default emission, so a session length the parent sets does not reach this check.
- TimeLimit.CheckTimeLimitUseCase.ExtendTime: reads the stored settings, not the default emission (see above).
- TimeLimit.CheckTimeLimitUseCase.UpdateTimeLimit: reads the stored settings, not the default emission.
- ParentVM.ParentViewModel.UpdateReminderTime: reads the stored settings, not the default emission.
- ParentVM.ParentViewModel.ExecuteUpdateTimeSettings: reads the stored settings, not the default emission.
- ParentVM.ParentViewModel.SaveTimeSettings: reads the stored settings, not the default emission.
- Store.ProgressStore.ResetProgress: the SQL statements behind `resetProgress`, `deleteAllBadges` and `resetParentSettings` are not part of this model. The model takes them to store `GameProgress.initial()`, no badges and `ParentSettings.default()`, as ParentViewModel.kt:350 describes the reset.
- ParentVM.ParentViewModel.SubmitReverificationAnswer: the CLEAR_STATISTICS branch is modelled as written. Its job's saved hint is overwritten by the state copy that follows, so only the effect remains.
- `SchoolViewModel.handleVideoCompleted` (SchoolViewModel.kt:207-295) is not modelled. It is a coroutine over the repository that awards a badge and completes the scene. `handleVoiceCompleted` (302-305) does nothing.
- `ForestViewModel`, `FireStationViewModel`, `AppSessionManager` and `ResetProgressUseCase` are not part of this model. The forest badge names come from ForestViewModel.kt:357-369. `AppSessionManager` (AppSessionManager.kt:178-183) reports −1 for an idle timer, so the never-started value in `Session.NeverStartedMinutes` does not reach the screen.
- SQL conflict policies, JSON encoding of the usage map and the row mapping beyond the empty badge list are not modelled.
- `groupBy` key order is not modelled: groups are maps.
- Strings are sequences of characters, with no UTF-16 detail.
- Badges.CollectionProgress: states the integer fraction only, not the float percentage.
- Progress.CompletedSceneCount: states the numerator of `getOverallProgress` only, not the float.
- AwardBadge.ProgressOf: states the counts only, not the float `completionPercentage`.
- `getUsageTrend` (RecordUsageUseCase.kt:164-191): float averages over the order of map values.
- `getTimeLimitSettings` (CheckTimeLimitUseCase.kt:194): a plain pass-through of the settings flow.
- The video path comes from a resource-path provider that is not part of this model; it is a constructor parameter.
- The event enums in SchoolEvent.kt and WelcomeEvent.kt are not modelled. They do not match the handlers, which the model follows.

## Findings

| source | as written | input that shows it | evidently intended | confidence | as-written member | corrected member |
|---|---|---|---|---|---|---|
| scripts/generate_images.py:66-72 | the row loop slices the list of packed pixels with the byte offsets `y*width*4` (also at 112-117 and 163-168) | a 1×2 image: the first row takes both pixels, the second row is empty | each row is filter byte 0 followed by that row's `width` pixels | high, not executed | PngImages.ScanlinesAsWrittenMisplaceRows | PngImages.UnfilterScanlines |
| scripts/generate_images.py:18,23-24 | `create_png` declares colour type 2 (RGB, 3 bytes a pixel) but packs 4 bytes a pixel | any image of at least 1×1: the data is `h` rows of `1+4w` bytes, the header promises `1+3w` | colour type 6 (RGBA), as the other encoders declare | high, not executed | PngImages.CreatePngMisdescribesRows | PngImages.CreateSolidPngDecodes |
| composeApp/src/commonMain/kotlin/com/cryallen/tigerfire/domain/model/BadgeExtensions.kt:115-123 | the required forest types are "forest_sheep_sheep0" and "forest_sheep_sheep1" | a finished game: the forest scene awards "forest_sheep1" and "forest_sheep2" (ForestViewModel.kt:357-369), so the collection never completes | the forest names the forest scene produces (ForestViewModel.kt:357-369); BadgeExtensionsTest.kt:215-242 expects a third spelling, "sheep1"/"sheep2", which the code rejects too, so the test is no guide | high, not executed | CollectionVM.ForestNamesCounterexample | CollectionVM.FinishedGameCollectsAll |
| composeApp/src/commonMain/kotlin/com/cryallen/tigerfire/domain/usecase/AwardBadgeUseCase.kt:46 | the variant is counted in `progress.badges`, which the repository reads back empty (ProgressRepositoryImpl.kt:274) | a table holding "extinguisher_v0": awarding another extinguisher gives variant 0 again | the count of that type in the badge table, modulo 4 | high, not executed | AwardBadge.AwardVariantCounterexample | AwardBadge.AwardBadgeUseCase.InvokeCorrected |
| composeApp/src/commonMain/kotlin/com/cryallen/tigerfire/domain/usecase/AwardBadgeUseCase.kt:115-118 | `hasCollectedAllBadges` asks the progress record, whose badge list is always empty | any repository, even one holding all seven types | ask the badge table, as `getCollectionProgress` does | high, not executed | AwardBadge.HasCollectedAllNeverHolds | AwardBadge.AwardBadgeUseCase.HasCollectedAllCorrected |
| composeApp/src/commonMain/kotlin/com/cryallen/tigerfire/data/repository/ProgressRepositoryImpl.kt:160-164 | `recordUsage` updates `getParentSettings().first()`, which is the `onStart` default emission (138-144), and writes it back | stored 30/5 with usage on 2024-01-01, record 1000 ms on 2024-01-02: 15/2 is written back and 2024-01-01 is lost | update the stored settings | medium, not executed | Store.RecordUsageForgetsStoredSettings | Store.ProgressStore.RecordUsage |

=== FILE: arith.dfy ===
// Kotlin's integer operators where they differ from Dafny's: `/` and `%` on
// Int and Long truncate toward zero, while Dafny's are Euclidean.
module Arith {

  function Min(a: int, b: int): int { if a <= b then a else b }

  function Max(a: int, b: int): int { if a >= b then a else b }

  /** Kotlin `a / b` for a positive divisor: the quotient truncated toward zero. */
  function Quot(a: int, b: int): (q: int)
    requires b > 0
    ensures a >= 0 ==> 0 <= q * b <= a < q * b + b
    ensures a < 0 ==> q * b - b < a <= q * b <= 0
  {
    DivFacts(if a >= 0 then a else -a, b);
    if a >= 0 then a / b else -((-a) / b)
  }

  /** Kotlin `a % b` for a positive divisor: the remainder takes the sign of `a`. */
  function Rem(a: int, b: int): (r: int)
    requires b > 0
    ensures a == Quot(a, b) * b + r
    ensures a >= 0 ==> 0 <= r < b
    ensures a < 0 ==> -b < r <= 0
  {
    a - Quot(a, b) * b
  }

  lemma DivFacts(a: nat, b: int)
    requires b > 0
    ensures a / b >= 0
    ensures 0 <= (a / b) * b <= a < (a / b) * b + b
  {
    var q := a / b;
    assert a == q * b + a % b;
    if q < 0 {
      MulLe(q, -1, b);
    }
  }

  /** Multiplying by a non-negative factor keeps the order. */
  lemma {:induction false} MulLe(x: int, y: int, k: nat)
    requires x <= y
    ensures x * k <= y * k
    decreases k
  {
    if k > 0 {
      MulLe(x, y, k - 1);
      assert x * k == x * (k - 1) + x;
      assert y * k == y * (k - 1) + y;
    }
  }

  /** A strict inequality between multiples of a positive factor holds between the factors. */
  lemma MulLtCancel(x: int, y: int, k: int)
    requires k > 0 && x * k < y * k
    ensures x < y
  {
    if y <= x {
      MulLe(y, x, k);
    }
  }

  /** On non-negative operands truncation and Euclidean division agree. */
  lemma QuotOfNatural(a: int, b: int)
    requires a >= 0 && b > 0
    ensures Quot(a, b) == a / b && Rem(a, b) == a % b
  {
  }

  /** Dividing twice truncates like dividing once by the product: `ms / 1000 / 60 == ms / 60000`. */
  lemma QuotQuot(a: int, b: int, c: int)
    requires b > 0 && c > 0
    ensures Quot(Quot(a, b), c) == Quot(a, b * c)
  {
    MulPositive(b, c);
    if a >= 0 {
      NaturalQuotQuot(a, b, c);
      DivFacts(a, b);
    } else {
      NaturalQuotQuot(-a, b, c);
      DivFacts(-a, b);
    }
  }

  lemma MulPositive(b: int, c: int)
    requires b > 0 && c > 0
    ensures b * c > 0
  {
    MulLe(1, b, c);
  }

  lemma NaturalQuotQuot(a: nat, b: int, c: int)
    requires b > 0 && c > 0
    ensures (a / b) / c == a / (b * c)
  {
    MulPositive(b, c);
    var q := a / (b * c);
    var r := a % (b * c);
    assert a == q * (b * c) + r && 0 <= r < b * c;
    DivFacts(r, b);
    var r1 := r / b;
    assert r1 * b <= r < c * b;
    MulLtCancel(r1, c, b);
    assert q * (b * c) == (q * c) * b;
    assert a == (q * c + r1) * b + r % b;
    DivUnique(a, b, q * c + r1, r % b);
    DivUnique(a / b, c, q, r1);
  }

  /** A quotient is determined by any decomposition with a remainder in range. */
  lemma DivUnique(a: int, b: int, q: int, r: int)
    requires b > 0 && a == q * b + r && 0 <= r < b
    ensures a / b == q
  {
    var q' := a / b;
    var r' := a % b;
    assert a == q' * b + r';
    assert (q - q') * b == r' - r;
    assert (q - q') * b < 1 * b;
    assert (q' - q) * b < 1 * b;
    MulLtCancel(q - q', 1, b);
    MulLtCancel(q' - q, 1, b);
  }

  /** Floor division keeps bounds that hold for multiples of the divisor. */
  lemma DivBounds(n: nat, d: int, lo: int, hi: int)
    requires d > 0 && lo * d <= n <= hi * d
    ensures lo <= n / d <= hi
  {
    DivFacts(n, d);
    var q := n / d;
    assert lo * d < (q + 1) * d;
    MulLtCancel(lo, q + 1, d);
    assert q * d < (hi + 1) * d;
    MulLtCancel(q, hi + 1, d);
  }

  lemma MulSucc(a: int, b: int)
    ensures (a + 1) * b == a * b + b
  {
  }

  lemma MulSuccRight(a: int, b: int)
    ensures a * (b + 1) == a * b + a
  {
  }

  const IntMin: int := -0x8000_0000
  const IntMax: int := 0x7FFF_FFFF
  const LongMin: int := -0x8000_0000_0000_0000
  const LongMax: int := 0x7FFF_FFFF_FFFF_FFFF

  /** A multiple of `m`, scaled by `k`, is a multiple of `m * k`. */
  lemma ScaledMultiple(d: int, m: int, k: int)
    requires m > 0 && k > 0 && d % m == 0
    ensures (d * k) % (m * k) == 0
  {
    var q := d / m;
    assert d * k == q * (m * k) by {
      assert d == q * m;
    }
    MulPositive(m, k);
    DivUnique(d * k, m * k, q, 0);
  }

  /** A Long result as two's-complement arithmetic leaves it: reduced into [LongMin, LongMax]. */
  function WrapLong(x: int): (r: int)
    ensures LongMin <= r <= LongMax
    ensures (r - x) % 0x1_0000_0000_0000_0000 == 0
    ensures LongMin <= x <= LongMax ==> r == x
  {
    (x - LongMin) % 0x1_0000_0000_0000_0000 + LongMin
  }

  /** Long.toInt(): keeps the low 32 bits, read as a signed Int. */
  function ToInt(x: int): (r: int)
    ensures IntMin <= r <= IntMax
    ensures (r - x) % 0x1_0000_0000 == 0
    ensures IntMin <= x <= IntMax ==> r == x
  {
    (x - IntMin) % 0x1_0000_0000 + IntMin
  }

  /** Int.coerceIn(lo, hi): the nearest value in [lo, hi]. */
  function CoerceIn(x: int, lo: int, hi: int): (r: int)
    requires lo <= hi
    ensures lo <= r <= hi
    ensures lo <= x <= hi ==> r == x
    ensures x < lo ==> r == lo
    ensures x > hi ==> r == hi
  {
    if x < lo then lo else if x > hi then hi else x
  }

  /** `ms / 1000 / 60` on a Long: whole minutes, truncated toward zero. */
  function WholeMinutes(ms: int): (m: int)
    ensures m == Quot(ms, 60000)
    ensures ms >= 0 ==> 0 <= m && m * 60000 <= ms < m * 60000 + 60000
  {
    QuotQuot(ms, 1000, 60);
    Quot(Quot(ms, 1000), 60)
  }
}

=== FILE: award_badge.dfy ===
// Awarding badges through the repository and the collection summary
// (domain/usecase/AwardBadgeUseCase.kt).
module AwardBadge {
  import opened Wrappers
  import opened Scenes
  import opened Badges
  import opened Progress
  import opened Store
  import Seqs
  import Text

  /** badges.count { it.baseType == baseType }, counted one badge at a time. */
  function CountOfType(badges: seq<Badge>, baseType: string): (n: nat)
    ensures n == |BadgesByBaseType(badges, baseType)|
    decreases |badges|
  {
    if badges == [] then 0
    else
      var init := badges[..|badges| - 1];
      var last := badges[|badges| - 1];
      assert badges == init + [last];
      Seqs.FilterAppend(init, [last], OfType(baseType));
      CountOfType(init, baseType) + if last.baseType == baseType then 1 else 0
  }

  /** calculateNextVariant of the use case: the count of that type modulo four, the same as the list extension's. */
  function NextVariant(badges: seq<Badge>, baseType: string): (v: int)
    ensures v == CalculateNextVariant(badges, baseType)
    ensures 0 <= v < MaxVariantsPerType
  {
    CountOfType(badges, baseType) % MaxVariantsPerType
  }

  /** badges.count { it.belongsToScene(scene) }, counted one badge at a time. */
  function CountInScene(badges: seq<Badge>, scene: SceneType): (n: nat)
    ensures n == CountByScene(badges, scene)
    decreases |badges|
  {
    if badges == [] then 0
    else
      var init := badges[..|badges| - 1];
      var last := badges[|badges| - 1];
      assert badges == init + [last];
      Seqs.FilterAppend(init, [last], InScene(scene));
      CountInScene(init, scene) + if BelongsToScene(last, scene) then 1 else 0
  }

  /** The collection summary: all badges, distinct base types, distinct base types per scene, and completeness. */
  datatype BadgeProgress = BadgeProgress(
    totalBadges: int,
    uniqueBadges: int,
    fireStationBadges: int,
    schoolBadges: int,
    forestBadges: int,
    hasCollectedAll: bool)

  /**
   * getCollectionProgress over a badge list: the per-scene counts are
   * taken over the first badge of each base type, so they add up to the
   * number of distinct base types.
   */
  function ProgressOf(badges: seq<Badge>): (bp: BadgeProgress)
    ensures bp.totalBadges == |badges|
    ensures bp.uniqueBadges == |BaseTypes(badges)| <= |badges|
    ensures bp.fireStationBadges == CountByScene(DistinctByBaseType(badges), FireStation)
    ensures bp.schoolBadges == CountByScene(DistinctByBaseType(badges), School)
    ensures bp.forestBadges == CountByScene(DistinctByBaseType(badges), Forest)
    ensures bp.fireStationBadges + bp.schoolBadges + bp.forestBadges == bp.uniqueBadges
    ensures 0 <= bp.fireStationBadges && 0 <= bp.schoolBadges && 0 <= bp.forestBadges
    ensures bp.hasCollectedAll <==> |BaseTypes(badges)| >= TotalUniqueBadges
  {
    var unique := DistinctByBaseType(badges);
    DistinctCountIsBaseTypeCount(badges);
    DistinctNoLonger(badges);
    SceneCountsAddUp(unique);
    BadgeProgress(
      |badges|,
      |unique|,
      CountByScene(unique, FireStation),
      CountByScene(unique, School),
      CountByScene(unique, Forest),
      |unique| >= TotalUniqueBadges)
  }

  /** getDisplayText: "已收集 <unique> / 7 枚徽章". */
  function DisplayText(bp: BadgeProgress): (text: string)
    ensures Text.StartsWith(text, "已收集 ")
    ensures |text| == |"已收集 "| + |Text.IntToString(bp.uniqueBadges)| + |" / 7 枚徽章"|
    ensures text[|"已收集 "|..|"已收集 "| + |Text.IntToString(bp.uniqueBadges)|] == Text.IntToString(bp.uniqueBadges)
    ensures text[|"已收集 "| + |Text.IntToString(bp.uniqueBadges)|..] == " / 7 枚徽章"
  {
    var head := "已收集 ";
    var number := Text.IntToString(bp.uniqueBadges);
    var text := head + number + " / " + Text.IntToString(TotalUniqueBadges) + " 枚徽章";
    assert Text.IntToString(TotalUniqueBadges) == "7";
    assert text[..|head|] == head;
    assert text[|head|..|head| + |number|] == number;
    assert text[|head| + |number|..] == " / 7 枚徽章";
    text
  }

  /**
   * The variant the use case computes reads the badges of the progress
   * record, which the repository always reads back empty: every award is
   * variant 0, even when the badge table already holds that type's
   * variant 0 and the count rule asks for variant 1.
   */
  lemma AwardVariantCounterexample(store: ProgressStore)
    ensures NextVariant(store.CurrentProgress().badges, "extinguisher") == 0
    ensures var table := [Badge("extinguisher_v0", FireStation, "extinguisher", 0, 0)];
      NextVariant(table, "extinguisher") == 1
  {
    var table := [Badge("extinguisher_v0", FireStation, "extinguisher", 0, 0)];
    assert CountOfType(table, "extinguisher") == CountOfType([], "extinguisher") + 1 by {
      assert table[..0] == [];
    }
  }

  /**
   * hasCollectedAllBadges as written asks the progress record, whose badge
   * list the repository reads back empty, so it never reports a complete
   * collection.
   */
  lemma HasCollectedAllNeverHolds(store: ProgressStore)
    ensures !HasCollectedAllBadges(store.CurrentProgress())
  {
    assert BaseTypes(store.CurrentProgress().badges) == {};
  }

  class AwardBadgeUseCase {
    const repository: ProgressStore

    constructor (repository: ProgressStore)
      ensures this.repository == repository
    {
      this.repository := repository;
    }

    /**
     * invoke as written: the variant is computed from the re-read progress
     * record, so the badge awarded is always variant 0 of its type; it is
     * appended to the badge table.
     */
    method Invoke(scene: SceneType, baseType: string, now: int) returns (badge: Badge)
      modifies repository
      ensures badge == Badge(GenerateId(baseType, 0), scene, baseType, 0, now)
      ensures repository.badgeTable == old(repository.badgeTable) + [badge]
      ensures repository.writes == old(repository.writes) + [BadgeInserted(badge)]
      ensures repository.progress == old(repository.progress) && repository.settings == old(repository.settings)
    {
      var current := repository.CurrentProgress();
      var variant := NextVariant(current.badges, baseType);
      badge := Badge(GenerateId(baseType, variant), scene, baseType, variant, now);
      repository.AddBadge(badge);
    }

    /**
     * invoke as intended: the variant counts the badges of that type in the
     * badge table, so repeated awards of a type run 0, 1, 2, 3, 0, ...
     * (see Badges.NextVariantCycles).
     */
    method InvokeCorrected(scene: SceneType, baseType: string, now: int) returns (badge: Badge)
      modifies repository
      ensures badge.variant == CalculateNextVariant(old(repository.badgeTable), baseType)
      ensures badge.id == GenerateId(baseType, badge.variant)
      ensures badge.scene == scene && badge.baseType == baseType && badge.earnedAt == now
      ensures repository.badgeTable == old(repository.badgeTable) + [badge]
      ensures repository.writes == old(repository.writes) + [BadgeInserted(badge)]
      ensures repository.progress == old(repository.progress) && repository.settings == old(repository.settings)
    {
      var variant := NextVariant(repository.badgeTable, baseType);
      badge := Badge(GenerateId(baseType, variant), scene, baseType, variant, now);
      repository.AddBadge(badge);
    }

    /** awardMultiple: every badge is inserted, in list order, and the list is returned. */
    method AwardMultiple(badges: seq<Badge>) returns (awarded: seq<Badge>)
      modifies repository
      ensures awarded == badges
      ensures repository.badgeTable == old(repository.badgeTable) + badges
      ensures |repository.writes| == |old(repository.writes)| + |badges|
      ensures repository.writes[..|old(repository.writes)|] == old(repository.writes)
      ensures forall i :: 0 <= i < |badges| ==> repository.writes[|old(repository.writes)| + i] == BadgeInserted(badges[i])
      ensures repository.progress == old(repository.progress) && repository.settings == old(repository.settings)
    {
      var n := 0;
      while n < |badges|
        invariant 0 <= n <= |badges|
        invariant repository.badgeTable == old(repository.badgeTable) + badges[..n]
        invariant |repository.writes| == |old(repository.writes)| + n
        invariant repository.writes[..|old(repository.writes)|] == old(repository.writes)
        invariant forall i :: 0 <= i < n ==> repository.writes[|old(repository.writes)| + i] == BadgeInserted(badges[i])
        invariant repository.progress == old(repository.progress) && repository.settings == old(repository.settings)
      {
        repository.AddBadge(badges[n]);
        assert badges[..n + 1] == badges[..n] + [badges[n]];
        n := n + 1;
      }
      assert badges[..n] == badges;
      awarded := badges;
    }

    /** getBadgeCountForScene: the badges of the table earned in the scene. */
    function BadgeCountForScene(scene: SceneType): (n: nat)
      reads repository
      ensures n == CountByScene(repository.badgeTable, scene) <= |repository.badgeTable|
    {
      CountInScene(repository.badgeTable, scene)
    }

    /** getCollectionProgress: the summary of the badge table. */
    function CollectionProgress(): (bp: BadgeProgress)
      reads repository
      ensures bp == ProgressOf(repository.badgeTable)
    {
      ProgressOf(repository.badgeTable)
    }

    /** hasCollectedAllBadges as written: asks the re-read progress record. */
    predicate HasCollectedAll()
      reads repository
    {
      HasCollectedAllBadges(repository.CurrentProgress())
    }

    /** hasCollectedAllBadges as intended: agrees with the collection summary of the badge table. */
    function HasCollectedAllCorrected(): (r: bool)
      reads repository
      ensures r <==> CollectionProgress().hasCollectedAll
      ensures r <==> |BaseTypes(repository.badgeTable)| >= TotalUniqueBadges
    {
      |DistinctByBaseType(repository.badgeTable)| >= TotalUniqueBadges
    }
  }
}

=== FILE: badges.dfy ===
// Badges the child earns in the scenes, and the queries over a badge list
// (domain/model/Badge.kt and domain/model/BadgeExtensions.kt).
module Badges {
  import opened Wrappers
  import opened Scenes
  import Seqs
  import Text
  import Arith

  /** A badge: its identifier, the scene it was earned in, its base type, its colour variant and when (epoch ms). */
  datatype Badge = Badge(id: string, scene: SceneType, baseType: string, variant: int, earnedAt: int)

  /** Each base type cycles through this many colour variants. */
  const MaxVariantsPerType: nat := 4

  /** The identifier of a badge: "<baseType>_v<variant>". */
  function GenerateId(baseType: string, variant: int): (id: string)
    ensures Text.StartsWith(id, baseType + "_v")
    ensures id[|baseType| + 2..] == Text.IntToString(variant)
  {
    baseType + "_v" + Text.IntToString(variant)
  }

  /** Two variants of one base type never share an identifier. */
  lemma GenerateIdInjective(baseType: string, v1: int, v2: int)
    requires GenerateId(baseType, v1) == GenerateId(baseType, v2)
    ensures v1 == v2
  {
    Text.IntToStringInjective(v1, v2);
  }

  function BelongsToScene(badge: Badge, scene: SceneType): bool
  {
    badge.scene == scene
  }

  /** The display name of a badge is the identifier generated from its base type and variant. */
  function DisplayName(badge: Badge): (name: string)
    ensures name == GenerateId(badge.baseType, badge.variant)
  {
    badge.baseType + "_v" + Text.IntToString(badge.variant)
  }

  // ---------------------------------------------------------------------
  // List queries.

  /** The filter predicates of the list queries. */
  function OfType(baseType: string): Badge -> bool
  {
    (b: Badge) => b.baseType == baseType
  }

  function InScene(scene: SceneType): Badge -> bool
  {
    (b: Badge) => BelongsToScene(b, scene)
  }

  /** getBadgesByBaseType: the badges of one base type, in list order. */
  function BadgesByBaseType(badges: seq<Badge>, baseType: string): (r: seq<Badge>)
    ensures forall b :: b in r <==> b in badges && b.baseType == baseType
    ensures Seqs.IsSubsequence(r, badges)
  {
    Seqs.Filter(badges, OfType(baseType))
  }

  /** getBadgesByScene: the badges earned in one scene, in list order. */
  function BadgesByScene(badges: seq<Badge>, scene: SceneType): (r: seq<Badge>)
    ensures forall b :: b in r <==> b in badges && BelongsToScene(b, scene)
    ensures Seqs.IsSubsequence(r, badges)
  {
    Seqs.Filter(badges, InScene(scene))
  }

  /** countByScene: how many badges were earned in one scene. */
  function CountByScene(badges: seq<Badge>, scene: SceneType): (n: nat)
    ensures n <= |badges|
    ensures n == 0 <==> forall b :: b in badges ==> b.scene != scene
  {
    |BadgesByScene(badges, scene)|
  }

  /** Every badge belongs to exactly one scene, so the three scene counts add up to the list's length. */
  lemma {:induction false} SceneCountsAddUp(badges: seq<Badge>)
    ensures CountByScene(badges, FireStation) + CountByScene(badges, School) + CountByScene(badges, Forest) == |badges|
    decreases |badges|
  {
    if badges != [] {
      var init := badges[..|badges| - 1];
      var last := badges[|badges| - 1];
      assert badges == init + [last];
      SceneCountsAddUp(init);
      Seqs.FilterAppend(init, [last], InScene(FireStation));
      Seqs.FilterAppend(init, [last], InScene(School));
      Seqs.FilterAppend(init, [last], InScene(Forest));
    }
  }

  /** hasBadgeType: whether any badge has the base type. */
  function HasBadgeType(badges: seq<Badge>, baseType: string): (r: bool)
    ensures r <==> BadgesByBaseType(badges, baseType) != []
  {
    exists b :: b in badges && b.baseType == baseType
  }

  /**
   * calculateNextVariant: the variant the next badge of a base type gets,
   * the number already held modulo MaxVariantsPerType.
   */
  function CalculateNextVariant(badges: seq<Badge>, baseType: string): (v: int)
    ensures 0 <= v < MaxVariantsPerType
    ensures |BadgesByBaseType(badges, baseType)| < MaxVariantsPerType ==> v == |BadgesByBaseType(badges, baseType)|
  {
    var held := |BadgesByBaseType(badges, baseType)|;
    held % MaxVariantsPerType
  }

  /**
   * Adding a badge of a base type moves that type's next variant one step
   * round the cycle of four and leaves every other type's next variant alone.
   */
  lemma NextVariantCycles(badges: seq<Badge>, badge: Badge, baseType: string)
    ensures badge.baseType == baseType ==>
      CalculateNextVariant(badges + [badge], baseType) == (CalculateNextVariant(badges, baseType) + 1) % MaxVariantsPerType
    ensures badge.baseType != baseType ==>
      CalculateNextVariant(badges + [badge], baseType) == CalculateNextVariant(badges, baseType)
  {
    CountOfTypeSnoc(badges, badge, baseType);
    ModSucc(|BadgesByBaseType(badges, baseType)|, MaxVariantsPerType);
  }

  /** Appending a badge adds one to the count of its own base type only. */
  lemma CountOfTypeSnoc(badges: seq<Badge>, badge: Badge, baseType: string)
    ensures |BadgesByBaseType(badges + [badge], baseType)|
         == |BadgesByBaseType(badges, baseType)| + if badge.baseType == baseType then 1 else 0
  {
    Seqs.FilterAppend(badges, [badge], OfType(baseType));
  }

  /** Counting one more moves the remainder one step round the cycle. */
  lemma ModSucc(n: nat, m: nat)
    requires m > 0
    ensures (n + 1) % m == (n % m + 1) % m
  {
    if n % m + 1 < m {
      ModSuccBelow(n, m);
    } else {
      ModSuccWrap(n, m);
    }
  }

  /** Below the divisor the remainder just grows by one. */
  lemma ModSuccBelow(n: nat, m: nat)
    requires m > 0 && n % m + 1 < m
    ensures (n + 1) % m == n % m + 1 == (n % m + 1) % m
  {
    var q, r := n / m, n % m;
    assert (n + 1) % m == r + 1 by {
      Arith.DivUnique(n + 1, m, q, r + 1);
    }
    assert (r + 1) % m == r + 1 by {
      Arith.DivUnique(r + 1, m, 0, r + 1);
    }
  }

  /** At the divisor the remainder wraps round to zero. */
  lemma ModSuccWrap(n: nat, m: nat)
    requires m > 0 && n % m + 1 == m
    ensures (n + 1) % m == 0 == (n % m + 1) % m
  {
    var q := n / m;
    assert (n + 1) % m == 0 by {
      assert n + 1 == (q + 1) * m + 0 by { Arith.MulSucc(q, m); }
      Arith.DivUnique(n + 1, m, q + 1, 0);
    }
  }

  /**
   * The index of the badge maxByOrNull { earnedAt } returns: the first badge
   * with the greatest earnedAt; -1 for an empty list.
   */
  function LatestIndex(s: seq<Badge>): (i: int)
    ensures s == [] <==> i == -1
    ensures s != [] ==> 0 <= i < |s|
    ensures s != [] ==> forall j :: 0 <= j < |s| ==> s[j].earnedAt <= s[i].earnedAt
    ensures s != [] ==> forall j :: 0 <= j < i ==> s[j].earnedAt < s[i].earnedAt
    decreases |s|
  {
    if s == [] then -1
    else
      var k := LatestIndex(s[..|s| - 1]);
      if k == -1 then |s| - 1
      else if s[k].earnedAt < s[|s| - 1].earnedAt then |s| - 1
      else k
  }

  /**
   * getLatestBadgeByBaseType: the most recently earned badge of a base type,
   * or null; among equally recent ones, maxByOrNull keeps the first in list
   * order.
   */
  function LatestBadgeByBaseType(badges: seq<Badge>, baseType: string): (r: Option<Badge>)
    ensures r.None? <==> !HasBadgeType(badges, baseType)
    ensures r.Some? ==> r.value in badges && r.value.baseType == baseType
    ensures r.Some? ==> forall b :: b in badges && b.baseType == baseType ==> b.earnedAt <= r.value.earnedAt
    ensures r.Some? ==> exists i :: FirstAsRecentAt(badges, baseType, i, r.value)
  {
    var ofType := BadgesByBaseType(badges, baseType);
    var i := LatestIndex(ofType);
    LatestOfTypeComesFirst(badges, baseType);
    if i == -1 then None else Some(ofType[i])
  }

  /** Position i holds x, and no badge of the type before it is as recent as x. */
  predicate FirstAsRecentAt(badges: seq<Badge>, baseType: string, i: int, x: Badge)
  {
    0 <= i < |badges| && badges[i] == x &&
    forall j :: 0 <= j < i && badges[j].baseType == baseType ==> badges[j].earnedAt < x.earnedAt
  }

  /** The latest badge of a type comes after no badge of that type as recent as it. */
  lemma {:induction false} LatestOfTypeComesFirst(badges: seq<Badge>, baseType: string)
    ensures var ofType := BadgesByBaseType(badges, baseType);
      var k := LatestIndex(ofType);
      k != -1 ==> exists i :: FirstAsRecentAt(badges, baseType, i, ofType[k])
    decreases |badges|
  {
    if badges != [] {
      var n := |badges| - 1;
      var init := badges[..n];
      var ofInit := BadgesByBaseType(init, baseType);
      var kInit := LatestIndex(ofInit);
      LatestOfTypeComesFirst(init, baseType);
      if badges[n].baseType == baseType && (kInit == -1 || ofInit[kInit].earnedAt < badges[n].earnedAt) {
        LastIsLatest(badges, baseType);
        LastIsFirstAsRecent(badges, baseType);
      } else if kInit != -1 {
        LatestUnmoved(badges, baseType);
        var i :| FirstAsRecentAt(init, baseType, i, ofInit[kInit]);
        FirstAsRecentExtend(badges, baseType, i, ofInit[kInit]);
      }
    }
  }

  /** Filtering by type a list with one more badge at the end. */
  lemma BadgesByBaseTypeSnoc(badges: seq<Badge>, baseType: string)
    requires badges != []
    ensures var init, last := badges[..|badges| - 1], badges[|badges| - 1];
      BadgesByBaseType(badges, baseType) ==
        if last.baseType == baseType then BadgesByBaseType(init, baseType) + [last] else BadgesByBaseType(init, baseType)
  {
  }

  /** Appending a badge that is not more recent keeps the latest index of the type. */
  lemma LatestUnmoved(badges: seq<Badge>, baseType: string)
    requires badges != []
    requires LatestIndex(BadgesByBaseType(badges[..|badges| - 1], baseType)) != -1
    requires var ofInit := BadgesByBaseType(badges[..|badges| - 1], baseType);
      badges[|badges| - 1].baseType == baseType ==>
        ofInit[LatestIndex(ofInit)].earnedAt >= badges[|badges| - 1].earnedAt
    ensures var ofInit := BadgesByBaseType(badges[..|badges| - 1], baseType);
      var ofType := BadgesByBaseType(badges, baseType);
      var kInit := LatestIndex(ofInit);
      LatestIndex(ofType) == kInit && ofType[kInit] == ofInit[kInit]
  {
    var init, last := badges[..|badges| - 1], badges[|badges| - 1];
    var ofType, ofInit := BadgesByBaseType(badges, baseType), BadgesByBaseType(init, baseType);
    BadgesByBaseTypeSnoc(badges, baseType);
    if last.baseType == baseType {
      assert ofType[..|ofType| - 1] == ofInit;
    }
  }

  /** A last badge of the type more recent than the latest before it becomes the latest. */
  lemma LastIsLatest(badges: seq<Badge>, baseType: string)
    requires badges != [] && badges[|badges| - 1].baseType == baseType
    requires var ofInit := BadgesByBaseType(badges[..|badges| - 1], baseType);
      var kInit := LatestIndex(ofInit);
      kInit == -1 || ofInit[kInit].earnedAt < badges[|badges| - 1].earnedAt
    ensures var ofType := BadgesByBaseType(badges, baseType);
      LatestIndex(ofType) != -1 && ofType[LatestIndex(ofType)] == badges[|badges| - 1]
  {
    var ofInit := BadgesByBaseType(badges[..|badges| - 1], baseType);
    var ofType := BadgesByBaseType(badges, baseType);
    BadgesByBaseTypeSnoc(badges, baseType);
    assert ofType[..|ofType| - 1] == ofInit;
  }

  /** A position found in a prefix keeps its property in the whole list. */
  lemma FirstAsRecentExtend(badges: seq<Badge>, baseType: string, i: int, x: Badge)
    requires badges != [] && FirstAsRecentAt(badges[..|badges| - 1], baseType, i, x)
    ensures FirstAsRecentAt(badges, baseType, i, x)
  {
    var init := badges[..|badges| - 1];
    assert forall j :: 0 <= j < |init| ==> badges[j] == init[j];
  }

  /** A last badge more recent than every earlier badge of its type is the first that recent. */
  lemma LastIsFirstAsRecent(badges: seq<Badge>, baseType: string)
    requires badges != []
    requires var ofInit := BadgesByBaseType(badges[..|badges| - 1], baseType);
      var kInit := LatestIndex(ofInit);
      kInit == -1 || ofInit[kInit].earnedAt < badges[|badges| - 1].earnedAt
    ensures FirstAsRecentAt(badges, baseType, |badges| - 1, badges[|badges| - 1])
  {
    var n := |badges| - 1;
    var init := badges[..n];
    var ofInit := BadgesByBaseType(init, baseType);
    forall j | 0 <= j < n && badges[j].baseType == baseType
      ensures badges[j].earnedAt < badges[n].earnedAt
    {
      assert init[j] == badges[j];
      assert init[j] in ofInit;
      var idx :| 0 <= idx < |ofInit| && ofInit[idx] == init[j];
    }
  }

  /** The largest variant in a non-empty list. */
  function MaxVariantOf(s: seq<Badge>): (v: int)
    requires s != []
    ensures exists j :: 0 <= j < |s| && s[j].variant == v
    ensures forall j :: 0 <= j < |s| ==> s[j].variant <= v
    decreases |s|
  {
    if |s| == 1 then s[0].variant
    else
      var m := MaxVariantOf(s[..|s| - 1]);
      assert forall j :: 0 <= j < |s| - 1 ==> s[..|s| - 1][j] == s[j];
      if m < s[|s| - 1].variant then s[|s| - 1].variant else m
  }

  /** getMaxVariant: the largest variant held of a base type, or -1 when none is held. */
  function MaxVariant(badges: seq<Badge>, baseType: string): (v: int)
    ensures !HasBadgeType(badges, baseType) ==> v == -1
    ensures HasBadgeType(badges, baseType) ==>
      (exists b :: b in badges && b.baseType == baseType && b.variant == v) &&
      (forall b :: b in badges && b.baseType == baseType ==> b.variant <= v)
  {
    var ofType := BadgesByBaseType(badges, baseType);
    if ofType == [] then -1
    else
      var v := MaxVariantOf(ofType);
      assert forall b :: b in ofType ==> exists j :: 0 <= j < |ofType| && ofType[j] == b;
      v
  }

  /** The base types present in a list. */
  function BaseTypes(badges: seq<Badge>): set<string>
  {
    set b | b in badges :: b.baseType
  }

  /** The scenes present in a list. */
  function ScenesOf(badges: seq<Badge>): set<SceneType>
  {
    set b | b in badges :: b.scene
  }

  /** groupByScene: one entry per scene present, holding that scene's badges in list order. */
  function GroupByScene(badges: seq<Badge>): (groups: map<SceneType, seq<Badge>>)
    ensures forall s :: s in groups <==> exists b :: b in badges && b.scene == s
    ensures forall s :: s in groups ==> groups[s] == BadgesByScene(badges, s) && groups[s] != []
  {
    map s | s in ScenesOf(badges) :: BadgesByScene(badges, s)
  }

  /** groupByBaseType: one entry per base type present, holding that type's badges in list order. */
  function GroupByBaseType(badges: seq<Badge>): (groups: map<string, seq<Badge>>)
    ensures forall t :: t in groups <==> exists b :: b in badges && b.baseType == t
    ensures forall t :: t in groups ==> groups[t] == BadgesByBaseType(badges, t) && groups[t] != []
  {
    map t | t in BaseTypes(badges) :: BadgesByBaseType(badges, t)
  }

  /** The base types hasAllUniqueBadges and getCollectionProgress look for, in their declared order. */
  const RequiredBaseTypes: seq<string> :=
    ["extinguisher", "hydrant", "ladder", "hose", "school", "forest_sheep_sheep0", "forest_sheep_sheep1"]

  /** hasAllUniqueBadges: every required base type is present. */
  function HasAllUniqueBadges(badges: seq<Badge>): (r: bool)
    ensures r <==> forall t :: t in RequiredBaseTypes ==> HasBadgeType(badges, t)
  {
    forall t :: t in RequiredBaseTypes ==> t in BaseTypes(badges)
  }

  /** The required base types that are present in a list. */
  function CollectedRequired(badges: seq<Badge>): (r: seq<string>)
    ensures forall t :: t in r <==> t in RequiredBaseTypes && HasBadgeType(badges, t)
    ensures |r| == |set t | t in RequiredBaseTypes && HasBadgeType(badges, t)|
  {
    var held := (t: string) => t in BaseTypes(badges);
    RequiredBaseTypesDistinct();
    assert forall t :: held(t) <==> HasBadgeType(badges, t) by {
      forall t | HasBadgeType(badges, t) ensures held(t) {
        var b :| b in badges && b.baseType == t;
      }
    }
    HeldCount(RequiredBaseTypes, badges, held);
    Seqs.Filter(RequiredBaseTypes, held)
  }

  /**
   * getCollectionProgress as the fraction collected / required, kept as
   * its numerator and denominator.
   */
  function CollectionProgress(badges: seq<Badge>): (fraction: (nat, nat))
    ensures fraction.1 == 7 && fraction.0 <= fraction.1
    ensures fraction.0 == |set t | t in RequiredBaseTypes && HasBadgeType(badges, t)|
  {
    (|CollectedRequired(badges)|, |RequiredBaseTypes|)
  }

  /** The required types are seven distinct strings. */
  lemma RequiredBaseTypesDistinct()
    ensures Seqs.NoDuplicates(RequiredBaseTypes)
  {
  }

  /** Filtering distinct types by a test for holding them keeps one entry per held type. */
  lemma HeldCount(req: seq<string>, badges: seq<Badge>, held: string -> bool)
    requires Seqs.NoDuplicates(req)
    requires forall t :: held(t) <==> HasBadgeType(badges, t)
    ensures |Seqs.Filter(req, held)| == |set t | t in req && HasBadgeType(badges, t)|
  {
    Seqs.FilterCountsDistinct(req, held, set t | t in req && HasBadgeType(badges, t));
  }

  /** The collection is complete exactly when its progress fraction is 7/7. */
  lemma AllUniqueIffFullProgress(badges: seq<Badge>)
    ensures HasAllUniqueBadges(badges) <==> CollectionProgress(badges).0 == CollectionProgress(badges).1
  {
    Seqs.FilterKeepsAll(RequiredBaseTypes, (t: string) => t in BaseTypes(badges));
  }

  // ---------------------------------------------------------------------
  // Distinct base types (List.distinctBy { it.baseType }).

  /** Appending a badge adds its base type to a list's base types. */
  lemma BaseTypesSnoc(s: seq<Badge>, b: Badge)
    ensures BaseTypes(s + [b]) == BaseTypes(s) + {b.baseType}
  {
    assert b in s + [b];
    assert forall x :: x in s + [b] <==> x in s || x == b;
  }

  /** No two badges of a list share a base type. */
  predicate DistinctTypes(r: seq<Badge>)
  {
    forall i, j :: 0 <= i < j < |r| ==> r[i].baseType != r[j].baseType
  }

  /** Appending a badge of a new base type keeps the base types distinct. */
  lemma DistinctSnoc(d: seq<Badge>, b: Badge)
    requires DistinctTypes(d) && b.baseType !in BaseTypes(d)
    ensures DistinctTypes(d + [b])
  {
    forall i | 0 <= i < |d| ensures d[i].baseType != b.baseType {
      assert d[i] in d;
    }
  }

  /** b is the first badge of its base type in the list. */
  predicate IsFirstOfType(badges: seq<Badge>, b: Badge)
  {
    var ofType := BadgesByBaseType(badges, b.baseType);
    ofType != [] && ofType[0] == b
  }

  /** The first badge of a type stays first when a badge is appended. */
  lemma FirstOfTypeSnoc(badges: seq<Badge>, b: Badge)
    requires badges != [] && IsFirstOfType(badges[..|badges| - 1], b)
    ensures IsFirstOfType(badges, b)
  {
    BadgesByBaseTypeSnoc(badges, b.baseType);
  }

  /** An appended badge of a type not seen before is the first of its type. */
  lemma NewTypeFirst(badges: seq<Badge>)
    requires badges != [] && badges[|badges| - 1].baseType !in BaseTypes(badges[..|badges| - 1])
    ensures IsFirstOfType(badges, badges[|badges| - 1])
  {
    var init, last := badges[..|badges| - 1], badges[|badges| - 1];
    BadgesByBaseTypeSnoc(badges, last.baseType);
  }

  /** distinctBy { baseType }: the first badge of each base type, in list order. */
  function DistinctByBaseType(badges: seq<Badge>): (r: seq<Badge>)
    ensures Seqs.IsSubsequence(r, badges)
    ensures BaseTypes(r) == BaseTypes(badges)
    ensures DistinctTypes(r)
    decreases |badges|
  {
    if badges == [] then []
    else
      var init := badges[..|badges| - 1];
      var last := badges[|badges| - 1];
      var d := DistinctByBaseType(init);
      assert badges == init + [last];
      Seqs.SubsequenceExtend(d, init, last);
      BaseTypesSnoc(init, last);
      BaseTypesSnoc(d, last);
      if last.baseType in BaseTypes(d) then d
      else
        DistinctSnoc(d, last);
        d + [last]
  }

  /** Each badge distinctBy keeps is the first of its base type in the list. */
  lemma {:induction false} DistinctKeepsFirst(badges: seq<Badge>)
    ensures forall i :: 0 <= i < |DistinctByBaseType(badges)| ==> IsFirstOfType(badges, DistinctByBaseType(badges)[i])
    decreases |badges|
  {
    if badges != [] {
      var init, last := badges[..|badges| - 1], badges[|badges| - 1];
      var d := DistinctByBaseType(init);
      DistinctKeepsFirst(init);
      forall i | 0 <= i < |d| ensures IsFirstOfType(badges, d[i]) {
        FirstOfTypeSnoc(badges, d[i]);
      }
      BaseTypesSnoc(init, last);
      if last.baseType !in BaseTypes(d) {
        NewTypeFirst(badges);
        assert DistinctByBaseType(badges) == d + [last];
      } else {
        assert DistinctByBaseType(badges) == d;
      }
    }
  }

  /** There are as many distinct badges as distinct base types. */
  lemma {:induction false} DistinctCountIsBaseTypeCount(badges: seq<Badge>)
    ensures |DistinctByBaseType(badges)| == |BaseTypes(badges)|
    decreases |badges|
  {
    if badges != [] {
      var init := badges[..|badges| - 1];
      var last := badges[|badges| - 1];
      assert badges == init + [last];
      DistinctCountIsBaseTypeCount(init);
      BaseTypesSnoc(init, last);
      var d := DistinctByBaseType(init);
      assert BaseTypes(d) == BaseTypes(init);
    }
  }

  /** A list never has more distinct base types than badges. */
  lemma DistinctNoLonger(badges: seq<Badge>)
    ensures |DistinctByBaseType(badges)| <= |badges|
  {
    SubsequenceNoLonger(DistinctByBaseType(badges), badges);
  }

  lemma {:induction false} SubsequenceNoLonger<T>(a: seq<T>, b: seq<T>)
    requires Seqs.IsSubsequence(a, b)
    ensures |a| <= |b|
    decreases |b|
  {
    if a != [] {
      if a[|a| - 1] == b[|b| - 1] {
        SubsequenceNoLonger(a[..|a| - 1], b[..|b| - 1]);
      } else {
        SubsequenceNoLonger(a, b[..|b| - 1]);
      }
    }
  }
}

=== FILE: collection_vm.dfy ===
// The badge collection screen (presentation/collection/CollectionViewModel.kt):
// the stored badges are checked against the progress record, only the
// badges the progress backs are shown, grouped by scene and counted.
module CollectionVM {
  import opened Scenes
  import opened Badges
  import opened Progress
  import Seqs

  // ---------------------------------------------------------------------
  // Validation against the progress record.

  /** The sheep a forest badge stands for: 1 or 2 for the two sheep badges, 0 for anything else. */
  function SheepIndex(baseType: string): (i: int)
    ensures 0 <= i <= 2
    ensures i == 1 <==> baseType == "forest_sheep1"
    ensures i == 2 <==> baseType == "forest_sheep2"
  {
    if baseType == "forest_sheep1" then 1
    else if baseType == "forest_sheep2" then 2
    else 0
  }

  /**
   * Whether the progress backs a badge: a fire-station badge needs its
   * device among the completed items, a school badge needs the school
   * completed, and a forest badge must be one of the two sheep badges with
   * at least that many sheep rescued.
   */
  function IsBacked(badge: Badge, progress: GameProgress): (r: bool)
    ensures badge.scene == FireStation ==> (r <==> badge.baseType in progress.fireStationCompletedItems)
    ensures badge.scene == School ==> (r <==> GetSceneStatus(progress, School) == Completed)
    ensures badge.scene == Forest ==> (r <==>
      (badge.baseType == "forest_sheep1" && progress.forestRescuedSheep >= 1) ||
      (badge.baseType == "forest_sheep2" && progress.forestRescuedSheep >= 2))
  {
    match badge.scene
    case FireStation => badge.baseType in progress.fireStationCompletedItems
    case School => GetSceneStatus(progress, School) == Completed
    case Forest =>
      var sheepIndex := SheepIndex(badge.baseType);
      sheepIndex > 0 && sheepIndex <= progress.forestRescuedSheep
  }

  function BackedBy(progress: GameProgress): Badge -> bool
  {
    (b: Badge) => IsBacked(b, progress)
  }

  /** The badges the progress backs, in their stored order. */
  function Validated(badges: seq<Badge>, progress: GameProgress): (r: seq<Badge>)
    ensures Seqs.IsSubsequence(r, badges)
    ensures forall b :: b in r <==> b in badges && IsBacked(b, progress)
    ensures |r| <= |badges|
  {
    Seqs.Filter(badges, BackedBy(progress))
  }

  /** Validating an already validated list changes nothing. */
  lemma ValidatedIdempotent(badges: seq<Badge>, progress: GameProgress)
    ensures Validated(Validated(badges, progress), progress) == Validated(badges, progress)
  {
    Seqs.FilterIdempotent(badges, BackedBy(progress));
  }

  /** validateBadgesWithProgress: one pass over the stored badges, appending each backed one. */
  method ValidateBadgesWithProgress(badges: seq<Badge>, progress: GameProgress) returns (validated: seq<Badge>)
    ensures validated == Validated(badges, progress)
  {
    validated := [];
    var i := 0;
    while i < |badges|
      invariant 0 <= i <= |badges|
      invariant validated == Validated(badges[..i], progress)
    {
      var badge := badges[i];
      assert badges[..i + 1][..i] == badges[..i];
      if IsBacked(badge, progress) {
        validated := validated + [badge];
      }
      i := i + 1;
    }
    assert badges[..|badges|] == badges;
  }

  // ---------------------------------------------------------------------
  // The derived screen state.

  /** CollectionState: the shown badges, grouped by scene, and their counts. */
  datatype CollectionState = CollectionState(
    badges: seq<Badge>,
    badgesByScene: map<SceneType, seq<Badge>>,
    totalBadgeCount: int,
    uniqueBadgeCount: int,
    hasCollectedAllBadges: bool)

  /** The state built from validated badges: grouped by scene, counted, and checked for completeness. */
  function StateOf(validated: seq<Badge>): (s: CollectionState)
    ensures s.badges == validated
    ensures s.totalBadgeCount == |validated|
    ensures s.uniqueBadgeCount == |BaseTypes(validated)| <= s.totalBadgeCount
    ensures s.hasCollectedAllBadges <==> s.uniqueBadgeCount >= TotalUniqueBadges
    ensures forall sc :: sc in s.badgesByScene <==> exists b :: b in validated && b.scene == sc
    ensures forall sc :: sc in s.badgesByScene ==> s.badgesByScene[sc] == BadgesByScene(validated, sc)
  {
    DistinctCountIsBaseTypeCount(validated);
    DistinctNoLonger(validated);
    var unique := |DistinctByBaseType(validated)|;
    CollectionState(validated, GroupByScene(validated), |validated|, unique, unique >= TotalUniqueBadges)
  }

  /** The state the screen derives from the stored badges and the progress record. */
  function DeriveState(stored: seq<Badge>, progress: GameProgress): (s: CollectionState)
    ensures s.badges == Validated(stored, progress)
    ensures s.totalBadgeCount == |s.badges|
    ensures s.uniqueBadgeCount == |BaseTypes(s.badges)| <= s.totalBadgeCount
    ensures s.hasCollectedAllBadges <==> s.uniqueBadgeCount >= TotalUniqueBadges
    ensures forall sc :: sc in s.badgesByScene <==> exists b :: b in s.badges && b.scene == sc
    ensures forall sc :: sc in s.badgesByScene ==> s.badgesByScene[sc] == BadgesByScene(s.badges, sc)
  {
    StateOf(Validated(stored, progress))
  }

  /** The state before any data arrives is what an empty badge table derives. */
  lemma InitialStateIsDerived(progress: GameProgress)
    ensures DeriveState([], progress) == CollectionState([], map[], 0, 0, false)
  {
    assert GroupByScene([]) == map[];
  }

  datatype CollectionEffect =
    | PlayClickSound
    | PlayBadgeSound
    | NavigateToMap
    | ShowBadgeDetail(badge: Badge)
    | PlayCompletionAnimation

  class CollectionViewModel {
    var state: CollectionState
    /** The effects sent so far, in order. */
    var effects: seq<CollectionEffect>
    /** The stored badges and progress the state was last derived from. */
    ghost var storedBadges: seq<Badge>
    ghost var storedProgress: GameProgress

    /** The published state is always the one derived from the last data seen. */
    ghost predicate Valid()
      reads this
    {
      state == DeriveState(storedBadges, storedProgress)
    }

    constructor (progress0: GameProgress)
      ensures Valid()
      ensures state == CollectionState([], map[], 0, 0, false) && effects == []
    {
      state := CollectionState([], map[], 0, 0, false);
      effects := [];
      storedBadges := [];
      storedProgress := progress0;
      InitialStateIsDerived(progress0);
    }

    /** The combine collector: new progress or badges re-derive the whole state. */
    method OnDataChanged(progress: GameProgress, badges: seq<Badge>)
      modifies this
      ensures Valid()
      ensures state == DeriveState(badges, progress)
      ensures effects == old(effects)
    {
      var validatedBadges := ValidateBadgesWithProgress(badges, progress);
      var uniqueBadgeCount := |DistinctByBaseType(validatedBadges)|;
      state := CollectionState(
        validatedBadges,
        GroupByScene(validatedBadges),
        |validatedBadges|,
        uniqueBadgeCount,
        uniqueBadgeCount >= TotalUniqueBadges);
      assert state == StateOf(validatedBadges);
      storedBadges := badges;
      storedProgress := progress;
    }

    /** BackToMapClicked: a click sound, then navigation to the map. */
    method BackToMapClicked()
      modifies this
      ensures effects == old(effects) + [PlayClickSound, NavigateToMap]
      ensures state == old(state)
    {
      effects := effects + [PlayClickSound, NavigateToMap];
    }

    /** BadgeClicked: the badge sound, then the badge's detail. */
    method BadgeClicked(badge: Badge)
      modifies this
      ensures effects == old(effects) + [PlayBadgeSound, ShowBadgeDetail(badge)]
      ensures state == old(state)
    {
      effects := effects + [PlayBadgeSound, ShowBadgeDetail(badge)];
    }

    /** getBadgesForScene: the scene's group, or no badges when the scene has none. */
    function BadgesForScene(scene: SceneType): (r: seq<Badge>)
      reads this
      ensures scene !in state.badgesByScene ==> r == []
      ensures Valid() ==> r == BadgesByScene(Validated(storedBadges, storedProgress), scene)
    {
      if scene in state.badgesByScene then state.badgesByScene[scene] else []
    }

    /** hasBadgesForScene: some shown badge belongs to the scene. */
    function HasBadgesForScene(scene: SceneType): (r: bool)
      reads this
      ensures r <==> BadgesForScene(scene) != []
      ensures Valid() ==> (r <==> exists b :: b in state.badges && b.scene == scene)
    {
      BadgesForScene(scene) != []
    }
  }

  // ---------------------------------------------------------------------
  // The required base types of hasAllUniqueBadges against the shown badges.

  /** The base types the sheep rescues actually produce (ForestViewModel names them forest_sheep1 and forest_sheep2). */
  const RequiredBaseTypesCorrected: seq<string> :=
    ["extinguisher", "hydrant", "ladder", "hose", "school", "forest_sheep1", "forest_sheep2"]

  /** hasAllUniqueBadges over the base types the game produces. */
  function HasAllUniqueBadgesCorrected(badges: seq<Badge>): (r: bool)
    ensures r <==> forall t :: t in RequiredBaseTypesCorrected ==> HasBadgeType(badges, t)
  {
    forall t :: t in RequiredBaseTypesCorrected ==> t in BaseTypes(badges)
  }

  /** The scene each required badge is earned in. */
  function RequiredScene(t: string): SceneType
  {
    if t == "school" then School
    else if t == "forest_sheep1" || t == "forest_sheep2" then Forest
    else FireStation
  }

  /** A finished game: all four devices learnt, the school completed and both sheep rescued. */
  predicate GameFinished(progress: GameProgress)
  {
    {"extinguisher", "hydrant", "ladder", "hose"} <= progress.fireStationCompletedItems &&
    GetSceneStatus(progress, School) == Completed &&
    progress.forestRescuedSheep >= 2
  }

  /**
   * After a finished game in which every required badge was earned in its
   * scene, the validated list holds all seven corrected base types.
   */
  lemma FinishedGameCollectsAll(badges: seq<Badge>, progress: GameProgress)
    requires GameFinished(progress)
    requires forall t :: t in RequiredBaseTypesCorrected ==>
      exists b :: b in badges && b.baseType == t && b.scene == RequiredScene(t)
    ensures HasAllUniqueBadgesCorrected(Validated(badges, progress))
  {
    var validated := Validated(badges, progress);
    forall t | t in RequiredBaseTypesCorrected ensures t in BaseTypes(validated) {
      var b :| b in badges && b.baseType == t && b.scene == RequiredScene(t);
      assert IsBacked(b, progress);
      assert b in validated;
    }
  }

  /** The badges of a finished game, one per required base type, each in its scene. */
  function FinishedGameBadges(): (badges: seq<Badge>)
    ensures |badges| == 7
  {
    [Badge("extinguisher_v0", FireStation, "extinguisher", 0, 0),
     Badge("hydrant_v0", FireStation, "hydrant", 0, 0),
     Badge("ladder_v0", FireStation, "ladder", 0, 0),
     Badge("hose_v0", FireStation, "hose", 0, 0),
     Badge("school_v0", School, "school", 0, 0),
     Badge("forest_sheep1_v0", Forest, "forest_sheep1", 0, 0),
     Badge("forest_sheep2_v0", Forest, "forest_sheep2", 0, 0)]
  }

  /** The progress record of a finished game. */
  function FinishedGameProgress(): (p: GameProgress)
    ensures GameFinished(p)
  {
    GameProgress(
      map[FireStation := Completed, School := Completed, Forest := Completed],
      [],
      0,
      {"extinguisher", "hydrant", "ladder", "hose"},
      2)
  }

  /** The base types of the finished game's badges are exactly the corrected required ones. */
  lemma FinishedGameBaseTypes()
    ensures BaseTypes(FinishedGameBadges()) == set t | t in RequiredBaseTypesCorrected
  {
    var badges := FinishedGameBadges();
    assert forall b :: b in badges <==> (b == badges[0] || b == badges[1] || b == badges[2] || b == badges[3]
      || b == badges[4] || b == badges[5] || b == badges[6]);
  }

  /** Every badge of the finished game is backed by its progress, so validation keeps them all. */
  lemma FinishedGameAllBacked()
    ensures Validated(FinishedGameBadges(), FinishedGameProgress()) == FinishedGameBadges()
  {
    var badges := FinishedGameBadges();
    var p := FinishedGameProgress();
    assert forall i :: 0 <= i < |badges| ==> BackedBy(p)(badges[i]);
    Seqs.FilterAllKept(badges, BackedBy(p));
  }

  /**
   * With the forest names hasAllUniqueBadges uses ("forest_sheep_sheep0"
   * and "forest_sheep_sheep1"), the badges of a finished game, all of which
   * survive validation, are not a full collection; with the names the
   * forest scene produces they are.
   */
  lemma ForestNamesCounterexample()
    ensures Validated(FinishedGameBadges(), FinishedGameProgress()) == FinishedGameBadges()
    ensures !HasAllUniqueBadges(FinishedGameBadges())
    ensures HasAllUniqueBadgesCorrected(FinishedGameBadges())
  {
    FinishedGameAllBacked();
    FinishedGameBaseTypes();
    assert "forest_sheep_sheep0" in RequiredBaseTypes;
    assert "forest_sheep_sheep0" !in RequiredBaseTypesCorrected;
  }
}

=== FILE: crash_log_file.dfy ===
// A crash-log file entry and its size and name queries
// (domain/model/CrashLogFile.kt).
module CrashLogs {
  import Text

  /** A log file stored on the device: name, path, timestamp (ms) and size (bytes). */
  datatype CrashLogFile = CrashLogFile(fileName: string, filePath: string, timestamp: int, size: int)

  const KiB: int := 1024
  const MiB: int := 1024 * 1024

  /** The unit getReadableSize chooses for a size. */
  datatype SizeUnit = Bytes | KiloBytes | MegaBytes

  function UnitSuffix(u: SizeUnit): string
  {
    match u
    case Bytes => "B"
    case KiloBytes => "KB"
    case MegaBytes => "MB"
  }

  /** The unit and the (integer-divided) number getReadableSize prints. */
  function ReadableParts(size: int): (parts: (int, SizeUnit))
    ensures parts.1 == Bytes <==> size < KiB
    ensures parts.1 == KiloBytes <==> KiB <= size < MiB
    ensures parts.1 == MegaBytes <==> MiB <= size
    ensures parts.1 == Bytes ==> parts.0 == size
    ensures parts.1 == KiloBytes ==> 1 <= parts.0 <= 1023 && parts.0 * KiB <= size < (parts.0 + 1) * KiB
    ensures parts.1 == MegaBytes ==> 1 <= parts.0 && parts.0 * MiB <= size < (parts.0 + 1) * MiB
  {
    if size < KiB then (size, Bytes)
    else if size < MiB then (size / KiB, KiloBytes)
    else (size / MiB, MegaBytes)
  }

  /** getReadableSize: "<n>B", "<n>KB" or "<n>MB", rounding down. */
  function ReadableSize(f: CrashLogFile): (text: string)
    ensures text == Text.IntToString(ReadableParts(f.size).0) + UnitSuffix(ReadableParts(f.size).1)
  {
    if f.size < KiB then Text.IntToString(f.size) + "B"
    else if f.size < MiB then Text.IntToString(f.size / KiB) + "KB"
    else Text.IntToString(f.size / MiB) + "MB"
  }

  /** Telling the unit back from the text: it ends "KB" or "MB" exactly for sizes of at least 1024. */
  lemma ReadableSizeSuffix(f: CrashLogFile)
    ensures var t := ReadableSize(f);
      (|t| >= 2 && t[|t| - 1] == 'B' && t[|t| - 2] == 'K') <==> KiB <= f.size < MiB
    ensures var t := ReadableSize(f);
      (|t| >= 2 && t[|t| - 1] == 'B' && t[|t| - 2] == 'M') <==> MiB <= f.size
  {
    var parts := ReadableParts(f.size);
    var digits := Text.IntToString(parts.0);
    var t := ReadableSize(f);
    if parts.1 == Bytes {
      assert t == digits + "B";
      assert t[|t| - 2] == digits[|digits| - 1];
    }
  }

  const CrashPrefix: string := "crash_"
  const ErrorPrefix: string := "error_"

  /** `fileName.startsWith(prefix)`. */
  function HasNamePrefix(f: CrashLogFile, prefix: string): (r: bool)
    ensures r <==> |prefix| <= |f.fileName| && f.fileName[..|prefix|] == prefix
  {
    Text.StartsWith(f.fileName, prefix)
  }

  /** isCrashLog: the file name starts with "crash_". */
  function IsCrashLog(f: CrashLogFile): bool
  {
    HasNamePrefix(f, CrashPrefix)
  }

  /** isErrorLog: the file name starts with "error_". */
  function IsErrorLog(f: CrashLogFile): bool
  {
    HasNamePrefix(f, ErrorPrefix)
  }

  /** No file is both a crash log and an error log. */
  lemma CrashAndErrorExclusive(f: CrashLogFile)
    ensures !(IsCrashLog(f) && IsErrorLog(f))
  {
    if IsCrashLog(f) {
      assert f.fileName[0] == 'c';
    }
  }
}

=== FILE: game_progress.dfy ===
// The player's overall progress record, its queries and copy-style updates
// (domain/model/GameProgress.kt), and the unlock rules and progress
// counters layered on it (domain/model/GameProgressExtensions.kt).
module Progress {
  import opened Wrappers
  import opened Scenes
  import opened Badges
  import Text

  /**
   * The progress record: scene statuses, earned badges, total play time
   * (ms), the fire-station devices already learnt and the sheep rescued.
   */
  datatype GameProgress = GameProgress(
    sceneStatuses: map<SceneType, SceneStatus>,
    badges: seq<Badge>,
    totalPlayTime: int,
    fireStationCompletedItems: set<string>,
    forestRescuedSheep: int)

  const FireStationTotalItems: nat := 4
  const ForestTotalSheep: nat := 2
  const TotalUniqueBadges: nat := 7

  /** defaultSceneStatuses: every scene starts unlocked (the code's test mode). */
  function DefaultSceneStatuses(): (m: map<SceneType, SceneStatus>)
    ensures forall s :: s in m && m[s] == Unlocked
  {
    var m := map[FireStation := Unlocked, School := Unlocked, Forest := Unlocked];
    assert forall s :: s in m by {
      forall s ensures s in m { EveryScene(s); }
    }
    m
  }

  /** initial: default statuses, no badges, no devices, no time and no sheep. */
  function Initial(): (p: GameProgress)
    ensures p.sceneStatuses == DefaultSceneStatuses()
    ensures p.badges == [] && p.totalPlayTime == 0
    ensures p.fireStationCompletedItems == {} && p.forestRescuedSheep == 0
  {
    GameProgress(DefaultSceneStatuses(), [], 0, {}, 0)
  }

  /** getSceneStatus: the stored status, LOCKED for a scene the map lacks. */
  function GetSceneStatus(p: GameProgress, scene: SceneType): (status: SceneStatus)
    ensures scene in p.sceneStatuses ==> status == p.sceneStatuses[scene]
    ensures scene !in p.sceneStatuses ==> status == Locked
  {
    if scene in p.sceneStatuses then p.sceneStatuses[scene] else Locked
  }

  /** isSceneUnlocked: the status is UNLOCKED or COMPLETED, i.e. anything but LOCKED. */
  function IsSceneUnlocked(p: GameProgress, scene: SceneType): (r: bool)
    ensures r <==> GetSceneStatus(p, scene) != Locked
  {
    var status := GetSceneStatus(p, scene);
    status == Unlocked || status == Completed
  }

  /** isSceneCompleted: the status is COMPLETED; a completed scene is also unlocked. */
  function IsSceneCompleted(p: GameProgress, scene: SceneType): (r: bool)
    ensures r ==> IsSceneUnlocked(p, scene)
    ensures r <==> GetSceneStatus(p, scene) == Completed
  {
    GetSceneStatus(p, scene) == Completed
  }

  /** The initial progress has every scene unlocked and none completed. */
  lemma InitialScenesUnlocked(scene: SceneType)
    ensures IsSceneUnlocked(Initial(), scene) && !IsSceneCompleted(Initial(), scene)
  {
    assert GetSceneStatus(Initial(), scene) == Unlocked;
  }

  /** isFireStationCompleted: exactly four devices learnt. */
  function IsFireStationCompleted(p: GameProgress): (r: bool)
    ensures r <==> |p.fireStationCompletedItems| == FireStationTotalItems
  {
    |p.fireStationCompletedItems| == FireStationTotalItems
  }

  /** isForestCompleted: at least two sheep rescued. */
  function IsForestCompleted(p: GameProgress): (r: bool)
    ensures r <==> p.forestRescuedSheep >= ForestTotalSheep
  {
    p.forestRescuedSheep >= ForestTotalSheep
  }

  /** getTotalBadgeCount: every badge, variants included. */
  function TotalBadgeCount(p: GameProgress): (n: nat)
    ensures n == |p.badges|
  {
    |p.badges|
  }

  /** getUniqueBadgeCount: the number of distinct base types among the badges. */
  function UniqueBadgeCount(p: GameProgress): (n: nat)
    ensures n == |BaseTypes(p.badges)|
  {
    DistinctCountIsBaseTypeCount(p.badges);
    |DistinctByBaseType(p.badges)|
  }

  /** The unique count never exceeds the total count. */
  lemma UniqueAtMostTotal(p: GameProgress)
    ensures UniqueBadgeCount(p) <= TotalBadgeCount(p)
  {
    DistinctNoLonger(p.badges);
    DistinctCountIsBaseTypeCount(p.badges);
  }

  /** hasCollectedAllBadges: at least seven distinct base types. */
  function HasCollectedAllBadges(p: GameProgress): (r: bool)
    ensures r <==> |BaseTypes(p.badges)| >= TotalUniqueBadges
    ensures r ==> TotalBadgeCount(p) >= TotalUniqueBadges
  {
    UniqueAtMostTotal(p);
    UniqueBadgeCount(p) >= TotalUniqueBadges
  }

  // ---------------------------------------------------------------------
  // Copy-style updates: each changes one field and nothing else.

  /** addPlayTime: total play time grows by exactly the given milliseconds. */
  function AddPlayTime(p: GameProgress, milliseconds: int): (q: GameProgress)
    ensures q.totalPlayTime - p.totalPlayTime == milliseconds
    ensures q.(totalPlayTime := p.totalPlayTime) == p
  {
    p.(totalPlayTime := p.totalPlayTime + milliseconds)
  }

  /** addBadge: the badge is appended at the end of the list. */
  function AddBadge(p: GameProgress, badge: Badge): (q: GameProgress)
    ensures |q.badges| == |p.badges| + 1 && q.badges[..|p.badges|] == p.badges && q.badges[|p.badges|] == badge
    ensures q.(badges := p.badges) == p
  {
    p.(badges := p.badges + [badge])
  }

  /** updateSceneStatus: the scene reads back the new status, every other scene its old one. */
  function UpdateSceneStatus(p: GameProgress, scene: SceneType, status: SceneStatus): (q: GameProgress)
    ensures GetSceneStatus(q, scene) == status
    ensures forall other :: other != scene ==> GetSceneStatus(q, other) == GetSceneStatus(p, other)
    ensures q.(sceneStatuses := p.sceneStatuses) == p
  {
    p.(sceneStatuses := p.sceneStatuses[scene := status])
  }

  /** addFireStationCompletedItem: set insertion, growing the set by at most one. */
  function AddFireStationCompletedItem(p: GameProgress, deviceId: string): (q: GameProgress)
    ensures q.fireStationCompletedItems == p.fireStationCompletedItems + {deviceId}
    ensures |p.fireStationCompletedItems| <= |q.fireStationCompletedItems| <= |p.fireStationCompletedItems| + 1
    ensures q.(fireStationCompletedItems := p.fireStationCompletedItems) == p
  {
    var items := p.fireStationCompletedItems;
    if deviceId in items then
      assert items + {deviceId} == items;
      p.(fireStationCompletedItems := items + {deviceId})
    else
      p.(fireStationCompletedItems := items + {deviceId})
  }

  /** Learning the same device twice is the same as learning it once. */
  lemma AddItemIdempotent(p: GameProgress, deviceId: string)
    ensures AddFireStationCompletedItem(AddFireStationCompletedItem(p, deviceId), deviceId)
         == AddFireStationCompletedItem(p, deviceId)
  {
  }

  /** incrementForestRescuedSheep: one more sheep rescued. */
  function IncrementForestRescuedSheep(p: GameProgress): (q: GameProgress)
    ensures q.forestRescuedSheep == p.forestRescuedSheep + 1
    ensures q.(forestRescuedSheep := p.forestRescuedSheep) == p
  {
    p.(forestRescuedSheep := p.forestRescuedSheep + 1)
  }

  /** Rescuing sheep one at a time completes the forest after the second rescue from none. */
  lemma TwoRescuesCompleteForest(p: GameProgress)
    requires p.forestRescuedSheep == 0
    ensures !IsForestCompleted(IncrementForestRescuedSheep(p))
    ensures IsForestCompleted(IncrementForestRescuedSheep(IncrementForestRescuedSheep(p)))
  {
  }

  // ---------------------------------------------------------------------
  // Extensions: unlock rules and progress counters.

  /**
   * isSceneUnlockedByCompletion: the fire station is always open; the
   * school opens once at least four devices are learnt; the forest once
   * the school is completed.
   */
  function IsSceneUnlockedByCompletion(p: GameProgress, scene: SceneType): (r: bool)
    ensures scene == FireStation ==> r
    ensures scene == School ==> (r <==> |p.fireStationCompletedItems| >= FireStationTotalItems)
    ensures scene == Forest ==> (r <==> IsSceneCompleted(p, School))
  {
    match scene
    case FireStation => true
    case School => |p.fireStationCompletedItems| >= FireStationTotalItems
    case Forest => GetSceneStatus(p, School) == Completed
  }

  const UnlockedText: string := "已解锁"
  const SchoolLockedPrefix: string := "完成消防站 "
  const ForestLockedText: string := "完成学校动画后解锁"

  /** getUnlockProgressDescription: the unlock hint shown for a scene. */
  function UnlockProgressDescription(p: GameProgress, scene: SceneType): (text: string)
    ensures text == UnlockedText <==> scene == FireStation || (scene == Forest && IsSceneCompleted(p, School))
    ensures scene == School ==>
      text == SchoolLockedPrefix + Text.NatToString(|p.fireStationCompletedItems|) + "/" + Text.NatToString(FireStationTotalItems) + " 个设备后解锁"
  {
    match scene
    case FireStation => UnlockedText
    case School =>
      var s := SchoolLockedPrefix + Text.NatToString(|p.fireStationCompletedItems|) + "/" + Text.NatToString(FireStationTotalItems) + " 个设备后解锁";
      assert s[0] != UnlockedText[0];
      s
    case Forest => if GetSceneStatus(p, School) == Completed then UnlockedText else ForestLockedText
  }

  /** Outside the school, the hint says "unlocked" exactly when the completion rule unlocks the scene. */
  lemma DescriptionMatchesCompletionRule(p: GameProgress, scene: SceneType)
    requires scene != School
    ensures UnlockProgressDescription(p, scene) == UnlockedText <==> IsSceneUnlockedByCompletion(p, scene)
  {
  }

  /**
   * getNextUnlockableScene: the school when the fire station is not yet
   * completed but all four devices are learnt; otherwise the forest when
   * the school is completed and the forest still locked; otherwise none.
   */
  function NextUnlockableScene(p: GameProgress): (r: Option<SceneType>)
    ensures r == Some(School) <==>
      GetSceneStatus(p, FireStation) != Completed && |p.fireStationCompletedItems| >= FireStationTotalItems
    ensures r == Some(Forest) <==>
      !(GetSceneStatus(p, FireStation) != Completed && |p.fireStationCompletedItems| >= FireStationTotalItems) &&
      GetSceneStatus(p, School) == Completed && GetSceneStatus(p, Forest) == Locked
    ensures r != Some(FireStation)
  {
    if GetSceneStatus(p, FireStation) != Completed && |p.fireStationCompletedItems| >= FireStationTotalItems then
      Some(School)
    else if GetSceneStatus(p, School) == Completed && GetSceneStatus(p, Forest) == Locked then
      Some(Forest)
    else
      None
  }

  /** Whatever getNextUnlockableScene offers is unlocked by the completion rule. */
  lemma NextUnlockableIsUnlockedByCompletion(p: GameProgress)
    ensures NextUnlockableScene(p).Some? ==> IsSceneUnlockedByCompletion(p, NextUnlockableScene(p).value)
  {
  }

  /** hasUnlockableScene: getNextUnlockableScene is not null. */
  function HasUnlockableScene(p: GameProgress): (r: bool)
    ensures r <==> NextUnlockableScene(p) != None
  {
    NextUnlockableScene(p).Some?
  }

  /** A scene worth recommending: open by the completion rule and not yet completed. */
  predicate IsRecommendable(p: GameProgress, scene: SceneType)
  {
    IsSceneUnlockedByCompletion(p, scene) && GetSceneStatus(p, scene) != Completed
  }

  /**
   * getRecommendedScene: the first scene in enum order that is open by the
   * completion rule and not completed; the fire station when there is none.
   */
  function RecommendedScene(p: GameProgress): (r: SceneType)
    ensures (exists s :: IsRecommendable(p, s)) ==>
      IsRecommendable(p, r) && forall s :: SceneIndex(s) < SceneIndex(r) ==> !IsRecommendable(p, s)
    ensures (forall s :: !IsRecommendable(p, s)) ==> r == FireStation
    ensures GetSceneStatus(p, FireStation) != Completed ==> r == FireStation
  {
    if IsRecommendable(p, FireStation) then FireStation
    else if IsRecommendable(p, School) then School
    else if IsRecommendable(p, Forest) then Forest
    else FireStation
  }

  /** The numerator of getOverallProgress: how many scenes are COMPLETED (over three). */
  function CompletedSceneCount(p: GameProgress): (n: nat)
    ensures n <= |AllScenes|
    ensures n == |AllScenes| <==> forall s :: IsSceneCompleted(p, s)
    ensures n == 0 <==> forall s :: !IsSceneCompleted(p, s)
  {
    assert forall s :: IsSceneCompleted(p, s) <==> GetSceneStatus(p, s) == Completed;
    var fs, sc, fo := IsSceneCompleted(p, FireStation), IsSceneCompleted(p, School), IsSceneCompleted(p, Forest);
    assert forall s :: IsSceneCompleted(p, s) == (if s == FireStation then fs else if s == School then sc else fo) by {
      forall s ensures IsSceneCompleted(p, s) == (if s == FireStation then fs else if s == School then sc else fo) {
        EveryScene(s);
      }
    }
    (if GetSceneStatus(p, FireStation) == Completed then 1 else 0) +
    (if GetSceneStatus(p, School) == Completed then 1 else 0) +
    (if GetSceneStatus(p, Forest) == Completed then 1 else 0)
  }

  /** Completing a scene that was not completed raises the count by one. */
  lemma CompletingRaisesCount(p: GameProgress, scene: SceneType)
    requires !IsSceneCompleted(p, scene)
    ensures CompletedSceneCount(UpdateSceneStatus(p, scene, Completed)) == CompletedSceneCount(p) + 1
  {
    var q := UpdateSceneStatus(p, scene, Completed);
    assert forall s :: s != scene ==> GetSceneStatus(q, s) == GetSceneStatus(p, s);
  }

  /** getFireStationProgress: (devices learnt, 4). */
  function FireStationProgress(p: GameProgress): (r: (nat, nat))
    ensures r.0 == |p.fireStationCompletedItems| && r.1 == FireStationTotalItems
  {
    (|p.fireStationCompletedItems|, FireStationTotalItems)
  }

  /** getForestProgress: (sheep rescued, 2). */
  function ForestProgress(p: GameProgress): (r: (int, nat))
    ensures r.0 == p.forestRescuedSheep && r.1 == ForestTotalSheep
  {
    (p.forestRescuedSheep, ForestTotalSheep)
  }

  /** A full fire-station counter is what opens the school; a full forest counter is a completed forest. */
  lemma CountersMatchRules(p: GameProgress)
    ensures FireStationProgress(p).0 >= FireStationProgress(p).1 <==> IsSceneUnlockedByCompletion(p, School)
    ensures ForestProgress(p).0 >= ForestProgress(p).1 <==> IsForestCompleted(p)
  {
  }
}

=== FILE: idle_timer.dfy ===
// Inactivity detection: fires a callback once no activity has been
// reported for the timeout (presentation/common/IdleTimer.kt). The clock
// is the `now` parameter; one pass of the polling loop is `Tick`.
module Idle {
  import opened Wrappers
  import Arith

  datatype IdleTimerState = Idle | Running | Paused | Triggered

  const DefaultIdleTimeoutMs: int := 30000
  const MinIdleTimeoutMs: int := 5000
  const MaxIdleTimeoutMs: int := 300000

  /** The polling delay after a check that did not time out: the time left, kept within 100..1000 ms. */
  function NextCheckDelay(timeoutMillis: int, elapsedSinceActivity: int): (delay: int)
    ensures 100 <= delay <= 1000
    ensures 100 <= timeoutMillis - elapsedSinceActivity <= 1000 ==> delay == timeoutMillis - elapsedSinceActivity
    ensures timeoutMillis - elapsedSinceActivity > 1000 ==> delay == 1000
    ensures timeoutMillis - elapsedSinceActivity < 100 ==> delay == 100
  {
    var checkInterval := Arith.Min(1000, timeoutMillis - elapsedSinceActivity);
    Arith.Max(checkInterval, 100)
  }

  class IdleTimer {
    var isDetectionRunning: bool
    var timeoutMillis: int
    /** Whether an idle callback is registered. */
    var hasCallback: bool
    var lastActivityTime: int
    var state: IdleTimerState
    /** How many times the registered callback has been invoked. */
    var idleCallbacks: nat

    /** Detection runs exactly in state RUNNING, and a running or paused timer has its callback. */
    predicate Valid()
      reads this
    {
      (isDetectionRunning <==> state == Running) &&
      (state == Running || state == Paused ==> hasCallback)
    }

    constructor ()
      ensures Valid()
      ensures state == Idle && !isDetectionRunning && !hasCallback
      ensures timeoutMillis == 0 && lastActivityTime == 0 && idleCallbacks == 0
    {
      isDetectionRunning := false;
      timeoutMillis := 0;
      hasCallback := false;
      lastActivityTime := 0;
      state := Idle;
      idleCallbacks := 0;
    }

    /** startIdleDetection: (re)starts from now with the given timeout and a fresh callback. */
    method StartIdleDetection(timeout: int, now: int)
      modifies this
      ensures Valid()
      ensures state == Running && timeoutMillis == timeout && hasCallback && lastActivityTime == now
      ensures idleCallbacks == old(idleCallbacks)
    {
      StopIdleDetection();
      timeoutMillis := timeout;
      hasCallback := true;
      isDetectionRunning := true;
      state := Running;
      lastActivityTime := now;
    }

    /** stopIdleDetection: back to IDLE with no callback. */
    method StopIdleDetection()
      modifies this
      ensures Valid()
      ensures state == Idle && !hasCallback
      ensures timeoutMillis == old(timeoutMillis) && lastActivityTime == old(lastActivityTime)
      ensures idleCallbacks == old(idleCallbacks)
    {
      isDetectionRunning := false;
      state := Idle;
      hasCallback := false;
    }

    /** pauseIdleDetection: RUNNING becomes PAUSED; in any other state nothing happens. */
    method PauseIdleDetection()
      requires Valid()
      modifies this
      ensures Valid()
      ensures old(state) == Running ==> state == Paused
      ensures old(state) != Running ==> state == old(state)
      ensures timeoutMillis == old(timeoutMillis) && lastActivityTime == old(lastActivityTime)
      ensures hasCallback == old(hasCallback) && idleCallbacks == old(idleCallbacks)
      ensures old(state) != Running ==> isDetectionRunning == old(isDetectionRunning)
    {
      if state != Running {
        return;
      }
      isDetectionRunning := false;
      state := Paused;
    }

    /** resumeIdleDetection: PAUSED becomes RUNNING with the inactivity clock restarted now; otherwise nothing happens. */
    method ResumeIdleDetection(now: int)
      requires Valid()
      modifies this
      ensures Valid()
      ensures old(state) == Paused ==> state == Running && lastActivityTime == now
      ensures old(state) != Paused ==> state == old(state) && lastActivityTime == old(lastActivityTime)
      ensures old(state) != Paused ==> isDetectionRunning == old(isDetectionRunning)
      ensures timeoutMillis == old(timeoutMillis)
      ensures hasCallback == old(hasCallback) && idleCallbacks == old(idleCallbacks)
    {
      if state != Paused {
        return;
      }
      isDetectionRunning := true;
      state := Running;
      lastActivityTime := now;
    }

    /** reportActivity: restarts the inactivity clock, but only while detection runs. */
    method ReportActivity(now: int)
      requires Valid()
      modifies this
      ensures Valid()
      ensures old(isDetectionRunning) ==> lastActivityTime == now
      ensures !old(isDetectionRunning) ==> lastActivityTime == old(lastActivityTime)
      ensures state == old(state) && isDetectionRunning == old(isDetectionRunning)
      ensures timeoutMillis == old(timeoutMillis) && hasCallback == old(hasCallback) && idleCallbacks == old(idleCallbacks)
    {
      if !isDetectionRunning {
        return;
      }
      lastActivityTime := now;
    }

    /** getTimeUntilIdle: Long.MAX_VALUE unless running with a timeout, else the time left, never negative. */
    function TimeUntilIdle(now: int): (ms: int)
      reads this
      ensures !isDetectionRunning || timeoutMillis == 0 ==> ms == Arith.LongMax
      ensures isDetectionRunning && timeoutMillis != 0 ==>
        (ms >= 0 && (ms == 0 <==> now - lastActivityTime >= timeoutMillis) &&
        (ms > 0 ==> ms == timeoutMillis - (now - lastActivityTime)))
    {
      if !isDetectionRunning || timeoutMillis == 0 then Arith.LongMax
      else Arith.Max(timeoutMillis - (now - lastActivityTime), 0)
    }

    /**
     * One pass of the detection loop at time now: when detection is not
     * running the loop has ended (None); when the inactivity reaches the
     * timeout the timer becomes TRIGGERED, stops, invokes the callback once
     * and the loop ends (None); otherwise it waits the next check delay.
     */
    method Tick(now: int) returns (delay: Option<int>)
      requires Valid()
      modifies this
      ensures Valid()
      ensures !old(isDetectionRunning) ==> (delay.None? &&
        state == old(state) && isDetectionRunning == old(isDetectionRunning) && idleCallbacks == old(idleCallbacks))
      ensures old(isDetectionRunning) && now - old(lastActivityTime) >= old(timeoutMillis) ==>
        (delay.None? && state == Triggered && !isDetectionRunning && idleCallbacks == old(idleCallbacks) + 1)
      ensures old(isDetectionRunning) && now - old(lastActivityTime) < old(timeoutMillis) ==>
        (delay == Some(NextCheckDelay(old(timeoutMillis), now - old(lastActivityTime))) &&
        state == old(state) && isDetectionRunning && idleCallbacks == old(idleCallbacks))
      ensures lastActivityTime == old(lastActivityTime) && timeoutMillis == old(timeoutMillis) && hasCallback == old(hasCallback)
    {
      if !isDetectionRunning {
        return None;
      }
      var elapsedSinceActivity := now - lastActivityTime;
      if elapsedSinceActivity >= timeoutMillis {
        HandleIdleTimeout();
        return None;
      }
      delay := Some(NextCheckDelay(timeoutMillis, elapsedSinceActivity));
    }

    /** handleIdleTimeout: TRIGGERED, stopped, and the callback invoked once. */
    method HandleIdleTimeout()
      requires hasCallback
      modifies this
      ensures state == Triggered && !isDetectionRunning
      ensures idleCallbacks == old(idleCallbacks) + 1
      ensures lastActivityTime == old(lastActivityTime) && timeoutMillis == old(timeoutMillis) && hasCallback
    {
      isDetectionRunning := false;
      state := Triggered;
      idleCallbacks := idleCallbacks + 1;
    }
  }
}

=== FILE: map_vm.dfy ===
// The world map screen (presentation/map/MapViewModel.kt): scene clicks
// navigate only into open scenes, the selected scene and icon positions are
// remembered, and the parent area sits behind an arithmetic question.
module MapVM {
  import opened Wrappers
  import opened Scenes
  import opened Badges
  import opened Progress
  import opened MathQuestion
  import Arith

  /** An icon position on screen (a Compose Offset). */
  datatype Offset = Offset(x: real, y: real)

  datatype MapState = MapState(
    sceneStatuses: map<SceneType, SceneStatus>,
    badges: seq<Badge>,
    showParentVerification: bool,
    mathQuestion: Option<Question>)

  /** MapState(): the fire station open, the other two scenes locked, no dialog. */
  function DefaultMapState(): (s: MapState)
    ensures s.sceneStatuses == map[FireStation := Unlocked, School := Locked, Forest := Locked]
    ensures s.badges == [] && !s.showParentVerification && s.mathQuestion == None
  {
    MapState(map[FireStation := Unlocked, School := Locked, Forest := Locked], [], false, None)
  }

  datatype MapEffect =
    | NavigateToScene(scene: SceneType)
    | NavigateToCollection
    | NavigateToParent
    | PlaySceneSound(scene: SceneType)
    | PlayLockedHint
    | PlaySuccessSound

  /** `sceneStatuses[scene]`: the status, or null for a scene the map lacks. */
  function StatusOf(statuses: map<SceneType, SceneStatus>, scene: SceneType): Option<SceneStatus>
  {
    if scene in statuses then Some(statuses[scene]) else None
  }

  /**
   * The effects of clicking a scene: a locked or unknown scene plays the
   * locked hint; an unlocked or completed one plays its sound, then
   * navigates to it.
   */
  function SceneClickEffects(statuses: map<SceneType, SceneStatus>, scene: SceneType): (e: seq<MapEffect>)
    ensures StatusOf(statuses, scene) in {None, Some(Locked)} ==> e == [PlayLockedHint]
    ensures StatusOf(statuses, scene) in {Some(Unlocked), Some(Completed)} ==> e == [PlaySceneSound(scene), NavigateToScene(scene)]
  {
    match StatusOf(statuses, scene)
    case Some(Locked) => [PlayLockedHint]
    case Some(Unlocked) => [PlaySceneSound(scene), NavigateToScene(scene)]
    case Some(Completed) => [PlaySceneSound(scene), NavigateToScene(scene)]
    case None => [PlayLockedHint]
  }

  /** Once the map shows a progress record, a click navigates exactly into the scenes that record unlocks, and only into the clicked one. */
  lemma ClickNavigatesIffUnlocked(p: GameProgress, scene: SceneType, target: SceneType)
    ensures NavigateToScene(target) in SceneClickEffects(p.sceneStatuses, scene) <==> target == scene && IsSceneUnlocked(p, scene)
  {
  }

  class MapViewModel {
    var state: MapState
    var selectedScene: SceneType
    var animationTrigger: int
    var scenePositions: map<SceneType, Offset>
    /** The effects sent so far, in order. */
    var effects: seq<MapEffect>

    /** A question on show always has an answer in 2..10. */
    predicate Valid()
      reads this
    {
      state.mathQuestion.Some? ==> 2 <= state.mathQuestion.value.answer <= 10
    }

    constructor ()
      ensures Valid()
      ensures state == DefaultMapState() && selectedScene == FireStation && animationTrigger == 0
      ensures scenePositions == map[] && effects == []
    {
      state := DefaultMapState();
      selectedScene := FireStation;
      animationTrigger := 0;
      scenePositions := map[];
      effects := [];
    }

    /**
     * The progress collector: the state is rebuilt from the progress's scene
     * statuses, with no badges and the dialog fields at their defaults.
     */
    method OnProgress(progress: GameProgress)
      modifies this
      ensures Valid()
      ensures state == MapState(progress.sceneStatuses, [], false, None)
      ensures selectedScene == old(selectedScene) && animationTrigger == old(animationTrigger)
      ensures scenePositions == old(scenePositions) && effects == old(effects)
    {
      state := MapState(progress.sceneStatuses, [], false, None);
    }

    /** SceneClicked: emits the click effects for the scene's current status; the state is untouched. */
    method SceneClicked(scene: SceneType)
      modifies this
      ensures effects == old(effects) + SceneClickEffects(state.sceneStatuses, scene)
      ensures NavigateToScene(scene) in effects[|old(effects)|..] <==> StatusOf(state.sceneStatuses, scene) in {Some(Unlocked), Some(Completed)}
      ensures state == old(state) && selectedScene == old(selectedScene) && animationTrigger == old(animationTrigger)
      ensures scenePositions == old(scenePositions)
    {
      var added := SceneClickEffects(state.sceneStatuses, scene);
      effects := effects + added;
      assert effects[|old(effects)|..] == added;
    }

    /** UpdateSelectedScene: remembers the scene and bumps the animation trigger (an Int). */
    method UpdateSelectedScene(scene: SceneType)
      modifies this
      ensures selectedScene == scene
      ensures animationTrigger == Arith.ToInt(old(animationTrigger) + 1)
      ensures Arith.IntMin <= old(animationTrigger) < Arith.IntMax ==> animationTrigger == old(animationTrigger) + 1
      ensures state == old(state) && scenePositions == old(scenePositions) && effects == old(effects)
    {
      selectedScene := scene;
      animationTrigger := Arith.ToInt(animationTrigger + 1);
    }

    /** UpdateScenePosition: overwrites that scene's position and no other. */
    method UpdateScenePosition(scene: SceneType, offset: Offset)
      modifies this
      ensures scene in scenePositions && scenePositions[scene] == offset
      ensures forall s :: s != scene ==> (s in scenePositions <==> s in old(scenePositions))
      ensures forall s :: s != scene && s in scenePositions ==> scenePositions[s] == old(scenePositions)[s]
      ensures state == old(state) && selectedScene == old(selectedScene)
      ensures animationTrigger == old(animationTrigger) && effects == old(effects)
    {
      scenePositions := scenePositions[scene := offset];
    }

    /** CollectionClicked: navigation to the collection and nothing else. */
    method CollectionClicked()
      modifies this
      ensures effects == old(effects) + [NavigateToCollection]
      ensures state == old(state) && selectedScene == old(selectedScene)
      ensures animationTrigger == old(animationTrigger) && scenePositions == old(scenePositions)
    {
      effects := effects + [NavigateToCollection];
    }

    /** ParentModeClicked: shows the gate with a fresh question built from the draws a and b. */
    method ParentModeClicked(a: int, b: int)
      requires IsDraw(a) && IsDraw(b)
      modifies this
      ensures Valid()
      ensures state == old(state).(showParentVerification := true, mathQuestion := Some(Generate(a, b)))
      ensures effects == old(effects) && selectedScene == old(selectedScene)
      ensures animationTrigger == old(animationTrigger) && scenePositions == old(scenePositions)
    {
      state := state.(showParentVerification := true, mathQuestion := Some(Generate(a, b)));
    }

    /**
     * SubmitParentAnswer: the answer of the question on show lets the parent
     * in (gate closed, question cleared, NavigateToParent); anything else,
     * including an answer with no question on show, replaces the question
     * with one built from the draws a and b and navigates nowhere.
     */
    method SubmitParentAnswer(answer: int, a: int, b: int)
      requires IsDraw(a) && IsDraw(b)
      modifies this
      ensures Valid()
      ensures var correct := old(state).mathQuestion.Some? && answer == old(state).mathQuestion.value.answer;
        (correct ==> (state == old(state).(showParentVerification := false, mathQuestion := None) &&
          effects == old(effects) + [NavigateToParent])) &&
        (!correct ==> state == old(state).(mathQuestion := Some(Generate(a, b))) && effects == old(effects))
      ensures NavigateToParent in effects[|old(effects)|..] ==> old(state).mathQuestion.Some? && answer == old(state).mathQuestion.value.answer
      ensures selectedScene == old(selectedScene) && animationTrigger == old(animationTrigger)
      ensures scenePositions == old(scenePositions)
    {
      var currentState := state;
      if currentState.mathQuestion.Some? && answer == currentState.mathQuestion.value.answer {
        state := currentState.(showParentVerification := false, mathQuestion := None);
        effects := effects + [NavigateToParent];
        assert effects[|old(effects)|..] == [NavigateToParent];
      } else {
        state := currentState.(mathQuestion := Some(Generate(a, b)));
        assert effects[|old(effects)|..] == [];
      }
    }

    /** CancelParentVerification: the gate closes and the question is dropped. */
    method CancelParentVerification()
      modifies this
      ensures Valid()
      ensures state == old(state).(showParentVerification := false, mathQuestion := None)
      ensures effects == old(effects) && selectedScene == old(selectedScene)
      ensures animationTrigger == old(animationTrigger) && scenePositions == old(scenePositions)
    {
      state := state.(showParentVerification := false, mathQuestion := None);
    }
  }
}

=== FILE: math_question.dfy ===
// The parent gate's arithmetic question, as MapViewModel.generateMathQuestion
// and ParentViewModel.generateMathQuestion both build it: two random
// addends in 1..5 (the draws are parameters here), the text "a + b = ?"
// and the answer a + b.
module MathQuestion {
  import Text

  /** Pair(question text, answer). */
  datatype Question = Question(text: string, answer: int)

  /** A value `(1..5).random()` can return. */
  predicate IsDraw(n: int)
  {
    1 <= n <= 5
  }

  /** generateMathQuestion for the draws a and b. */
  function Generate(a: int, b: int): (q: Question)
    requires IsDraw(a) && IsDraw(b)
    ensures q.answer == a + b
    ensures 2 <= q.answer <= 10
    ensures |q.text| == 9 && q.text[1..4] == " + " && q.text[5..] == " = ?"
  {
    Question(Text.IntToString(a) + " + " + Text.IntToString(b) + " = ?", a + b)
  }

  /** The sum a reader of the text computes: the digit before " + " plus the digit after it. */
  function SumShown(text: string): (n: int)
    requires |text| >= 5
  {
    Text.DigitValue(text[0]) + Text.DigitValue(text[4])
  }

  /** The text of a question shows exactly the sum its answer holds. */
  lemma TextShowsAnswer(a: int, b: int)
    requires IsDraw(a) && IsDraw(b)
    ensures SumShown(Generate(a, b).text) == Generate(a, b).answer
  {
    var q := Generate(a, b);
    assert Text.IntToString(a) == [Text.DigitChar(a)];
    assert Text.IntToString(b) == [Text.DigitChar(b)];
    assert q.text[0] == Text.DigitChar(a) && q.text[4] == Text.DigitChar(b);
    Text.DigitRoundTrip(a);
    Text.DigitRoundTrip(b);
  }

  /** Two questions that read the same have the same addends, so the same answer. */
  lemma SameTextSameAnswer(a: int, b: int, c: int, d: int)
    requires IsDraw(a) && IsDraw(b) && IsDraw(c) && IsDraw(d)
    requires Generate(a, b).text == Generate(c, d).text
    ensures a == c && b == d
    ensures Generate(a, b).answer == Generate(c, d).answer
  {
    assert Text.IntToString(a) == [Text.DigitChar(a)] && Text.IntToString(c) == [Text.DigitChar(c)];
    assert Text.IntToString(b) == [Text.DigitChar(b)] && Text.IntToString(d) == [Text.DigitChar(d)];
    assert Generate(a, b).text[0] == Generate(c, d).text[0];
    assert Generate(a, b).text[4] == Generate(c, d).text[4];
    Text.DigitRoundTrip(a);
    Text.DigitRoundTrip(b);
    Text.DigitRoundTrip(c);
    Text.DigitRoundTrip(d);
  }
}

=== FILE: parent_settings.dfy ===
// Lexicographic order on strings, as Kotlin's String.compareTo orders the
// "yyyy-MM-dd" date keys, and the descending sort of a set of keys.
module Lex {

  /** a sorts strictly before b: at the first differing character a's is smaller, or a is a proper prefix of b. */
  predicate LexLess(a: string, b: string)
    decreases |a|
  {
    if b == [] then false
    else if a == [] then true
    else if a[0] != b[0] then a[0] < b[0]
    else LexLess(a[1..], b[1..])
  }

  lemma {:induction false} LexIrreflexive(a: string)
    ensures !LexLess(a, a)
    decreases |a|
  {
    if a != [] {
      LexIrreflexive(a[1..]);
    }
  }

  lemma {:induction false} LexTransitive(a: string, b: string, c: string)
    requires LexLess(a, b) && LexLess(b, c)
    ensures LexLess(a, c)
    decreases |a|
  {
    if a != [] && a[0] == b[0] && b[0] == c[0] {
      LexTransitive(a[1..], b[1..], c[1..]);
    }
  }

  lemma {:induction false} LexTotal(a: string, b: string)
    ensures a == b || LexLess(a, b) || LexLess(b, a)
    decreases |a|
  {
    if a != [] && b != [] && a[0] == b[0] {
      LexTotal(a[1..], b[1..]);
      if a[1..] == b[1..] {
        assert a == [a[0]] + a[1..] && b == [b[0]] + b[1..];
      }
    }
  }

  lemma {:induction false} LexAsymmetric(a: string, b: string)
    requires LexLess(a, b)
    ensures !LexLess(b, a)
    decreases |a|
  {
    if a != [] && a[0] == b[0] {
      LexAsymmetric(a[1..], b[1..]);
    }
  }

  /** m is the lexicographically largest element of keys. */
  predicate IsGreatest(m: string, keys: set<string>)
  {
    m in keys && forall k :: k in keys && k != m ==> LexLess(k, m)
  }

  /** Every non-empty finite set of strings has a greatest element. */
  lemma {:induction false} GreatestExists(keys: set<string>)
    requires keys != {}
    ensures exists m :: IsGreatest(m, keys)
    decreases |keys|
  {
    var x :| x in keys;
    var rest := keys - {x};
    if rest == {} {
      assert keys == {x};
      assert IsGreatest(x, keys);
    } else {
      GreatestExists(rest);
      var m :| IsGreatest(m, rest);
      LexTotal(x, m);
      if LexLess(m, x) {
        forall k | k in keys && k != x ensures LexLess(k, x) {
          if k != m {
            LexTransitive(k, m, x);
          }
        }
        assert IsGreatest(x, keys);
      } else {
        assert IsGreatest(m, keys);
      }
    }
  }

  /** A set has at most one greatest element. */
  lemma GreatestIsUnique(keys: set<string>)
    ensures forall a, b :: IsGreatest(a, keys) && IsGreatest(b, keys) ==> a == b
  {
    forall a, b | IsGreatest(a, keys) && IsGreatest(b, keys) ensures a == b {
      GreatestUnique(a, b, keys);
    }
  }

  /** sortedDescending on a set of keys: strictly decreasing, holding every key once. */
  function SortedDescending(keys: set<string>): (r: seq<string>)
    ensures |r| == |keys|
    ensures forall k :: k in r <==> k in keys
    ensures forall i, j :: 0 <= i < j < |r| ==> LexLess(r[j], r[i])
    decreases |keys|
  {
    if keys == {} then []
    else
      GreatestExists(keys);
      GreatestIsUnique(keys);
      var m :| IsGreatest(m, keys);
      [m] + SortedDescending(keys - {m})
  }

  lemma GreatestUnique(a: string, b: string, keys: set<string>)
    requires IsGreatest(a, keys) && IsGreatest(b, keys)
    ensures a == b
  {
    if a != b {
      LexAsymmetric(a, b);
    }
  }

  /** Strictly decreasing: each element sorts after every later one. */
  predicate Descending(s: seq<string>)
  {
    forall i, j :: 0 <= i < j < |s| ==> LexLess(s[j], s[i])
  }

  /** A strictly decreasing sequence holding exactly the keys is the sorted one: the order is fully determined. */
  lemma SortedDescendingUnique(keys: set<string>, s: seq<string>)
    requires forall k :: k in s <==> k in keys
    requires forall i, j :: 0 <= i < j < |s| ==> LexLess(s[j], s[i])
    ensures s == SortedDescending(keys)
  {
    DescendingUnique(s, SortedDescending(keys));
  }

  /** Two strictly decreasing sequences with the same elements are equal. */
  lemma {:induction false} DescendingUnique(s: seq<string>, t: seq<string>)
    requires forall k :: k in s <==> k in t
    requires Descending(s) && Descending(t)
    ensures s == t
    decreases |s|
  {
    if s != [] {
      assert t != [] by { assert s[0] in t; }
      DescendingHeads(s, t);
      DescendingTail(s);
      DescendingTail(t);
      forall k ensures k in s[1..] <==> k in t[1..] {
        if k in s[1..] { DescendingTailIn(s, t, k); }
        if k in t[1..] { DescendingTailIn(t, s, k); }
      }
      DescendingUnique(s[1..], t[1..]);
      assert s == [s[0]] + s[1..] && t == [t[0]] + t[1..];
    } else {
      assert forall k :: k !in t;
      HeadIn(t);
    }
  }

  /** A non-empty sequence holds its head. */
  lemma HeadIn(t: seq<string>)
    ensures t == [] || t[0] in t
  {
  }

  /** Two strictly decreasing sequences with the same elements start alike: both start with the greatest. */
  lemma DescendingHeads(s: seq<string>, t: seq<string>)
    requires s != [] && t != []
    requires forall k :: k in s <==> k in t
    requires Descending(s) && Descending(t)
    ensures s[0] == t[0]
  {
    if s[0] != t[0] {
      assert t[0] in s && s[0] in t;
      var i :| 0 <= i < |s| && s[i] == t[0];
      var j :| 0 <= j < |t| && t[j] == s[0];
      LexAsymmetric(t[0], s[0]);
    }
  }

  /** Dropping the head of a strictly decreasing sequence leaves one. */
  lemma DescendingTail(s: seq<string>)
    requires s != [] && Descending(s)
    ensures Descending(s[1..])
  {
    forall i, j | 0 <= i < j < |s[1..]| ensures LexLess(s[1..][j], s[1..][i]) {
      assert s[1..][i] == s[i + 1] && s[1..][j] == s[j + 1];
    }
  }

  /** Past a shared head, an element of the first tail is in the second tail. */
  lemma DescendingTailIn(s: seq<string>, t: seq<string>, k: string)
    requires s != [] && t != [] && s[0] == t[0]
    requires forall x :: x in s ==> x in t
    requires Descending(s) && k in s[1..]
    ensures k in t[1..]
  {
    var i :| 0 <= i < |s[1..]| && s[1..][i] == k;
    assert s[i + 1] == k && LexLess(k, s[0]);
    LexIrreflexive(k);
    assert k in t;
    var j :| 0 <= j < |t| && t[j] == k;
    assert t[1..][j - 1] == k;
  }
}

// Parent-mode settings: session length, reminder lead time and per-day
// usage totals (domain/model/ParentSettings.kt).
module Settings {
  import opened Wrappers
  import opened Lex
  import Arith

  /** Session length (min), reminder lead time (min) and usage per "yyyy-MM-dd" date (ms). */
  datatype ParentSettings = ParentSettings(
    sessionDurationMinutes: int,
    reminderMinutesBefore: int,
    dailyUsageStats: map<string, int>)

  const DefaultSessionDuration: int := 15
  const DefaultReminderMinutes: int := 2
  const AvailableDurations: seq<int> := [5, 10, 15, 30]
  const MillisPerMinute: int := 60 * 1000

  /** default: a 15-minute session, a 2-minute reminder and no usage recorded. */
  function Default(): (s: ParentSettings)
    ensures s.sessionDurationMinutes == 15 && s.reminderMinutesBefore == 2 && s.dailyUsageStats == map[]
  {
    ParentSettings(DefaultSessionDuration, DefaultReminderMinutes, map[])
  }

  /**
   * `minutes * 60 * 1000L`: the first product is taken on Int and wraps,
   * the second on Long. The result agrees with the true product up to whole
   * multiples of 2^32 seconds, and equals it when `minutes * 60` fits an Int.
   */
  function MinutesToMillis(minutes: int): (ms: int)
    ensures Arith.IntMin * 1000 <= ms <= Arith.IntMax * 1000
    ensures (ms - minutes * 60000) % (0x1_0000_0000 * 1000) == 0
    ensures Arith.IntMin <= minutes * 60 <= Arith.IntMax ==> ms == minutes * 60000
  {
    var seconds := Arith.ToInt(minutes * 60);
    Arith.ScaledMultiple(seconds - minutes * 60, 0x1_0000_0000, 1000);
    seconds * 1000
  }

  /** 35791395 minutes overflow the Int product: the session length comes out negative. */
  lemma MinutesToMillisWraps()
    ensures 35791395 * 60 > Arith.IntMax
    ensures MinutesToMillis(35791395) == -2147483596000
  {
  }

  /** getSessionDurationMillis: the session length in milliseconds, with the Int product wrapped. */
  function SessionDurationMillis(s: ParentSettings): (ms: int)
    ensures ms == MinutesToMillis(s.sessionDurationMinutes)
    ensures Arith.IntMin <= s.sessionDurationMinutes * 60 <= Arith.IntMax ==> ms == s.sessionDurationMinutes * MillisPerMinute
  {
    MinutesToMillis(s.sessionDurationMinutes)
  }

  /** getReminderMillis: the reminder lead time in milliseconds, with the Int product wrapped. */
  function ReminderMillis(s: ParentSettings): (ms: int)
    ensures ms == MinutesToMillis(s.reminderMinutesBefore)
    ensures Arith.IntMin <= s.reminderMinutesBefore * 60 <= Arith.IntMax ==> ms == s.reminderMinutesBefore * MillisPerMinute
  {
    MinutesToMillis(s.reminderMinutesBefore)
  }

  /** The message of the IllegalArgumentException that require(...) raises. */
  const InvalidDurationMessage: string := "Duration must be one of: [5, 10, 15, 30]"

  /** updateSessionDuration: accepts only 5, 10, 15 or 30 minutes and changes nothing else. */
  function UpdateSessionDuration(s: ParentSettings, minutes: int): (r: Result<ParentSettings, string>)
    ensures r.Success? <==> minutes == 5 || minutes == 10 || minutes == 15 || minutes == 30
    ensures r.Success? ==> r.value.sessionDurationMinutes == minutes && r.value.(sessionDurationMinutes := s.sessionDurationMinutes) == s
    ensures r.Failure? ==> r.error == InvalidDurationMessage
  {
    if minutes in AvailableDurations then Success(s.(sessionDurationMinutes := minutes))
    else Failure(InvalidDurationMessage)
  }

  /** getUsageForDate: the recorded total, 0 for a date never recorded. */
  function UsageForDate(s: ParentSettings, date: string): (ms: int)
    ensures date !in s.dailyUsageStats ==> ms == 0
    ensures date in s.dailyUsageStats ==> ms == s.dailyUsageStats[date]
  {
    if date in s.dailyUsageStats then s.dailyUsageStats[date] else 0
  }

  /** recordUsage: adds the duration to that date's total and leaves every other date alone. */
  function RecordUsage(s: ParentSettings, date: string, durationMillis: int): (r: ParentSettings)
    ensures UsageForDate(r, date) == UsageForDate(s, date) + durationMillis
    ensures forall d :: d != date ==> UsageForDate(r, d) == UsageForDate(s, d)
    ensures r.dailyUsageStats.Keys == s.dailyUsageStats.Keys + {date}
    ensures r.sessionDurationMinutes == s.sessionDurationMinutes && r.reminderMinutesBefore == s.reminderMinutesBefore
  {
    var current := if date in s.dailyUsageStats then s.dailyUsageStats[date] else 0;
    s.(dailyUsageStats := s.dailyUsageStats[date := current + durationMillis])
  }

  /** getWeeklyUsage: the sum of getUsageForDate over the list, each occurrence counted. */
  function WeeklyUsage(s: ParentSettings, weekDays: seq<string>): (total: int)
    ensures (forall d :: d in s.dailyUsageStats ==> s.dailyUsageStats[d] >= 0) ==> total >= 0
    decreases |weekDays|
  {
    if weekDays == [] then 0
    else WeeklyUsage(s, weekDays[..|weekDays| - 1]) + UsageForDate(s, weekDays[|weekDays| - 1])
  }

  /** Recording ms for a date raises a weekly total by ms for every time the date occurs in the week. */
  lemma {:induction false} WeeklyUsageAfterRecord(s: ParentSettings, date: string, ms: int, weekDays: seq<string>)
    ensures WeeklyUsage(RecordUsage(s, date, ms), weekDays) == WeeklyUsage(s, weekDays) + ms * multiset(weekDays)[date]
    decreases |weekDays|
  {
    if weekDays != [] {
      var init := weekDays[..|weekDays| - 1];
      var last := weekDays[|weekDays| - 1];
      assert weekDays == init + [last];
      WeeklyUsageAfterRecord(s, date, ms, init);
      var r := RecordUsage(s, date, ms);
      assert WeeklyUsage(r, weekDays) == WeeklyUsage(r, init) + UsageForDate(r, last);
      assert WeeklyUsage(s, weekDays) == WeeklyUsage(s, init) + UsageForDate(s, last);
      var k := multiset(init)[date];
      assert multiset(weekDays) == multiset(init) + multiset{last};
      if last == date {
        assert multiset(weekDays)[date] == k + 1;
        Arith.MulSuccRight(ms, k);
      } else {
        assert multiset(weekDays)[date] == k;
      }
    }
  }

  /** clearUsageStats: empties the usage map and keeps both durations. */
  function ClearUsageStats(s: ParentSettings): (r: ParentSettings)
    ensures r.dailyUsageStats == map[]
    ensures forall d :: UsageForDate(r, d) == 0
    ensures r.sessionDurationMinutes == s.sessionDurationMinutes && r.reminderMinutesBefore == s.reminderMinutesBefore
  {
    s.(dailyUsageStats := map[])
  }

  /** getSortedDates: every recorded date once, newest ("largest") first. */
  function SortedDates(s: ParentSettings): (dates: seq<string>)
    ensures |dates| == |s.dailyUsageStats|
    ensures forall d :: d in dates <==> d in s.dailyUsageStats
    ensures forall i, j :: 0 <= i < j < |dates| ==> LexLess(dates[j], dates[i])
  {
    SortedDescending(s.dailyUsageStats.Keys)
  }
}

=== FILE: parent_vm.dfy ===
// The parent area (presentation/parent/ParentViewModel.kt): usage figures,
// a confirmation step before a reset, an arithmetic re-check before every
// sensitive change, and the time-settings dialog. Work the source launches
// in a coroutine runs to completion inside the handler here, after the
// handler's synchronous state change, as the main dispatcher orders it.
module ParentVM {
  import opened Wrappers
  import opened Scenes
  import opened Badges
  import opened Progress
  import opened Settings
  import opened MathQuestion
  import opened Store

  datatype ParentAction = UpdateTimeSettings | ResetProgress | ClearStatistics

  datatype ParentState = ParentState(
    settings: ParentSettings,
    todayPlayTime: int,
    totalPlayTime: int,
    sceneStatuses: map<SceneType, SceneStatus>,
    totalBadgeCount: int,
    showResetConfirmation: bool,
    showReverification: bool,
    reverificationQuestion: Option<Question>,
    pendingAction: Option<ParentAction>,
    showTimeSettingsDialog: bool,
    sessionTimeLimitEnabled: bool,
    dailyTimeLimitEnabled: bool,
    pendingSessionTimeLimit: Option<int>,
    showSettingsSavedHint: bool,
    showResetSuccessHint: bool,
    showVerificationFailedHint: bool)

  /** A ParentState holding the given figures, every dialog and hint at its default. */
  function FreshState(settings: ParentSettings, todayPlayTime: int, totalPlayTime: int,
                      sceneStatuses: map<SceneType, SceneStatus>, totalBadgeCount: int): (s: ParentState)
    ensures s.settings == settings && s.todayPlayTime == todayPlayTime && s.totalPlayTime == totalPlayTime
    ensures s.sceneStatuses == sceneStatuses && s.totalBadgeCount == totalBadgeCount
    ensures !s.showResetConfirmation && !s.showReverification && !s.showTimeSettingsDialog
    ensures s.reverificationQuestion == None && s.pendingAction == None && s.pendingSessionTimeLimit == None
    ensures !s.sessionTimeLimitEnabled && !s.dailyTimeLimitEnabled
    ensures !s.showSettingsSavedHint && !s.showResetSuccessHint && !s.showVerificationFailedHint
  {
    ParentState(settings, todayPlayTime, totalPlayTime, sceneStatuses, totalBadgeCount,
      false, false, None, None, false, false, false, None, false, false, false)
  }

  datatype ParentEffect =
    | PlayClickSound
    | NavigateToMap
    | ShowSettingsSavedHint
    | ShowResetSuccessHint
    | ShowVerificationFailedHint

  /**
   * The session length the time-settings dialog saves: the stored length
   * while the switch is on (30 when none is stored), the 15-minute default
   * when it is off. It is always positive.
   */
  function SavedSessionDuration(enabled: bool, stored: int): (m: int)
    ensures enabled && stored > 0 ==> m == stored
    ensures enabled && stored <= 0 ==> m == 30
    ensures !enabled ==> m == DefaultSessionDuration
    ensures m > 0
  {
    if enabled then (if stored > 0 then stored else 30) else 15
  }

  /**
   * Opening the dialog sets the switch from the stored length, so saving
   * without touching the switch keeps a positive length and replaces any
   * other by the default.
   */
  lemma OpenThenSaveKeepsLength(stored: int)
    ensures stored > 0 ==> SavedSessionDuration(stored > 0, stored) == stored
    ensures stored <= 0 ==> SavedSessionDuration(stored > 0, stored) == DefaultSessionDuration
  {
  }

  /** The answer matches the re-check question on show. */
  predicate Answered(s: ParentState, answer: int)
  {
    s.reverificationQuestion.Some? && answer == s.reverificationQuestion.value.answer
  }

  /** The re-check closed, with its question, action and pending length cleared. */
  function Closed(s: ParentState): (r: ParentState)
    ensures !r.showReverification && r.reverificationQuestion == None
    ensures r.pendingAction == None && r.pendingSessionTimeLimit == None
  {
    s.(showReverification := false, reverificationQuestion := None, pendingAction := None, pendingSessionTimeLimit := None)
  }

  /**
   * The state an approved reset leaves: the re-check closed, the initial
   * scene statuses, no badges, no play time, and the success hint on show.
   */
  function AfterReset(s: ParentState): (r: ParentState)
    ensures r.sceneStatuses == Progress.Initial().sceneStatuses && r.totalBadgeCount == 0 && r.totalPlayTime == 0
    ensures r.showResetSuccessHint
    ensures r.(sceneStatuses := s.sceneStatuses, totalBadgeCount := s.totalBadgeCount, totalPlayTime := s.totalPlayTime,
               showResetSuccessHint := s.showResetSuccessHint) == Closed(s)
  {
    Closed(s).(sceneStatuses := Progress.Initial().sceneStatuses, totalBadgeCount := 0, totalPlayTime := 0,
               showResetSuccessHint := true)
  }

  class ParentViewModel {
    const repository: ProgressStore
    var state: ParentState
    /** The effects sent so far, in order. */
    var effects: seq<ParentEffect>

    /**
     * The re-check dialog is on show exactly when an action awaits it, an
     * action never awaits without a question, and every question's answer
     * lies in 2..10.
     */
    predicate Valid()
      reads this
    {
      (state.showReverification <==> state.pendingAction.Some?) &&
      (state.pendingAction.Some? ==> state.reverificationQuestion.Some?) &&
      (state.reverificationQuestion.Some? ==> 2 <= state.reverificationQuestion.value.answer <= 10)
    }

    constructor (progressRepository: ProgressStore)
      ensures Valid()
      ensures repository == progressRepository
      ensures state == FreshState(Settings.Default(), 0, 0, map[], 0) && effects == []
    {
      repository := progressRepository;
      state := FreshState(Settings.Default(), 0, 0, map[], 0);
      effects := [];
    }

    /**
     * The combine collector: the figures are taken from the newest progress,
     * settings and badge table (today's usage from the settings' map), and
     * every dialog and hint returns to its default.
     */
    method OnData(progress: GameProgress, settings: ParentSettings, badges: seq<Badge>, today: string)
      modifies this
      ensures Valid()
      ensures state == FreshState(settings, UsageForDate(settings, today), progress.totalPlayTime,
                                  progress.sceneStatuses, |badges|)
      ensures effects == old(effects)
    {
      var todayPlayTime := if today in settings.dailyUsageStats then settings.dailyUsageStats[today] else 0;
      state := FreshState(settings, todayPlayTime, progress.totalPlayTime, progress.sceneStatuses, |badges|);
    }

    /** BackToMapClicked: a click sound, then navigation to the map. */
    method BackToMapClicked()
      modifies this
      ensures state == old(state)
      ensures effects == old(effects) + [PlayClickSound, NavigateToMap]
    {
      effects := effects + [PlayClickSound, NavigateToMap];
    }

    /** UpdateSessionTimeLimit: the chosen length waits behind a fresh re-check question. */
    method UpdateSessionTimeLimit(minutes: int, a: int, b: int)
      requires IsDraw(a) && IsDraw(b)
      modifies this
      ensures Valid()
      ensures state == old(state).(pendingSessionTimeLimit := Some(minutes), showReverification := true,
                                   reverificationQuestion := Some(Generate(a, b)), pendingAction := Some(UpdateTimeSettings))
      ensures effects == old(effects)
    {
      state := state.(pendingSessionTimeLimit := Some(minutes), showReverification := true,
                      reverificationQuestion := Some(Generate(a, b)), pendingAction := Some(UpdateTimeSettings));
    }

    /** UpdateDailyTimeLimit: a re-check for a time-settings change; the minutes are not kept. */
    method UpdateDailyTimeLimit(minutes: int, a: int, b: int)
      requires IsDraw(a) && IsDraw(b)
      modifies this
      ensures Valid()
      ensures state == old(state).(showReverification := true, reverificationQuestion := Some(Generate(a, b)),
                                   pendingAction := Some(UpdateTimeSettings))
      ensures effects == old(effects)
    {
      state := state.(showReverification := true, reverificationQuestion := Some(Generate(a, b)),
                      pendingAction := Some(UpdateTimeSettings));
    }

    /** UpdateReminderTime: no re-check; the stored settings get the new lead time and the saved hint shows. */
    method UpdateReminderTime(minutes: int)
      requires Valid()
      modifies this, repository
      ensures Valid()
      ensures repository.settings == old(repository.settings).(reminderMinutesBefore := minutes)
      ensures repository.writes == old(repository.writes) + [SettingsWritten(repository.settings)]
      ensures repository.progress == old(repository.progress) && repository.badgeTable == old(repository.badgeTable)
      ensures state == old(state).(showSettingsSavedHint := true)
      ensures effects == old(effects) + [ShowSettingsSavedHint]
    {
      var updatedSettings := repository.settings.(reminderMinutesBefore := minutes);
      repository.UpdateParentSettings(updatedSettings);
      state := state.(showSettingsSavedHint := true);
      effects := effects + [ShowSettingsSavedHint];
    }

    /** ResetProgressClicked: only the confirmation shows. */
    method ResetProgressClicked()
      modifies this
      ensures state == old(state).(showResetConfirmation := true)
      ensures effects == old(effects)
    {
      state := state.(showResetConfirmation := true);
    }

    /** ConfirmResetProgress: the confirmation gives way to a re-check for the reset. */
    method ConfirmResetProgress(a: int, b: int)
      requires IsDraw(a) && IsDraw(b)
      modifies this
      ensures Valid()
      ensures state == old(state).(showResetConfirmation := false, showReverification := true,
                                   reverificationQuestion := Some(Generate(a, b)), pendingAction := Some(ResetProgress))
      ensures effects == old(effects)
    {
      state := state.(showResetConfirmation := false, showReverification := true,
                      reverificationQuestion := Some(Generate(a, b)), pendingAction := Some(ResetProgress));
    }

    /** CancelResetProgress: only the confirmation hides. */
    method CancelResetProgress()
      modifies this
      ensures state == old(state).(showResetConfirmation := false)
      ensures effects == old(effects)
    {
      state := state.(showResetConfirmation := false);
    }

    /**
     * SubmitReverificationAnswer. The answer of the question on show closes
     * the re-check, clearing the question, the action and the pending
     * length, and runs the pending action: a reset empties the store and
     * refreshes the figures; a time-settings change with a pending length
     * stores it and shows the saved hint; clearing statistics only sends
     * the saved hint. Any other answer keeps the re-check open with a
     * question built from the draws a and b, and shows the failure hint.
     */
    method SubmitReverificationAnswer(answer: int, a: int, b: int)
      requires Valid()
      requires IsDraw(a) && IsDraw(b)
      modifies this, repository
      ensures Valid()
      ensures !Answered(old(state), answer) ==>
        state == old(state).(reverificationQuestion := Some(Generate(a, b)), showVerificationFailedHint := true) &&
        effects == old(effects) + [ShowVerificationFailedHint] && unchanged(repository)
      ensures Answered(old(state), answer) && old(state).pendingAction == Some(ResetProgress) ==>
        state == AfterReset(old(state)) &&
        effects == old(effects) + [ShowResetSuccessHint] &&
        repository.progress == Progress.Initial() && repository.badgeTable == [] && repository.settings == Settings.Default() &&
        repository.writes == old(repository.writes) + [ProgressReset]
      ensures Answered(old(state), answer) && old(state).pendingAction == Some(UpdateTimeSettings) &&
              old(state).pendingSessionTimeLimit.Some? ==>
        state == Closed(old(state)).(showSettingsSavedHint := true) && effects == old(effects) + [ShowSettingsSavedHint] &&
        repository.settings == old(repository.settings).(sessionDurationMinutes := old(state).pendingSessionTimeLimit.value) &&
        repository.writes == old(repository.writes) + [SettingsWritten(repository.settings)] &&
        repository.progress == old(repository.progress) && repository.badgeTable == old(repository.badgeTable)
      ensures Answered(old(state), answer) && old(state).pendingAction == Some(UpdateTimeSettings) &&
              old(state).pendingSessionTimeLimit.None? ==>
        state == Closed(old(state)) && effects == old(effects) && unchanged(repository)
      ensures Answered(old(state), answer) && old(state).pendingAction == Some(ClearStatistics) ==>
        state == Closed(old(state)) && effects == old(effects) + [ShowSettingsSavedHint] &&
        unchanged(repository)
      ensures Answered(old(state), answer) && old(state).pendingAction == None ==>
        state == Closed(old(state)) && effects == old(effects) && unchanged(repository)
      ensures state.showReverification <==> old(state).showReverification && !Answered(old(state), answer)
    {
      var currentState := state;
      if Answered(currentState, answer) {
        match currentState.pendingAction {
          case Some(ResetProgress) => ApproveReset(currentState);
          case Some(UpdateTimeSettings) => ApproveTimeSettings(currentState);
          case Some(ClearStatistics) => ApproveClearStatistics(currentState);
          case None => state := Closed(currentState);
        }
      } else {
        state := currentState.(reverificationQuestion := Some(Generate(a, b)), showVerificationFailedHint := true);
        effects := effects + [ShowVerificationFailedHint];
      }
    }

    /**
     * An approved reset: the re-check closes, then the launched job resets
     * the store, reads the reset progress back into the figures, shows the
     * success hint and sends it. The figures on show then agree with the
     * store.
     */
    method ApproveReset(approved: ParentState)
      modifies this, repository
      ensures Valid() && !state.showReverification
      ensures state == AfterReset(approved)
      ensures effects == old(effects) + [ShowResetSuccessHint]
      ensures repository.progress == Progress.Initial() && repository.badgeTable == [] && repository.settings == Settings.Default()
      ensures repository.writes == old(repository.writes) + [ProgressReset]
      ensures state.sceneStatuses == repository.CurrentProgress().sceneStatuses
      ensures state.totalBadgeCount == |repository.badgeTable| && state.totalPlayTime == repository.progress.totalPlayTime
    {
      state := Closed(approved);
      repository.ResetProgress();
      var initialProgress := repository.CurrentProgress();
      state := state.(sceneStatuses := initialProgress.sceneStatuses, totalBadgeCount := 0, totalPlayTime := 0,
                      showResetSuccessHint := true);
      effects := effects + [ShowResetSuccessHint];
    }

    /** An approved time-settings change: the re-check closes, then a pending length is stored. */
    method ApproveTimeSettings(approved: ParentState)
      modifies this, repository
      ensures Valid() && !state.showReverification
      ensures approved.pendingSessionTimeLimit.Some? ==>
        state == Closed(approved).(showSettingsSavedHint := true) && effects == old(effects) + [ShowSettingsSavedHint] &&
        repository.settings == old(repository.settings).(sessionDurationMinutes := approved.pendingSessionTimeLimit.value) &&
        repository.writes == old(repository.writes) + [SettingsWritten(repository.settings)] &&
        repository.progress == old(repository.progress) && repository.badgeTable == old(repository.badgeTable)
      ensures approved.pendingSessionTimeLimit.None? ==>
        state == Closed(approved) && effects == old(effects) && unchanged(repository)
    {
      state := Closed(approved);
      if approved.pendingSessionTimeLimit.Some? {
        ExecuteUpdateTimeSettings(approved.pendingSessionTimeLimit.value);
      }
    }

    /** An approved statistics clear: only the saved hint is sent, and the re-check closes. */
    method ApproveClearStatistics(approved: ParentState)
      modifies this
      ensures Valid() && !state.showReverification
      ensures state == Closed(approved) && effects == old(effects) + [ShowSettingsSavedHint]
    {
      // The hint set here is overwritten by the closing copy below; only the effect remains.
      state := approved.(showSettingsSavedHint := true);
      effects := effects + [ShowSettingsSavedHint];
      state := Closed(approved);
    }

    /** executeUpdateTimeSettings: the stored settings get the new session length and the saved hint shows. */
    method ExecuteUpdateTimeSettings(minutes: int)
      requires Valid()
      modifies this, repository
      ensures Valid()
      ensures repository.settings == old(repository.settings).(sessionDurationMinutes := minutes)
      ensures repository.writes == old(repository.writes) + [SettingsWritten(repository.settings)]
      ensures repository.progress == old(repository.progress) && repository.badgeTable == old(repository.badgeTable)
      ensures state == old(state).(showSettingsSavedHint := true)
      ensures effects == old(effects) + [ShowSettingsSavedHint]
    {
      var updatedSettings := repository.settings.(sessionDurationMinutes := minutes);
      repository.UpdateParentSettings(updatedSettings);
      state := state.(showSettingsSavedHint := true);
      effects := effects + [ShowSettingsSavedHint];
    }

    /** CancelReverification: the re-check closes; a pending session length stays. */
    method CancelReverification()
      modifies this
      ensures Valid()
      ensures state == old(state).(showReverification := false, reverificationQuestion := None, pendingAction := None)
      ensures state.pendingSessionTimeLimit == old(state).pendingSessionTimeLimit
      ensures effects == old(effects)
    {
      state := state.(showReverification := false, reverificationQuestion := None, pendingAction := None);
    }

    /** ShowTimeSettingsDialog: the session switch shows whether a positive length is stored; the daily one is off. */
    method ShowTimeSettingsDialog()
      modifies this
      ensures state == old(state).(showTimeSettingsDialog := true,
                                   sessionTimeLimitEnabled := old(state).settings.sessionDurationMinutes > 0,
                                   dailyTimeLimitEnabled := false)
      ensures effects == old(effects)
    {
      var currentSettings := state.settings;
      state := state.(showTimeSettingsDialog := true,
                      sessionTimeLimitEnabled := currentSettings.sessionDurationMinutes > 0,
                      dailyTimeLimitEnabled := false);
    }

    /** DismissTimeSettingsDialog: only the dialog hides. */
    method DismissTimeSettingsDialog()
      modifies this
      ensures state == old(state).(showTimeSettingsDialog := false)
      ensures effects == old(effects)
    {
      state := state.(showTimeSettingsDialog := false);
    }

    /** ToggleSessionTimeLimit: only the session switch changes. */
    method ToggleSessionTimeLimit(enabled: bool)
      modifies this
      ensures state == old(state).(sessionTimeLimitEnabled := enabled)
      ensures effects == old(effects)
    {
      state := state.(sessionTimeLimitEnabled := enabled);
    }

    /** ToggleDailyTimeLimit: only the daily switch changes. */
    method ToggleDailyTimeLimit(enabled: bool)
      modifies this
      ensures state == old(state).(dailyTimeLimitEnabled := enabled)
      ensures effects == old(effects)
    {
      state := state.(dailyTimeLimitEnabled := enabled);
    }

    /**
     * SaveTimeSettings: the stored settings get the length the dialog's
     * session switch selects (SavedSessionDuration); the dialog closes and
     * the saved hint shows.
     */
    method SaveTimeSettings()
      requires Valid()
      modifies this, repository
      ensures Valid()
      ensures repository.settings == old(repository.settings).(sessionDurationMinutes :=
                SavedSessionDuration(old(state).sessionTimeLimitEnabled, old(repository.settings).sessionDurationMinutes))
      ensures repository.settings.sessionDurationMinutes > 0
      ensures repository.writes == old(repository.writes) + [SettingsWritten(repository.settings)]
      ensures repository.progress == old(repository.progress) && repository.badgeTable == old(repository.badgeTable)
      ensures state == old(state).(showTimeSettingsDialog := false, showSettingsSavedHint := true)
      ensures effects == old(effects) + [ShowSettingsSavedHint]
    {
      var currentState := state;
      var currentSettings := repository.settings;
      var updatedSettings := currentSettings.(sessionDurationMinutes :=
        if currentState.sessionTimeLimitEnabled then
          (if currentSettings.sessionDurationMinutes > 0 then currentSettings.sessionDurationMinutes else 30)
        else 15);
      repository.UpdateParentSettings(updatedSettings);
      state := currentState.(showTimeSettingsDialog := false, showSettingsSavedHint := true);
      effects := effects + [ShowSettingsSavedHint];
    }

    /** dismissSettingsSavedHint. */
    method DismissSettingsSavedHint()
      modifies this
      ensures state == old(state).(showSettingsSavedHint := false)
      ensures effects == old(effects)
    {
      state := state.(showSettingsSavedHint := false);
    }

    /** dismissResetSuccessHint. */
    method DismissResetSuccessHint()
      modifies this
      ensures state == old(state).(showResetSuccessHint := false)
      ensures effects == old(effects)
    {
      state := state.(showResetSuccessHint := false);
    }

    /** dismissVerificationFailedHint. */
    method DismissVerificationFailedHint()
      modifies this
      ensures state == old(state).(showVerificationFailedHint := false)
      ensures effects == old(effects)
    {
      state := state.(showVerificationFailedHint := false);
    }
  }
}

=== FILE: png_format.dfy ===
// The PNG container that scripts/generate_images.py writes: the 8-byte
// signature followed by IHDR, IDAT and IEND chunks, each framed as a
// big-endian length, a 4-byte type, the data and a CRC-32 over type and data
// (sections 5.2 to 5.5 of the PNG specification, ISO/IEC 15948).
module PngFormat {
  import opened Wrappers
  import Arith

  type Byte = b: int | 0 <= b < 256

  const TwoTo32: int := 0x1_0000_0000

  /** What struct.pack('>I', n) accepts; any other value raises struct.error. */
  predicate FitsU32(n: int)
  {
    0 <= n < TwoTo32
  }

  /** struct.pack('>I', n): four bytes, most significant first. */
  function BeU32(n: int): (r: seq<Byte>)
    requires FitsU32(n)
    ensures |r| == 4
  {
    [n / 0x100_0000, (n / 0x1_0000) % 256, (n / 0x100) % 256, n % 256]
  }

  /** The number a big-endian 4-byte field holds. */
  function ReadBeU32(s: seq<Byte>): (n: int)
    requires |s| == 4
    ensures FitsU32(n)
  {
    (s[0] as int) * 0x100_0000 + (s[1] as int) * 0x1_0000 + (s[2] as int) * 0x100 + (s[3] as int)
  }

  /** Reading a packed 32-bit field back gives the packed number. */
  lemma BeU32RoundTrip(n: int)
    requires FitsU32(n)
    ensures ReadBeU32(BeU32(n)) == n
  {
    var q1 := n / 0x100;
    var q2 := q1 / 0x100;
    var q3 := q2 / 0x100;
    assert n == q1 * 0x100 + n % 0x100;
    assert q1 == q2 * 0x100 + q1 % 0x100;
    assert q2 == q3 * 0x100 + q2 % 0x100;
    Arith.NaturalQuotQuot(n, 0x100, 0x100);
    Arith.NaturalQuotQuot(n, 0x1_0000, 0x100);
    assert q2 == n / 0x1_0000;
    assert q3 == n / 0x100_0000;
  }

  // ---------------------------------------------------------------------
  // CRC-32 as zlib.crc32 computes it: reflected polynomial 0xEDB88320,
  // register preset to all ones, result complemented (section 5.5 and
  // annex D of the PNG specification).

  const CrcPolynomial: bv32 := 0xEDB8_8320

  /** One bit step of the reflected shift register. */
  function CrcShift(c: bv32): bv32
  {
    if c & 1 == 1 then (c >> 1) ^ CrcPolynomial else c >> 1
  }

  /** The register after absorbing one byte, least significant bit first. */
  function CrcByte(c: bv32, b: Byte): bv32
  {
    var x := c ^ (b as bv32);
    CrcShift(CrcShift(CrcShift(CrcShift(CrcShift(CrcShift(CrcShift(CrcShift(x))))))))
  }

  /** The register after absorbing a byte string. */
  function CrcRegister(c: bv32, data: seq<Byte>): bv32
    decreases |data|
  {
    if data == [] then c else CrcRegister(CrcByte(c, data[0]), data[1..])
  }

  /** zlib.crc32(data) & 0xffffffff: the mask changes nothing, the value already fits. */
  function Crc32(data: seq<Byte>): (crc: int)
    ensures FitsU32(crc)
  {
    (CrcRegister(0xFFFF_FFFF, data) ^ 0xFFFF_FFFF) as int
  }

  /** The register can absorb a string in pieces: the CRC is a streaming computation. */
  lemma {:induction false} CrcRegisterAppend(c: bv32, a: seq<Byte>, b: seq<Byte>)
    ensures CrcRegister(c, a + b) == CrcRegister(CrcRegister(c, a), b)
    decreases |a|
  {
    if a != [] {
      assert (a + b)[1..] == a[1..] + b;
      CrcRegisterAppend(CrcByte(c, a[0]), a[1..], b);
    } else {
      assert a + b == b;
    }
  }

  // ---------------------------------------------------------------------
  // Chunks.

  /** The chunk type codes, in ASCII. */
  const IHDR: seq<Byte> := [0x49, 0x48, 0x44, 0x52]
  const IDAT: seq<Byte> := [0x49, 0x44, 0x41, 0x54]
  const IEND: seq<Byte> := [0x49, 0x45, 0x4E, 0x44]

  /**
   * create_chunk: length, type, data and the CRC of type and data. None
   * stands for the struct.error raised when the data is 4 GiB or longer.
   */
  function CreateChunk(chunkType: seq<Byte>, data: seq<Byte>): (r: Option<seq<Byte>>)
    ensures r.Some? <==> FitsU32(|data|)
    ensures r.Some? ==> |r.value| == |chunkType| + |data| + 8
  {
    if FitsU32(|data|) then
      Some(BeU32(|data|) + chunkType + data + BeU32(Crc32(chunkType + data)))
    else
      None
  }

  /** One chunk read off the front of a byte string. */
  datatype ChunkRead = ChunkRead(chunkType: seq<Byte>, data: seq<Byte>, rest: seq<Byte>)

  /**
   * A chunk reader as a PNG decoder applies it: the declared length must fit,
   * and the stored CRC must match the one recomputed over type and data.
   */
  function ParseChunk(bytes: seq<Byte>): (r: Option<ChunkRead>)
    ensures r.Some? ==> |r.value.chunkType| == 4
    ensures r.Some? ==> |r.value.rest| < |bytes|
  {
    if |bytes| < 12 then None
    else
      var len := ReadBeU32(bytes[..4]);
      if |bytes| < 12 + len then None
      else
        var chunkType := bytes[4..8];
        var data := bytes[8..8 + len];
        if ReadBeU32(bytes[8 + len..12 + len]) != Crc32(chunkType + data) then None
        else Some(ChunkRead(chunkType, data, bytes[12 + len..]))
  }

  /** A written chunk reads back as its type and data, with the CRC accepted. */
  lemma ChunkRoundTrip(chunkType: seq<Byte>, data: seq<Byte>, rest: seq<Byte>)
    requires |chunkType| == 4 && FitsU32(|data|)
    ensures ParseChunk(CreateChunk(chunkType, data).value + rest) == Some(ChunkRead(chunkType, data, rest))
  {
    var bytes := CreateChunk(chunkType, data).value + rest;
    var len := |data|;
    BeU32RoundTrip(len);
    BeU32RoundTrip(Crc32(chunkType + data));
    assert bytes[..4] == BeU32(len);
    assert bytes[4..8] == chunkType;
    assert bytes[8..8 + len] == data;
    assert bytes[8 + len..12 + len] == BeU32(Crc32(chunkType + data));
    assert bytes[12 + len..] == rest;
  }

  /** The IEND chunk is the fixed 12-byte string every PNG file ends with. */
  lemma IendChunkBytes()
    ensures CreateChunk(IEND, []) == Some([0, 0, 0, 0, 0x49, 0x45, 0x4E, 0x44, 0xAE, 0x42, 0x60, 0x82])
  {
    var c0: bv32 := 0xFFFF_FFFF;
    var c1 := CrcByte(c0, 0x49);
    var c2 := CrcByte(c1, 0x45);
    var c3 := CrcByte(c2, 0x4E);
    var c4 := CrcByte(c3, 0x44);
    assert CrcRegister(c4, []) == c4;
    assert CrcRegister(c3, [0x44]) == c4;
    assert CrcRegister(c2, [0x4E, 0x44]) == c4;
    assert CrcRegister(c1, [0x45, 0x4E, 0x44]) == c4;
    assert CrcRegister(c0, IEND) == c4;
    assert c4 ^ 0xFFFF_FFFF == 0xAE42_6082;
    assert Crc32(IEND) == 0xAE42_6082;
    assert BeU32(0) == [0, 0, 0, 0];
    assert BeU32(0xAE42_6082) == [0xAE, 0x42, 0x60, 0x82];
    assert IEND + [] == IEND;
    var framed: seq<Byte> := BeU32(0) + IEND + [] + BeU32(0xAE42_6082);
    assert CreateChunk(IEND, []) == Some(framed);
    var expected: seq<Byte> := [0, 0, 0, 0, 0x49, 0x45, 0x4E, 0x44, 0xAE, 0x42, 0x60, 0x82];
    assert |framed| == 12;
    assert forall i :: 0 <= i < 12 ==> framed[i] == expected[i];
    assert framed == expected;
  }

  // ---------------------------------------------------------------------
  // Whole files.

  const Signature: seq<Byte> := [0x89, 0x50, 0x4E, 0x47, 0x0D, 0x0A, 0x1A, 0x0A]

  /** The fields of an IHDR chunk (section 11.2.2 of the PNG specification). */
  datatype Header = Header(width: nat, height: nat, bitDepth: Byte, colourType: Byte,
                           compression: Byte, filter: Byte, interlace: Byte)

  /**
   * struct.pack('>IIBBBBB', width, height, 8, colourType, 0, 0, 0): 8 bits
   * per sample, deflate compression, adaptive filtering, no interlace.
   * None stands for the struct.error raised for a size outside 32 bits.
   */
  function IhdrData(width: int, height: int, colourType: Byte): (r: Option<seq<Byte>>)
    ensures r.Some? <==> FitsU32(width) && FitsU32(height)
    ensures r.Some? ==> |r.value| == 13
  {
    if FitsU32(width) && FitsU32(height) then
      Some(BeU32(width) + BeU32(height) + [8, colourType, 0, 0, 0])
    else
      None
  }

  /** The header a decoder reads from 13 bytes of IHDR data. */
  function ReadHeader(data: seq<Byte>): Header
    requires |data| == 13
  {
    Header(ReadBeU32(data[..4]), ReadBeU32(data[4..8]), data[8], data[9], data[10], data[11], data[12])
  }

  lemma HeaderRoundTrip(width: int, height: int, colourType: Byte)
    requires FitsU32(width) && FitsU32(height)
    ensures ReadHeader(IhdrData(width, height, colourType).value) == Header(width, height, 8, colourType, 0, 0, 0)
  {
    var data := IhdrData(width, height, colourType).value;
    assert data[..4] == BeU32(width);
    assert data[4..8] == BeU32(height);
    BeU32RoundTrip(width);
    BeU32RoundTrip(height);
  }

  /**
   * The file every encoder of the script returns: signature, IHDR, one IDAT
   * chunk holding the compressed scanlines, IEND. None stands for a
   * struct.error: a size or a compressed length that does not fit in 32 bits.
   */
  function AssemblePng(width: int, height: int, colourType: Byte, compressed: seq<Byte>): (r: Option<seq<Byte>>)
    ensures r.Some? <==> FitsU32(width) && FitsU32(height) && FitsU32(|compressed|)
    ensures r.Some? ==> |r.value| == 57 + |compressed| && r.value[..8] == Signature
  {
    var ihdr := IhdrData(width, height, colourType);
    if ihdr.None? then None
    else
      var idatChunk := CreateChunk(IDAT, compressed);
      if idatChunk.None? then None
      else
        Some(Signature + CreateChunk(IHDR, ihdr.value).value + idatChunk.value + CreateChunk(IEND, []).value)
  }

  /** What a decoder recovers from a file of this layout: the header and the IDAT data. */
  datatype Decoded = Decoded(header: Header, compressed: seq<Byte>)

  /**
   * A reader for files of the layout the script writes: the signature, then
   * IHDR, IDAT and an empty IEND chunk, each with a valid CRC, and nothing after.
   */
  function ParsePng(bytes: seq<Byte>): Option<Decoded>
  {
    if |bytes| < 8 || bytes[..8] != Signature then None
    else match ParseChunk(bytes[8..])
      case None => None
      case Some(first) =>
        if first.chunkType != IHDR || |first.data| != 13 then None
        else match ParseChunk(first.rest)
          case None => None
          case Some(second) =>
            if second.chunkType != IDAT then None
            else match ParseChunk(second.rest)
              case None => None
              case Some(third) =>
                if third.chunkType != IEND || third.data != [] || third.rest != [] then None
                else Some(Decoded(ReadHeader(first.data), second.data))
  }

  /** Every file the encoders return reads back as the header they wrote and the compressed data. */
  lemma AssembleParseRoundTrip(width: int, height: int, colourType: Byte, compressed: seq<Byte>)
    requires AssemblePng(width, height, colourType, compressed).Some?
    ensures ParsePng(AssemblePng(width, height, colourType, compressed).value)
         == Some(Decoded(Header(width, height, 8, colourType, 0, 0, 0), compressed))
  {
    var file := AssemblePng(width, height, colourType, compressed).value;
    var ihdr := IhdrData(width, height, colourType).value;
    var a := CreateChunk(IHDR, ihdr).value;
    var b := CreateChunk(IDAT, compressed).value;
    var c := CreateChunk(IEND, []).value;
    assert file == Signature + a + b + c;
    assert file[..8] == Signature;
    assert file[8..] == a + (b + c);
    ChunkRoundTrip(IHDR, ihdr, b + c);
    ChunkRoundTrip(IDAT, compressed, c);
    assert c == c + [];
    ChunkRoundTrip(IEND, [], []);
    HeaderRoundTrip(width, height, colourType);
  }

  // ---------------------------------------------------------------------
  // Raw image data sizes (section 7.2 and table 11.1 of the PNG specification).

  /** Bytes per pixel at 8 bits per sample for each colour type; 0 for an undefined type. */
  function BytesPerPixel(colourType: Byte): nat
  {
    match colourType
    case 0 => 1  // greyscale
    case 2 => 3  // truecolour
    case 3 => 1  // indexed
    case 4 => 2  // greyscale with alpha
    case 6 => 4  // truecolour with alpha
    case _ => 0
  }

  /** The length of the decompressed scanlines a header announces: a filter byte per row plus its pixels. */
  function ExpectedRawLength(h: Header): int
  {
    h.height * (1 + h.width * BytesPerPixel(h.colourType))
  }
}

=== FILE: png_images.dfy ===
// The pixel data of the placeholder images that scripts/generate_images.py
// writes: how each image is painted, how its pixels become PNG scanlines,
// and the files that result.
module PngImages {
  import opened Wrappers
  import opened PngFormat
  import Arith

  datatype Rgba = Rgba(r: Byte, g: Byte, b: Byte, a: Byte)

  datatype Rgb = Rgb(r: Byte, g: Byte, b: Byte)

  /** struct.pack('4B', r, g, b, a). */
  function Pack(p: Rgba): (bytes: seq<Byte>)
    ensures |bytes| == 4
  {
    [p.r, p.g, p.b, p.a]
  }

  /** b''.join of packed pixels. */
  function Join(ps: seq<Rgba>): (bytes: seq<Byte>)
    ensures |bytes| == 4 * |ps|
  {
    if ps == [] then [] else Join(ps[..|ps| - 1]) + Pack(ps[|ps| - 1])
  }

  /** Groups of four bytes read back as pixels. */
  function Split(bytes: seq<Byte>): (ps: seq<Rgba>)
    requires |bytes| % 4 == 0
    decreases |bytes|
  {
    if bytes == [] then []
    else
      var n := |bytes|;
      Split(bytes[..n - 4]) + [Rgba(bytes[n - 4], bytes[n - 3], bytes[n - 2], bytes[n - 1])]
  }

  /** Joining loses nothing: splitting the bytes gives the pixels back. */
  lemma {:induction false} SplitJoin(ps: seq<Rgba>)
    ensures Split(Join(ps)) == ps
    decreases |ps|
  {
    if ps != [] {
      var bytes := Join(ps);
      assert bytes[..|bytes| - 4] == Join(ps[..|ps| - 1]);
      SplitJoin(ps[..|ps| - 1]);
    }
  }

  /** Python's s * n: n copies of s, one after another. */
  function Repeat<T>(s: seq<T>, n: nat): (r: seq<T>)
    ensures |r| == n * |s|
  {
    if n == 0 then [] else Repeat(s, n - 1) + s
  }

  /** Python's s[a:b] for non-negative bounds: clipped to the sequence, empty when a >= b. */
  function Slice<T>(s: seq<T>, a: nat, b: nat): seq<T>
  {
    var lo := Arith.Min(a, |s|);
    var hi := Arith.Max(lo, Arith.Min(b, |s|));
    s[lo..hi]
  }

  // ---------------------------------------------------------------------
  // Scanlines: every row of pixels preceded by filter type 0 (None).

  /** Bytes per scanline of an 8-bit RGBA image: the filter byte and four bytes per pixel. */
  function RowLength(w: nat): nat
  {
    1 + 4 * w
  }

  /** The scanlines of the first h rows of a row-major pixel list whose rows hold w pixels. */
  function Scanlines(pixels: seq<Rgba>, w: nat, h: nat): (bytes: seq<Byte>)
    requires w * h <= |pixels|
    ensures |bytes| == h * RowLength(w)
  {
    if h == 0 then []
    else
      Arith.MulSuccRight(w, h - 1);
      Arith.MulSucc(h - 1, RowLength(w));
      Scanlines(pixels, w, h - 1) + [0] + Join(pixels[w * (h - 1)..w * h])
  }

  /** The last of h rows: its filter byte and pixels follow the scanlines of the rows above. */
  lemma ScanlinesStep(pixels: seq<Rgba>, w: nat, h: nat)
    requires h > 0 && w * h <= |pixels|
    ensures 0 <= w * (h - 1) && w * (h - 1) + w == w * h
    ensures Scanlines(pixels, w, h) == Scanlines(pixels, w, h - 1) + [0] + Join(pixels[w * (h - 1)..w * h])
  {
    Arith.MulSuccRight(w, h - 1);
  }

  /**
   * The row loop of the encoders with the stride of a pixel list: row y is
   * pixels[y * width : y * width + width].
   */
  method FilterScanlines(pixels: seq<Rgba>, w: nat, h: nat) returns (rowData: seq<Byte>)
    requires w * h <= |pixels|
    ensures rowData == Scanlines(pixels, w, h)
  {
    rowData := [];
    var y := 0;
    while y < h
      invariant y <= h
      invariant rowData == Scanlines(pixels, w, y)
    {
      assert w * (y + 1) <= w * h by {
        Arith.MulLe(y + 1, h, w);
      }
      ScanlinesStep(pixels, w, y + 1);
      var rowStart := w * y;
      var rowEnd := rowStart + w;
      rowData := rowData + [0] + Join(pixels[rowStart..rowEnd]);
      y := y + 1;
    }
  }

  /**
   * The row loop as lines 67-72 write it: row y is taken as
   * pixels[y * width * 4 : y * width * 4 + width * 4], a byte stride applied
   * to a list whose entries are whole 4-byte pixels.
   */
  function ScanlinesAsWritten(pixels: seq<Rgba>, w: nat, h: nat): seq<Byte>
  {
    if h == 0 then []
    else
      var rowStart := (h - 1) * w * 4;
      ScanlinesAsWritten(pixels, w, h - 1) + [0] + Join(Slice(pixels, rowStart, rowStart + w * 4))
  }

  method FilterScanlinesAsWritten(pixels: seq<Rgba>, w: nat, h: nat) returns (rowData: seq<Byte>)
    ensures rowData == ScanlinesAsWritten(pixels, w, h)
  {
    rowData := [];
    var y := 0;
    while y < h
      invariant y <= h
      invariant rowData == ScanlinesAsWritten(pixels, w, y)
    {
      var rowStart := y * w * 4;
      var rowEnd := rowStart + w * 4;
      var rowPixels := Slice(pixels, rowStart, rowEnd);
      rowData := rowData + [0] + Join(rowPixels);
      y := y + 1;
    }
  }

  /**
   * The misplaced rows still add up to the right length: the first rows
   * swallow four rows' worth of pixels each and the later rows come out
   * empty, which is why nothing fails when the data is compressed.
   */
  lemma {:induction false} ScanlinesAsWrittenLength(pixels: seq<Rgba>, w: nat, h: nat)
    ensures |ScanlinesAsWritten(pixels, w, h)| == h + 4 * Arith.Min(|pixels|, h * w * 4)
    decreases h
  {
    if h > 0 {
      var a, b := (h - 1) * w * 4, h * w * 4;
      ByteStrideStep(w, h);
      ScanlinesAsWrittenLength(pixels, w, h - 1);
      var row := Slice(pixels, a, a + w * 4);
      assert |row| == Arith.Min(|pixels|, b) - Arith.Min(|pixels|, a);
    }
  }

  /** The written byte stride of row h - 1 is non-negative and one row short of row h's. */
  lemma ByteStrideStep(w: nat, h: nat)
    requires h > 0
    ensures 0 <= (h - 1) * w * 4 && h * w * 4 == (h - 1) * w * 4 + w * 4
  {
    Arith.MulLe(0, h - 1, w);
    Arith.MulSucc(h - 1, w);
  }

  lemma ScanlinesAsWrittenFullLength(pixels: seq<Rgba>, w: nat, h: nat)
    requires |pixels| == w * h
    ensures |ScanlinesAsWritten(pixels, w, h)| == h * RowLength(w)
  {
    ScanlinesAsWrittenLength(pixels, w, h);
    AreaIdentities(w, h);
  }

  lemma AreaIdentities(w: nat, h: nat)
    ensures h * w * 4 == 4 * (w * h)
    ensures h * RowLength(w) == h + 4 * (w * h)
    ensures w * h >= 0
  {
  }

  /**
   * A reader of scanlines that all use filter type 0, checking the rows from
   * the last to the first; any other filter byte is refused (the PNG filter
   * types are 0 to 4, and this encoder writes only 0).
   */
  function Unfilter(data: seq<Byte>, w: nat, h: nat): Option<seq<Rgba>>
    decreases h
  {
    if h == 0 then (if data == [] then Some([]) else None)
    else if |data| < RowLength(w) then None
    else
      var cut := |data| - RowLength(w);
      if data[cut] != 0 then None
      else match Unfilter(data[..cut], w, h - 1)
        case None => None
        case Some(above) => Some(above + Split(data[cut + 1..]))
  }

  /** The scanlines of a w-by-h image read back as that image. */
  lemma {:induction false} UnfilterScanlines(pixels: seq<Rgba>, w: nat, h: nat)
    requires w * h <= |pixels|
    ensures Unfilter(Scanlines(pixels, w, h), w, h) == Some(pixels[..w * h])
    decreases h
  {
    if h > 0 {
      var m, n := w * (h - 1), w * h;
      ScanlinesStep(pixels, w, h);
      var above, prefix, row := Scanlines(pixels, w, h - 1), pixels[..m], pixels[m..n];
      UnfilterScanlines(pixels, w, h - 1);
      UnfilterRow(above, row, prefix, w, h, Scanlines(pixels, w, h));
      SliceConcat(pixels, m, n);
    }
  }

  /** Cutting a sequence at m and again at n, the two pieces rejoin to its first n elements. */
  lemma SliceConcat<T>(s: seq<T>, m: nat, n: nat)
    requires m <= n <= |s|
    ensures s[..m] + s[m..n] == s[..n]
  {
  }

  /** Appending one scanline of filter type 0 appends its row to what the rows above decode to. */
  lemma UnfilterRow(above: seq<Byte>, row: seq<Rgba>, decoded: seq<Rgba>, w: nat, h: nat, data: seq<Byte>)
    requires h > 0 && |row| == w
    requires Unfilter(above, w, h - 1) == Some(decoded)
    requires data == above + [0] + Join(row)
    ensures Unfilter(data, w, h) == Some(decoded + row)
  {
    var cut := |data| - RowLength(w);
    assert cut == |above|;
    assert data[cut] == 0;
    assert data[..cut] == above;
    assert data[cut + 1..] == Join(row);
    SplitJoin(row);
  }

  /** Two one-pixel rows: the image the counterexample below encodes. */
  const TwoRows: seq<Rgba> := [Rgba(10, 20, 30, 255), Rgba(40, 50, 60, 255)]

  /**
   * With two one-pixel rows the written row loop puts the whole list into
   * the first row and leaves the second row empty, so the second filter byte
   * lands after the second pixel.
   */
  lemma ScanlinesAsWrittenMisplaceRows()
    ensures ScanlinesAsWritten(TwoRows, 1, 2) == [0, 10, 20, 30, 255, 40, 50, 60, 255, 0]
    ensures ScanlinesAsWritten(TwoRows, 1, 2)[RowLength(1)] == 40
    ensures Unfilter(ScanlinesAsWritten(TwoRows, 1, 2), 1, 2) == None
  {
    var ps := TwoRows;
    assert Slice(ps, 0, 4) == ps;
    assert Slice(ps, 4, 8) == [];
    assert Join(ps) == [10, 20, 30, 255, 40, 50, 60, 255] by {
      assert ps[..1] == [ps[0]];
      assert Join([ps[0]]) == [10, 20, 30, 255];
    }
    var bytes := ScanlinesAsWritten(ps, 1, 2);
    assert ScanlinesAsWritten(ps, 1, 1) == [0, 10, 20, 30, 255, 40, 50, 60, 255];
    assert bytes == [0, 10, 20, 30, 255, 40, 50, 60, 255, 0];
    assert bytes[|bytes| - RowLength(1)] == 40;
  }

  /** The same two rows with the stride of the pixel list: each pixel follows its own filter byte. */
  lemma ScanlinesPlaceRows()
    ensures Scanlines(TwoRows, 1, 2) == [0, 10, 20, 30, 255, 0, 40, 50, 60, 255]
    ensures Unfilter(Scanlines(TwoRows, 1, 2), 1, 2) == Some(TwoRows)
  {
    var ps := TwoRows;
    assert Scanlines(ps, 1, 2) == [0, 10, 20, 30, 255, 0, 40, 50, 60, 255] by {
      ScanlinesStep(ps, 1, 2);
      ScanlinesStep(ps, 1, 1);
      assert ps[0..1] == [ps[0]] && ps[1..2] == [ps[1]];
      assert Join([ps[0]]) == [10, 20, 30, 255];
      assert Join([ps[1]]) == [40, 50, 60, 255];
    }
    UnfilterScanlines(ps, 1, 2);
    assert ps[..2] == ps;
  }

  // ---------------------------------------------------------------------
  // Painting.

  /**
   * One channel of a linear gradient at t = num / den: int(c1 + (c2 - c1) * t)
   * computed on exact rationals, where the value is never negative and int()
   * is the floor.
   */
  function Lerp(c1: Byte, c2: Byte, num: nat, den: nat): (c: Byte)
    requires num < den
    ensures Arith.Min(c1, c2) <= c <= Arith.Max(c1, c2)
    ensures num == 0 ==> c == c1
  {
    var n := c1 * (den - num) + c2 * num;
    LerpBounds(c1, c2, num, den);
    n / den
  }

  lemma LerpBounds(c1: Byte, c2: Byte, num: nat, den: nat)
    requires num < den
    ensures var n := c1 * (den - num) + c2 * num;
      n >= 0 && Arith.Min(c1, c2) <= n / den <= Arith.Max(c1, c2) && (num == 0 ==> n / den == c1)
  {
    if num == 0 {
      assert c1 * (den - num) + c2 * num == c1 * den;
      Arith.DivUnique(c1 * den, den, c1, 0);
    }
    var lo := Arith.Min(c1, c2);
    var hi := Arith.Max(c1, c2);
    Arith.MulLe(lo, c1, den - num);
    Arith.MulLe(lo, c2, num);
    Arith.MulLe(c1, hi, den - num);
    Arith.MulLe(c2, hi, num);
    assert lo * (den - num) + lo * num == lo * den;
    assert hi * (den - num) + hi * num == hi * den;
    Arith.MulLe(0, c1, den - num);
    Arith.MulLe(0, c2, num);
    Arith.DivBounds(c1 * (den - num) + c2 * num, den, lo, hi);
  }

  /**
   * What a loop over the pixels of an image paints: a linear gradient
   * (create_gradient_png) or a round button (create_round_button).
   */
  datatype Painter =
    | Gradient(start: Rgba, end: Rgba, direction: string)
    | RoundButton(bg: Rgb, rimShade: (Byte, int, int) -> Byte)

  /**
   * The gradient pixel at column x and row y. Any direction other than
   * "horizontal" runs vertically, as the script's else branch does. The
   * first column (the first row when vertical) is the start colour.
   */
  function GradientPixel(w: nat, h: nat, x: nat, y: nat, start: Rgba, end: Rgba, direction: string): (p: Rgba)
    requires x < w && y < h
    ensures (if direction == "horizontal" then x == 0 else y == 0) ==> p == start
  {
    var num := if direction == "horizontal" then x else y;
    var den := if direction == "horizontal" then w else h;
    Rgba(Lerp(start.r, end.r, num, den), Lerp(start.g, end.g, num, den),
         Lerp(start.b, end.b, num, den), Lerp(start.a, end.a, num, den))
  }

  /** Every channel of a gradient pixel lies between the start and the end colour. */
  lemma GradientBetweenEnds(w: nat, h: nat, x: nat, y: nat, start: Rgba, end: Rgba, direction: string)
    requires x < w && y < h
    ensures var p := GradientPixel(w, h, x, y, start, end, direction);
      && Arith.Min(start.r, end.r) <= p.r <= Arith.Max(start.r, end.r)
      && Arith.Min(start.g, end.g) <= p.g <= Arith.Max(start.g, end.g)
      && Arith.Min(start.b, end.b) <= p.b <= Arith.Max(start.b, end.b)
      && Arith.Min(start.a, end.a) <= p.a <= Arith.Max(start.a, end.a)
  {
  }

  /** min(width, height) // 2 - 4: negative for buttons smaller than 8 pixels, which then have no disc. */
  function ButtonRadius(w: nat, h: nat): int
  {
    Arith.Min(w, h) / 2 - 4
  }

  /**
   * Where a button pixel falls. Outside: dist > radius. Core: the shadow
   * factor max(0, min(1, (radius - dist) / 10)) is exactly 1, that is
   * dist <= radius - 10. Rim: the band between. With integer offsets,
   * sqrt(n) <= r exactly when n <= r * r for r >= 0.
   */
  datatype Zone = Outside | Rim | Core

  function ButtonZone(w: nat, h: nat, x: nat, y: nat): Zone
  {
    var dx := x - w / 2;
    var dy := y - h / 2;
    var n := dx * dx + dy * dy;
    var radius := ButtonRadius(w, h);
    if radius < 0 || n > radius * radius then Outside
    else if radius >= 10 && n <= (radius - 10) * (radius - 10) then Core
    else Rim
  }

  /**
   * The button pixel at column x and row y: transparent outside the disc,
   * opaque inside; the core keeps the background colour, the rim is shaded
   * by int(c * shadow), left as the parameter rimShade(c, radius, n).
   */
  function ButtonPixel(w: nat, h: nat, x: nat, y: nat, bg: Rgb, rimShade: (Byte, int, int) -> Byte): (p: Rgba)
    ensures p.a == 0 <==> ButtonZone(w, h, x, y) == Outside
    ensures p.a != 0 ==> p.a == 255
  {
    var dx := x - w / 2;
    var dy := y - h / 2;
    var n := dx * dx + dy * dy;
    var radius := ButtonRadius(w, h);
    match ButtonZone(w, h, x, y)
    case Outside => Rgba(0, 0, 0, 0)
    case Core => Rgba(bg.r, bg.g, bg.b, 255)
    case Rim => Rgba(rimShade(bg.r, radius, n), rimShade(bg.g, radius, n), rimShade(bg.b, radius, n), 255)
  }

  /** The disc keeps a margin of four pixels: every pixel within four of an edge is transparent. */
  lemma ButtonMargin(w: nat, h: nat, x: nat, y: nat)
    requires ButtonZone(w, h, x, y) != Outside
    ensures 4 <= x <= w - 4 && 4 <= y <= h - 4
  {
    var radius := ButtonRadius(w, h);
    var dx := x - w / 2;
    var dy := y - h / 2;
    SquareNonNegative(dx);
    SquareNonNegative(dy);
    SquareBound(dx, radius);
    SquareBound(dy, radius);
  }

  lemma SquareNonNegative(d: int)
    ensures d * d >= 0
  {
    var m := if d >= 0 then d else -d;
    assert d * d == m * m;
    Arith.MulLe(0, m, m);
  }

  /** A square no larger than r * r has its root between -r and r. */
  lemma SquareBound(d: int, r: int)
    requires r >= 0 && d * d <= r * r
    ensures -r <= d <= r
  {
    var m := if d >= 0 then d else -d;
    assert m * m == d * d;
    SquareIncreasing(r, m);
  }

  lemma SquareIncreasing(a: nat, b: nat)
    ensures a < b ==> a * a < b * b
  {
    if a < b {
      Arith.MulLe(a, b, a);
      Arith.MulLe(a + 1, b, b);
      assert a * a <= b * a < (a + 1) * b <= b * b;
    }
  }

  /** A button at least 28 pixels wide and high has an uncovered background colour at its centre. */
  lemma ButtonCentreIsBackground(w: nat, h: nat, bg: Rgb, rimShade: (Byte, int, int) -> Byte)
    requires w >= 28 && h >= 28
    ensures ButtonPixel(w, h, w / 2, h / 2, bg, rimShade) == Rgba(bg.r, bg.g, bg.b, 255)
  {
    assert (ButtonRadius(w, h) - 10) * (ButtonRadius(w, h) - 10) >= 0 by {
      Arith.MulLe(0, ButtonRadius(w, h) - 10, ButtonRadius(w, h) - 10);
    }
  }

  function Paint(painter: Painter, w: nat, h: nat, x: nat, y: nat): Rgba
    requires x < w && y < h
  {
    match painter
    case Gradient(start, end, direction) => GradientPixel(w, h, x, y, start, end, direction)
    case RoundButton(bg, rimShade) => ButtonPixel(w, h, x, y, bg, rimShade)
  }

  /** The first n pixels of a painted image in row-major order: pixel k is column k % w of row k / w. */
  function Raster(painter: Painter, w: nat, h: nat, n: nat): (ps: seq<Rgba>)
    requires n <= w * h
    ensures |ps| == n
  {
    seq(n, k requires 0 <= k < n => RowMajorBounds(k, w, h); Paint(painter, w, h, k % w, k / w))
  }

  function Image(painter: Painter, w: nat, h: nat): seq<Rgba>
  {
    Raster(painter, w, h, w * h)
  }

  lemma RowMajorBounds(k: nat, w: nat, h: nat)
    requires k < w * h
    ensures w > 0 && k % w < w && k / w < h
  {
    assert w > 0;
    Arith.DivFacts(k, w);
    assert (k / w) * w <= k < h * w;
    Arith.MulLtCancel(k / w, h, w);
  }

  /** Pixel k of a row-major raster sits at column x and row y exactly when k == y * w + x. */
  lemma RowMajorIndex(w: nat, h: nat, x: nat, y: nat)
    requires x < w && y < h
    ensures y * w + x < w * h
    ensures (y * w + x) / w == y && (y * w + x) % w == x
  {
    Arith.MulLe(y + 1, h, w);
    Arith.DivUnique(y * w + x, w, y, x);
  }

  lemma RasterNext(painter: Painter, w: nat, h: nat, x: nat, y: nat)
    requires x < w && y < h
    ensures w * y + x + 1 <= w * h
    ensures Raster(painter, w, h, w * y + x + 1) == Raster(painter, w, h, w * y + x) + [Paint(painter, w, h, x, y)]
  {
    RowMajorIndex(w, h, x, y);
    assert w * y == y * w;
  }

  /** The gradient pixel loop of create_gradient_png (lines 46-57). */
  method GradientPixels(w: nat, h: nat, start: Rgba, end: Rgba, direction: string) returns (pixels: seq<Rgba>)
    ensures pixels == Image(Gradient(start, end, direction), w, h)
  {
    ghost var painter := Gradient(start, end, direction);
    pixels := [];
    var y := 0;
    while y < h
      invariant y <= h
      invariant w * y <= w * h
      invariant pixels == Raster(painter, w, h, w * y)
    {
      var x := 0;
      while x < w
        invariant x <= w
        invariant w * y + x <= w * h
        invariant pixels == Raster(painter, w, h, w * y + x)
      {
        RasterNext(painter, w, h, x, y);
        pixels := pixels + [GradientPixel(w, h, x, y, start, end, direction)];
        x := x + 1;
      }
      assert w * (y + 1) == w * y + w;
      y := y + 1;
    }
  }

  /** The pixel loop of create_round_button (lines 134-153). */
  method ButtonPixels(w: nat, h: nat, bg: Rgb, rimShade: (Byte, int, int) -> Byte) returns (pixels: seq<Rgba>)
    ensures pixels == Image(RoundButton(bg, rimShade), w, h)
  {
    ghost var painter := RoundButton(bg, rimShade);
    pixels := [];
    var y := 0;
    while y < h
      invariant y <= h
      invariant w * y <= w * h
      invariant pixels == Raster(painter, w, h, w * y)
    {
      var x := 0;
      while x < w
        invariant x <= w
        invariant w * y + x <= w * h
        invariant pixels == Raster(painter, w, h, w * y + x)
      {
        RasterNext(painter, w, h, x, y);
        pixels := pixels + [ButtonPixel(w, h, x, y, bg, rimShade)];
        x := x + 1;
      }
      assert w * (y + 1) == w * y + w;
      y := y + 1;
    }
  }

  // ---------------------------------------------------------------------
  // Files.

  /** An 8-bit RGBA PNG (colour type 6) of a w-by-h row-major pixel list. */
  function RgbaPng(w: nat, h: nat, pixels: seq<Rgba>, compress: seq<Byte> -> seq<Byte>): Option<seq<Byte>>
    requires |pixels| == w * h
  {
    AssemblePng(w, h, 6, compress(Scanlines(pixels, w, h)))
  }

  /**
   * A decoder for 8-bit RGBA files of this layout, given the inverse of the
   * compressor: it reads the header, decompresses IDAT and unfilters the rows.
   */
  function DecodeRgba(file: seq<Byte>, decompress: seq<Byte> -> seq<Byte>): Option<seq<Rgba>>
  {
    match ParsePng(file)
    case None => None
    case Some(d) =>
      var hd := d.header;
      if hd.bitDepth != 8 || hd.colourType != 6 || hd.compression != 0 || hd.filter != 0 || hd.interlace != 0 then None
      else Unfilter(decompress(d.compressed), hd.width, hd.height)
  }

  /**
   * Every RGBA file decodes to the image it was written from, and its
   * scanlines have the length its header announces.
   */
  lemma RgbaPngRoundTrip(w: nat, h: nat, pixels: seq<Rgba>,
                         compress: seq<Byte> -> seq<Byte>, decompress: seq<Byte> -> seq<Byte>)
    requires |pixels| == w * h
    requires forall data :: decompress(compress(data)) == data
    requires RgbaPng(w, h, pixels, compress).Some?
    ensures DecodeRgba(RgbaPng(w, h, pixels, compress).value, decompress) == Some(pixels)
    ensures ExpectedRawLength(ParsePng(RgbaPng(w, h, pixels, compress).value).value.header) == |Scanlines(pixels, w, h)|
  {
    var raw := Scanlines(pixels, w, h);
    var file := RgbaPng(w, h, pixels, compress).value;
    var header := Header(w, h, 8, 6, 0, 0, 0);
    assert ParsePng(file) == Some(Decoded(header, compress(raw))) by {
      AssembleParseRoundTrip(w, h, 6, compress(raw));
    }
    assert Unfilter(decompress(compress(raw)), w, h) == Some(pixels) by {
      UnfilterScanlines(pixels, w, h);
      assert pixels[..w * h] == pixels;
    }
    assert ExpectedRawLength(header) == |raw| by {
      RgbaRawLength(w, h);
    }
  }

  lemma RgbaRawLength(w: nat, h: nat)
    ensures ExpectedRawLength(Header(w, h, 8, 6, 0, 0, 0)) == h * RowLength(w)
  {
    var perRow := 1 + w * BytesPerPixel(6);
    assert perRow == RowLength(w);
  }

  /** create_gradient_png, with the row loop taking rows at the stride of the pixel list. */
  method CreateGradientPng(w: nat, h: nat, start: Rgba, end: Rgba, direction: string,
                           compress: seq<Byte> -> seq<Byte>) returns (png: Option<seq<Byte>>)
    ensures png == RgbaPng(w, h, Image(Gradient(start, end, direction), w, h), compress)
  {
    var pixels := GradientPixels(w, h, start, end, direction);
    var rowData := FilterScanlines(pixels, w, h);
    png := AssemblePng(w, h, 6, compress(rowData));
  }

  /** create_round_button, with the row loop taking rows at the stride of the pixel list. */
  method CreateRoundButton(w: nat, h: nat, bg: Rgb, rimShade: (Byte, int, int) -> Byte,
                           compress: seq<Byte> -> seq<Byte>) returns (png: Option<seq<Byte>>)
    ensures png == RgbaPng(w, h, Image(RoundButton(bg, rimShade), w, h), compress)
  {
    var pixels := ButtonPixels(w, h, bg, rimShade);
    var rowData := FilterScanlines(pixels, w, h);
    png := AssemblePng(w, h, 6, compress(rowData));
  }

  // ---------------------------------------------------------------------
  // Solid images.

  /** create_png as written: RGBA rows under an IHDR with colour type 2 (truecolour, no alpha). */
  function CreatePng(w: nat, h: nat, colour: Rgba, compress: seq<Byte> -> seq<Byte>): Option<seq<Byte>>
  {
    var row := [0] + Repeat(Pack(colour), w);
    AssemblePng(w, h, 2, compress(Repeat(row, h)))
  }

  /** The solid rows are the scanlines of the image whose every pixel is the colour. */
  lemma SolidRowsAreScanlines(w: nat, h: nat, colour: Rgba)
    ensures |Repeat([colour], w * h)| == w * h
    ensures Repeat([0] + Repeat(Pack(colour), w), h) == Scanlines(Repeat([colour], w * h), w, h)
  {
    RepeatAll(colour, w * h);
    UniformScanlines(Repeat([colour], w * h), colour, w, h);
  }

  lemma {:induction false} UniformScanlines(all: seq<Rgba>, c: Rgba, w: nat, h: nat)
    requires w * h <= |all|
    requires forall i :: 0 <= i < |all| ==> all[i] == c
    ensures Scanlines(all, w, h) == Repeat([0] + Repeat(Pack(c), w), h)
    decreases h
  {
    if h > 0 {
      var m, n := w * (h - 1), w * h;
      ScanlinesStep(all, w, h);
      UniformScanlines(all, c, w, h - 1);
      UniformRow(all, c, m, n);
      var line := [0] + Repeat(Pack(c), w);
      assert Repeat(line, h) == Repeat(line, h - 1) + line;
      assert Repeat(line, h - 1) + [0] + Join(all[m..n]) == Repeat(line, h - 1) + line;
    } else {
      assert Scanlines(all, w, h) == [];
    }
  }

  /** Any stretch of a single-colour pixel list packs to repeated copies of that colour. */
  lemma UniformRow(all: seq<Rgba>, c: Rgba, m: nat, n: nat)
    requires m <= n <= |all|
    requires forall i :: 0 <= i < |all| ==> all[i] == c
    ensures Join(all[m..n]) == Repeat(Pack(c), n - m)
  {
    UniformIsRepeat(all[m..n], c);
    JoinRepeat(c, n - m);
  }

  lemma {:induction false} UniformIsRepeat(s: seq<Rgba>, c: Rgba)
    requires forall i :: 0 <= i < |s| ==> s[i] == c
    ensures s == Repeat([c], |s|)
    decreases |s|
  {
    if s != [] {
      UniformIsRepeat(s[..|s| - 1], c);
      assert s == s[..|s| - 1] + [c];
    }
  }

  lemma {:induction false} RepeatAll(c: Rgba, n: nat)
    ensures forall i :: 0 <= i < |Repeat([c], n)| ==> Repeat([c], n)[i] == c
    decreases n
  {
    if n > 0 {
      RepeatAll(c, n - 1);
    }
  }

  lemma {:induction false} JoinRepeat(c: Rgba, n: nat)
    ensures Join(Repeat([c], n)) == Repeat(Pack(c), n)
    decreases n
  {
    if n > 0 {
      JoinRepeat(c, n - 1);
      assert Repeat([c], n)[..n - 1] == Repeat([c], n - 1);
    }
  }

  /**
   * create_png announces three bytes per pixel and writes four: for any
   * non-empty image the raw data is not the length its header declares.
   */
  lemma CreatePngMisdescribesRows(w: nat, h: nat, colour: Rgba, compress: seq<Byte> -> seq<Byte>)
    requires w >= 1 && h >= 1
    requires CreatePng(w, h, colour, compress).Some?
    ensures var raw := Repeat([0] + Repeat(Pack(colour), w), h);
      ParsePng(CreatePng(w, h, colour, compress).value) == Some(Decoded(Header(w, h, 8, 2, 0, 0, 0), compress(raw)))
    ensures var raw := Repeat([0] + Repeat(Pack(colour), w), h);
      ExpectedRawLength(Header(w, h, 8, 2, 0, 0, 0)) == h * (1 + 3 * w) < |raw| == h * (1 + 4 * w)
  {
    var raw := Repeat([0] + Repeat(Pack(colour), w), h);
    assert ParsePng(CreatePng(w, h, colour, compress).value) == Some(Decoded(Header(w, h, 8, 2, 0, 0, 0), compress(raw))) by {
      AssembleParseRoundTrip(w, h, 2, compress(raw));
    }
    SolidRawLength(w, h, colour);
    TruecolourRowsShorter(w, h);
  }

  /** h solid rows of w RGBA pixels hold h * (1 + 4 * w) bytes. */
  lemma SolidRawLength(w: nat, h: nat, colour: Rgba)
    ensures |Repeat([0] + Repeat(Pack(colour), w), h)| == h * (1 + 4 * w)
  {
    assert |[0] + Repeat(Pack(colour), w)| == 1 + 4 * w;
  }

  lemma TruecolourRowsShorter(w: nat, h: nat)
    requires w >= 1 && h >= 1
    ensures ExpectedRawLength(Header(w, h, 8, 2, 0, 0, 0)) == h * (1 + 3 * w) < h * (1 + 4 * w)
  {
    var perRow := 1 + w * BytesPerPixel(2);
    assert perRow == 1 + 3 * w;
    Arith.MulLe(1, h, w);
    assert h * (1 + 4 * w) == h * (1 + 3 * w) + h * w;
  }

  /** The solid image with the colour type its rows are written for (6, RGBA). */
  function CreateSolidPng(w: nat, h: nat, colour: Rgba, compress: seq<Byte> -> seq<Byte>): Option<seq<Byte>>
  {
    SolidRowsAreScanlines(w, h, colour);
    RgbaPng(w, h, Repeat([colour], w * h), compress)
  }

  /** The corrected solid image decodes to w * h pixels of the colour, from the same rows create_png compresses. */
  lemma CreateSolidPngDecodes(w: nat, h: nat, colour: Rgba,
                              compress: seq<Byte> -> seq<Byte>, decompress: seq<Byte> -> seq<Byte>)
    requires forall data :: decompress(compress(data)) == data
    requires CreateSolidPng(w, h, colour, compress).Some?
    ensures DecodeRgba(CreateSolidPng(w, h, colour, compress).value, decompress) == Some(Repeat([colour], w * h))
    ensures CreateSolidPng(w, h, colour, compress)
         == AssemblePng(w, h, 6, compress(Repeat([0] + Repeat(Pack(colour), w), h)))
  {
    SolidRowsAreScanlines(w, h, colour);
    RgbaPngRoundTrip(w, h, Repeat([colour], w * h), compress, decompress);
  }
}

=== FILE: rapid_click_guard.dfy ===
// Guard against a child hammering one button: it remembers the most recent
// clicks and fires when they all came in quick succession
// (presentation/common/RapidClickGuard.kt).
module ClickGuard {
  import Arith

  const DefaultRapidClickThresholdMs: int := 500
  const DefaultTriggerCount: int := 3

  /** The number of stamps the guard keeps for a trigger count (none when it is not positive). */
  function Capacity(triggerCount: int): nat
  {
    if triggerCount > 0 then triggerCount else 0
  }

  /** The last `Capacity(triggerCount)` clicks of a click history, oldest first. */
  function LastClicks(history: seq<int>, triggerCount: int): (w: seq<int>)
    ensures |w| == Arith.Min(|history|, Capacity(triggerCount))
    ensures w == history[|history| - |w|..]
  {
    history[|history| - Arith.Min(|history|, Capacity(triggerCount))..]
  }

  /** One click on the stored stamps: append it, then drop the oldest when over the trigger count. */
  function Push(stamps: seq<int>, now: int, triggerCount: int): (r: seq<int>)
  {
    var t := stamps + [now];
    if |t| > triggerCount then t[1..] else t
  }

  /** Pushing a click onto the kept window gives the window of the longer history. */
  lemma PushKeepsLastClicks(history: seq<int>, now: int, triggerCount: int)
    ensures Push(LastClicks(history, triggerCount), now, triggerCount) == LastClicks(history + [now], triggerCount)
  {
    var w := LastClicks(history, triggerCount);
    var h' := history + [now];
    var w' := LastClicks(h', triggerCount);
    assert w + [now] == h'[|history| - |w|..];
  }

  /** Every gap between neighbouring stamps is below the threshold. */
  predicate AllGapsBelow(stamps: seq<int>, threshold: int)
  {
    forall i :: 0 <= i < |stamps| - 1 ==> stamps[i + 1] - stamps[i] < threshold
  }

  class RapidClickGuard {
    const rapidClickThresholdMs: int
    const triggerCount: int
    /** The stamps kept, oldest first. */
    var clickTimestamps: seq<int>
    /** Every click since creation or the last reset. */
    ghost var history: seq<int>

    /** The kept stamps are the latest clicks of the history, never more than the trigger count. */
    ghost predicate Valid()
      reads this
    {
      clickTimestamps == LastClicks(history, triggerCount)
    }

    constructor (rapidClickThresholdMs: int, triggerCount: int)
      ensures Valid()
      ensures this.rapidClickThresholdMs == rapidClickThresholdMs && this.triggerCount == triggerCount
      ensures clickTimestamps == [] && history == []
    {
      this.rapidClickThresholdMs := rapidClickThresholdMs;
      this.triggerCount := triggerCount;
      clickTimestamps := [];
      history := [];
    }

    /**
     * checkClick: records the click and keeps only the newest stamps; fires
     * exactly when a full window of stamps is kept and every gap in it is
     * below the threshold.
     */
    method CheckClick(now: int) returns (triggered: bool)
      requires Valid()
      modifies this
      ensures Valid()
      ensures history == old(history) + [now]
      ensures clickTimestamps == Push(old(clickTimestamps), now, triggerCount)
      ensures |clickTimestamps| == Arith.Min(|old(clickTimestamps)| + 1, Capacity(triggerCount))
      ensures triggered <==> |clickTimestamps| >= triggerCount && AllGapsBelow(clickTimestamps, rapidClickThresholdMs)
      ensures |clickTimestamps| < triggerCount ==> !triggered
    {
      var pushed := Push(clickTimestamps, now, triggerCount);
      assert |clickTimestamps| <= Capacity(triggerCount);
      PushKeepsLastClicks(history, now, triggerCount);
      history := history + [now];
      clickTimestamps := clickTimestamps + [now];
      if |clickTimestamps| > triggerCount {
        clickTimestamps := clickTimestamps[1..];
      }
      assert clickTimestamps == pushed;
      if |clickTimestamps| < triggerCount {
        return false;
      }
      triggered := IsRapidClickSequence();
    }

    /** isRapidClickSequence: walks the neighbouring pairs and stops at the first slow gap. */
    method IsRapidClickSequence() returns (rapid: bool)
      ensures rapid <==> |clickTimestamps| >= triggerCount && AllGapsBelow(clickTimestamps, rapidClickThresholdMs)
    {
      if |clickTimestamps| < triggerCount {
        return false;
      }
      var i := 0;
      while i < |clickTimestamps| - 1
        invariant 0 <= i <= Arith.Max(|clickTimestamps| - 1, 0)
        invariant forall j :: 0 <= j < i ==> clickTimestamps[j + 1] - clickTimestamps[j] < rapidClickThresholdMs
      {
        var interval := clickTimestamps[i + 1] - clickTimestamps[i];
        if interval >= rapidClickThresholdMs {
          return false;
        }
        i := i + 1;
      }
      rapid := true;
    }

    /** reset: forgets every click. */
    method Reset()
      modifies this
      ensures Valid()
      ensures clickTimestamps == [] && history == []
    {
      clickTimestamps := [];
      history := [];
    }

    /** getClickCount: the number of stamps kept, at most the trigger count. */
    function ClickCount(): (n: nat)
      reads this
      requires Valid()
      ensures n == |clickTimestamps| <= Capacity(triggerCount)
      ensures n == Arith.Min(|history|, Capacity(triggerCount))
    {
      |clickTimestamps|
    }

    /** getTimeSinceLastClick: Long.MAX_VALUE before any click, else the time since the newest one. */
    function TimeSinceLastClick(now: int): (ms: int)
      reads this
      requires Valid()
      ensures history == [] || triggerCount <= 0 ==> ms == Arith.LongMax
      ensures history != [] && triggerCount > 0 ==> ms == now - history[|history| - 1]
    {
      if clickTimestamps == [] then Arith.LongMax
      else now - clickTimestamps[|clickTimestamps| - 1]
    }
  }
}

=== FILE: record_usage.dfy ===
// Recording play time and the usage statistics derived from the per-day
// usage map (domain/usecase/RecordUsageUseCase.kt).
module UsageStats {
  import opened Wrappers
  import opened Lex
  import opened Settings
  import opened Progress
  import opened Store
  import Arith
  import Text

  // ---------------------------------------------------------------------
  // Sums and maxima over the usage map.

  /** The greatest date of a non-empty usage map. */
  function GreatestDate(m: map<string, int>): (g: string)
    requires m != map[]
    ensures IsGreatest(g, m.Keys) && g in m
  {
    assert m.Keys != {} by { var k :| k in m; assert k in m.Keys; }
    GreatestExists(m.Keys);
    GreatestIsUnique(m.Keys);
    var g :| IsGreatest(g, m.Keys);
    g
  }

  /** stats.values.sum(): every date's total added up. */
  function Total(m: map<string, int>): (t: int)
    ensures (forall d :: d in m ==> m[d] >= 0) ==> t >= 0
    decreases |m|
  {
    if m == map[] then 0
    else
      var g := GreatestDate(m);
      m[g] + Total(m - {g})
  }

  /** The sum does not depend on the order: any one date's value can be taken out first. */
  lemma {:induction false} TotalRemove(m: map<string, int>, k: string)
    requires k in m
    ensures Total(m) == m[k] + Total(m - {k})
    decreases |m|
  {
    var g := GreatestDate(m);
    if g != k {
      var rest := m - {g};
      TotalRemove(rest, k);
      assert rest - {k} == (m - {k}) - {g};
      var mk := m - {k};
      assert IsGreatest(g, mk.Keys);
      GreatestIsUnique(mk.Keys);
      assert GreatestDate(mk) == g;
    }
  }

  /** Recording ms for a date raises the sum of all dates by exactly ms. */
  lemma TotalAfterRecord(s: ParentSettings, date: string, ms: int)
    ensures Total(Settings.RecordUsage(s, date, ms).dailyUsageStats) == Total(s.dailyUsageStats) + ms
  {
    var m := s.dailyUsageStats;
    var m' := Settings.RecordUsage(s, date, ms).dailyUsageStats;
    TotalRemove(m', date);
    assert m' - {date} == m - {date};
    if date in m {
      TotalRemove(m, date);
    } else {
      assert m - {date} == m;
    }
  }

  /** stats.values.maxOrNull() ?: 0: the largest stored value, 0 for an empty map. */
  function MaxValue(m: map<string, int>): (v: int)
    ensures m == map[] ==> v == 0
    ensures m != map[] ==> (exists d :: d in m && m[d] == v) && forall d :: d in m ==> m[d] <= v
    decreases |m|
  {
    if m == map[] then 0
    else
      var g := GreatestDate(m);
      var rest := m - {g};
      assert forall d :: d in m ==> d == g || d in rest;
      if rest == map[] then
        m[g]
      else
        var v := MaxValue(rest);
        assert exists d :: d in m && m[d] == v by {
          var d :| d in rest && rest[d] == v;
          assert d in m;
        }
        Arith.Max(m[g], v)
  }

  /** With no negative durations, the longest day never exceeds the total. */
  lemma MaxAtMostTotal(m: map<string, int>)
    requires forall d :: d in m ==> m[d] >= 0
    ensures 0 <= MaxValue(m) <= Total(m)
  {
    if m != map[] {
      var d :| d in m && m[d] == MaxValue(m);
      TotalRemove(m, d);
    }
  }

  // ---------------------------------------------------------------------
  // Daily usage entries.

  /** One day's usage: its date, the ms and the whole minutes. */
  datatype DailyUsage = DailyUsage(date: string, durationMillis: int, durationMinutes: int)

  /** The entry built for a date and its stored duration: minutes = ms / 1000 / 60. */
  function DailyUsageOf(date: string, duration: int): (u: DailyUsage)
    ensures u.date == date && u.durationMillis == duration
    ensures duration >= 0 ==> 0 <= u.durationMinutes && u.durationMinutes * 60000 <= duration < u.durationMinutes * 60000 + 60000
  {
    DailyUsage(date, duration, Arith.WholeMinutes(duration))
  }

  /**
   * getLast7DaysStats as written: getDateDaysAgo ignores its argument and
   * returns today, so the seven entries are all today's.
   */
  function Last7DaysStats(m: map<string, int>, today: string): (days: seq<DailyUsage>)
    ensures |days| == 7
    ensures forall i :: 0 <= i < 7 ==> days[i] == DailyUsageOf(today, UsageForDate(ParentSettings(0, 0, m), today))
  {
    var duration := if today in m then m[today] else 0;
    seq(7, i => DailyUsageOf(today, duration))
  }

  /** Reversing a list. */
  function Reverse<T>(s: seq<T>): (r: seq<T>)
    ensures |r| == |s| && forall i :: 0 <= i < |s| ==> r[i] == s[|s| - 1 - i]
  {
    seq(|s|, i requires 0 <= i < |s| => s[|s| - 1 - i])
  }

  /** The n largest of strictly descending dates, reversed: ascending, and above every date left out. */
  lemma TopOfSorted(keys: set<string>, sorted: seq<string>, n: nat, top: seq<string>)
    requires forall k :: k in sorted <==> k in keys
    requires forall i, j :: 0 <= i < j < |sorted| ==> LexLess(sorted[j], sorted[i])
    requires n <= |sorted| && top == Reverse(sorted[..n])
    ensures |top| == n
    ensures forall i :: 0 <= i < n ==> top[i] in keys
    ensures forall i, j :: 0 <= i < j < n ==> LexLess(top[i], top[j])
    ensures forall d, i :: d in keys && 0 <= i < n && (forall j :: 0 <= j < n ==> top[j] != d) ==> LexLess(d, top[i])
  {
    assert forall i :: 0 <= i < n ==> top[i] == sorted[n - 1 - i];
    forall d, i | d in keys && 0 <= i < n && (forall j :: 0 <= j < n ==> top[j] != d)
      ensures LexLess(d, top[i])
    {
      forall j | 0 <= j < n ensures sorted[j] != d {
        assert sorted[j] == top[n - 1 - j];
      }
      var k :| 0 <= k < |sorted| && sorted[k] == d;
      assert n <= k;
    }
  }

  /**
   * getDailyUsageList(days): the entries of the `days` largest dates, in
   * ascending date order; a negative count is refused (List.take throws).
   */
  function DailyUsageList(m: map<string, int>, days: int): (r: Option<seq<DailyUsage>>)
    ensures r.None? <==> days < 0
    ensures r.Some? ==> |r.value| == Arith.Min(days, |m|)
    ensures r.Some? ==> forall i :: 0 <= i < |r.value| ==>
      r.value[i].date in m && r.value[i] == DailyUsageOf(r.value[i].date, m[r.value[i].date])
    ensures r.Some? ==> forall i, j :: 0 <= i < j < |r.value| ==> LexLess(r.value[i].date, r.value[j].date)
    ensures r.Some? ==> forall d, i :: d in m && 0 <= i < |r.value| && (forall j :: 0 <= j < |r.value| ==> r.value[j].date != d) ==>
      LexLess(d, r.value[i].date)
  {
    if days < 0 then None
    else
      var sorted := SortedDescending(m.Keys);
      var n := Arith.Min(days, |sorted|);
      var top := Reverse(sorted[..n]);
      TopOfSorted(m.Keys, sorted, n, top);
      var entries := seq(n, i requires 0 <= i < n => DailyUsageOf(top[i], m[top[i]]));
      assert forall i :: 0 <= i < n ==> entries[i].date == top[i];
      Some(entries)
  }

  // ---------------------------------------------------------------------
  // Weekly statistics and the usage report.

  /** Total, average per recorded day, the last seven days and the number of recorded days. */
  datatype WeeklyStats = WeeklyStats(
    totalMillis: int,
    dailyAverageMillis: int,
    last7Days: seq<DailyUsage>,
    activeDays: int)

  /** getWeeklyStats over the stored map (every recorded date, not only this week's). */
  function WeeklyStatsOf(m: map<string, int>, today: string): (w: WeeklyStats)
    ensures w.totalMillis == Total(m) && w.activeDays == |m|
    ensures m == map[] ==> w.dailyAverageMillis == 0
    ensures m != map[] && Total(m) >= 0 ==>
      w.dailyAverageMillis * |m| <= Total(m) < w.dailyAverageMillis * |m| + |m|
    ensures w.last7Days == Last7DaysStats(m, today)
  {
    var total := Total(m);
    var average := if m != map[] then Arith.Quot(total, |m|) else 0;
    WeeklyStats(total, average, Last7DaysStats(m, today), |m|)
  }

  /** totalMinutes: whole minutes of the total, narrowed to Int. */
  function TotalMinutes(w: WeeklyStats): (minutes: int)
    ensures 0 <= w.totalMillis <= Arith.IntMax * 60000 ==>
      0 <= minutes && minutes * 60000 <= w.totalMillis < minutes * 60000 + 60000
  {
    Arith.ToInt(Arith.WholeMinutes(w.totalMillis))
  }

  /** dailyAverageMinutes: whole minutes of the average, narrowed to Int. */
  function DailyAverageMinutes(w: WeeklyStats): (minutes: int)
    ensures 0 <= w.dailyAverageMillis <= Arith.IntMax * 60000 ==>
      0 <= minutes && minutes * 60000 <= w.dailyAverageMillis < minutes * 60000 + 60000
  {
    Arith.ToInt(Arith.WholeMinutes(w.dailyAverageMillis))
  }

  /** Total play time in ms, whole minutes and whole hours. */
  datatype UsageReport = UsageReport(totalPlayTimeMillis: int, totalPlayTimeMinutes: int, totalPlayTimeHours: int)

  /** getUsageReport: minutes = ms / 1000 / 60 and hours = minutes / 60, truncating. */
  function UsageReportOf(p: GameProgress): (r: UsageReport)
    ensures r.totalPlayTimeMillis == p.totalPlayTime
    ensures r.totalPlayTimeMinutes == Arith.Quot(p.totalPlayTime, 60000)
    ensures r.totalPlayTimeMinutes == r.totalPlayTimeHours * 60 + Arith.Rem(r.totalPlayTimeMinutes, 60)
    ensures p.totalPlayTime >= 0 ==>
      0 <= r.totalPlayTimeHours && r.totalPlayTimeHours * 3600000 <= p.totalPlayTime < r.totalPlayTimeHours * 3600000 + 3600000
  {
    var ms := p.totalPlayTime;
    var minutes := Arith.WholeMinutes(ms);
    Arith.QuotQuot(ms, 60000, 60);
    var hours := Arith.Quot(Arith.Quot(Arith.Quot(ms, 1000), 60), 60);
    UsageReport(ms, minutes, hours)
  }

  /**
   * getFormattedTotalTime: "<h>小时<m>分钟" with the minutes past the hour
   * when there is a whole hour, else "<m>分钟" when there is a whole
   * minute, else "0分钟".
   */
  function FormattedTotalTime(r: UsageReport): (text: string)
    ensures r.totalPlayTimeHours > 0 ==>
      text == Text.IntToString(r.totalPlayTimeHours) + "小时" + Text.IntToString(Arith.Rem(r.totalPlayTimeMinutes, 60)) + "分钟"
    ensures r.totalPlayTimeHours <= 0 && r.totalPlayTimeMinutes > 0 ==> text == Text.IntToString(r.totalPlayTimeMinutes) + "分钟"
    ensures r.totalPlayTimeHours <= 0 && r.totalPlayTimeMinutes <= 0 ==> text == "0分钟"
  {
    if r.totalPlayTimeHours > 0 then
      Text.IntToString(r.totalPlayTimeHours) + "小时" + Text.IntToString(Arith.Rem(r.totalPlayTimeMinutes, 60)) + "分钟"
    else if r.totalPlayTimeMinutes > 0 then
      Text.IntToString(r.totalPlayTimeMinutes) + "分钟"
    else
      "0分钟"
  }

  /** The two shapes of the text of a non-negative play time: "<h>小时<m>分钟" or "<m>分钟". */
  lemma FormattedShape(p: GameProgress)
    requires p.totalPlayTime >= 0
    ensures var r := UsageReportOf(p);
      r.totalPlayTimeHours > 0 ==> (FormattedTotalTime(r) ==
        Text.IntToString(r.totalPlayTimeHours) + ['小'] + ("时" + Text.IntToString(Arith.Rem(r.totalPlayTimeMinutes, 60)) + "分钟"))
    ensures var r := UsageReportOf(p);
      r.totalPlayTimeHours <= 0 ==> FormattedTotalTime(r) == Text.IntToString(r.totalPlayTimeMinutes) + ['分'] + "钟"
  {
    var r := UsageReportOf(p);
    if r.totalPlayTimeHours <= 0 && r.totalPlayTimeMinutes <= 0 {
      assert r.totalPlayTimeMinutes == 0;
      assert Text.IntToString(0) == "0";
    }
  }

  /** Two texts with an hours part are equal only for equal hour and minute numbers. */
  lemma HourTextsInjective(h1: int, h2: int, s1: int, s2: int)
    requires Text.IntToString(h1) + ['小'] + ("时" + Text.IntToString(s1) + "分钟")
          == Text.IntToString(h2) + ['小'] + ("时" + Text.IntToString(s2) + "分钟")
    ensures h1 == h2 && s1 == s2
  {
    var t1 := Text.IntToString(s1);
    var t2 := Text.IntToString(s2);
    Text.SplitAtMarker(Text.IntToString(h1), Text.IntToString(h2), "时" + t1 + "分钟", "时" + t2 + "分钟", '小');
    Text.IntToStringInjective(h1, h2);
    assert t1 == ("时" + t1 + "分钟")[1..|t1| + 1];
    assert t2 == ("时" + t2 + "分钟")[1..|t2| + 1];
    Text.IntToStringInjective(s1, s2);
  }

  /** Two minutes-only texts are equal only for equal minute numbers. */
  lemma MinuteTextsInjective(m1: int, m2: int)
    requires Text.IntToString(m1) + ['分'] + "钟" == Text.IntToString(m2) + ['分'] + "钟"
    ensures m1 == m2
  {
    Text.SplitAtMarker(Text.IntToString(m1), Text.IntToString(m2), "钟", "钟", '分');
    Text.IntToStringInjective(m1, m2);
  }

  /** The formatted text of a non-negative play time determines its whole minutes. */
  lemma FormattedTotalTimeInjective(p1: GameProgress, p2: GameProgress)
    requires p1.totalPlayTime >= 0 && p2.totalPlayTime >= 0
    requires FormattedTotalTime(UsageReportOf(p1)) == FormattedTotalTime(UsageReportOf(p2))
    ensures UsageReportOf(p1).totalPlayTimeMinutes == UsageReportOf(p2).totalPlayTimeMinutes
  {
    var r1 := UsageReportOf(p1);
    var r2 := UsageReportOf(p2);
    FormattedShape(p1);
    FormattedShape(p2);
    var rem1 := Arith.Rem(r1.totalPlayTimeMinutes, 60);
    var rem2 := Arith.Rem(r2.totalPlayTimeMinutes, 60);
    if r1.totalPlayTimeHours > 0 && r2.totalPlayTimeHours > 0 {
      HourTextsInjective(r1.totalPlayTimeHours, r2.totalPlayTimeHours, rem1, rem2);
    } else if r1.totalPlayTimeHours <= 0 && r2.totalPlayTimeHours <= 0 {
      MinuteTextsInjective(r1.totalPlayTimeMinutes, r2.totalPlayTimeMinutes);
    } else if r1.totalPlayTimeHours > 0 {
      HourTextHasNoMinuteOnlyForm(Text.IntToString(r1.totalPlayTimeHours), Text.IntToString(rem1), Text.IntToString(r2.totalPlayTimeMinutes));
      assert false;
    } else {
      HourTextHasNoMinuteOnlyForm(Text.IntToString(r2.totalPlayTimeHours), Text.IntToString(rem2), Text.IntToString(r1.totalPlayTimeMinutes));
      assert false;
    }
  }

  /** A text with an hours part never equals a minutes-only text of digits. */
  lemma HourTextHasNoMinuteOnlyForm(h: string, s: string, m: string)
    requires forall k :: 0 <= k < |m| ==> m[k] == '-' || '0' <= m[k] <= '9'
    ensures h + ['小'] + ("时" + s + "分钟") != m + ['分'] + "钟"
  {
    var a := h + ['小'] + ("时" + s + "分钟");
    var b := m + ['分'] + "钟";
    if |a| == |b| {
      assert a[|h|] == '小';
      assert b[|h|] == m[|h|];
    }
  }

  class RecordUsageUseCase {
    const repository: ProgressStore

    constructor (repository: ProgressStore)
      ensures this.repository == repository
    {
      this.repository := repository;
    }

    /**
     * invoke: first today's usage grows by the duration, then the total
     * play time grows by the same amount; two writes, in that order.
     */
    method Invoke(today: string, durationMillis: int)
      modifies repository
      ensures repository.settings == Settings.RecordUsage(old(repository.settings), today, durationMillis)
      ensures repository.progress == AddPlayTime(old(repository.progress), durationMillis)
      ensures repository.badgeTable == old(repository.badgeTable)
      ensures repository.writes == old(repository.writes) + [UsageRecorded(today, durationMillis), PlayTimeAdded(durationMillis)]
    {
      repository.RecordUsage(today, durationMillis);
      repository.AddTotalPlayTime(durationMillis);
    }

    /** hasUsedToday: something positive was recorded for today. */
    function HasUsedToday(today: string): (r: bool)
      reads repository
      ensures r <==> UsageForDate(repository.settings, today) > 0
    {
      var stats := repository.settings.dailyUsageStats;
      (if today in stats then stats[today] else 0) > 0
    }
  }
}

=== FILE: scenes.dfy ===
// The three scenes of the game and the status each can have
// (SceneType.kt and SceneStatus.kt in domain/model).
module Scenes {

  datatype SceneType = FireStation | School | Forest

  datatype SceneStatus = Locked | Unlocked | Completed

  /** SceneType.entries, in declaration order. */
  const AllScenes: seq<SceneType> := [FireStation, School, Forest]

  /** The position of a scene in SceneType.entries. */
  function SceneIndex(s: SceneType): (i: nat)
    ensures i < |AllScenes| && AllScenes[i] == s
  {
    match s
    case FireStation => 0
    case School => 1
    case Forest => 2
  }

  /** The enum constant's name, as string templates print it. */
  function SceneName(s: SceneType): (name: string)
    ensures name != []
  {
    match s
    case FireStation => "FIRE_STATION"
    case School => "SCHOOL"
    case Forest => "FOREST"
  }

  /** There are exactly three scenes. */
  lemma EveryScene(s: SceneType)
    ensures s == FireStation || s == School || s == Forest
  {
  }
}

=== FILE: school_vm.dfy ===
// The school scene (presentation/school/SchoolViewModel.kt): the alarm
// starts on entry, the play button starts the safety video, the video can
// be paused, resumed and left, and the badge animation closes back to the
// play button. Entry and the play button sit behind a rapid-click guard
// (three clicks with gaps under 500 ms); every handler that acts reports
// activity to a 30-second idle timer. The clock is the `now` parameter and
// the video's path, which a platform resource provider gives, is fixed at
// construction.
module SchoolVM {
  import opened Scenes
  import opened Progress
  import ClickGuard
  import Idle

  const VoiceFireAlert: string := "audio/voices/school_fire.mp3"

  datatype SchoolState = SchoolState(
    showAlarmEffect: bool,
    showPlayButton: bool,
    isVideoPlaying: bool,
    isVideoPaused: bool,
    showVideoControls: bool,
    showBadgeAnimation: bool,
    isCompleted: bool,
    isAlarmPlaying: bool,
    currentVideoPath: string,
    showIdleHint: bool)

  /** SchoolState(): the alarm effect, the play button and the video controls on; everything else off or empty. */
  function InitialState(): (s: SchoolState)
    ensures s.showAlarmEffect && s.showPlayButton && s.showVideoControls
    ensures !s.isVideoPlaying && !s.isVideoPaused && !s.showBadgeAnimation
    ensures !s.isCompleted && !s.isAlarmPlaying && !s.showIdleHint && s.currentVideoPath == ""
  {
    SchoolState(true, true, false, false, true, false, false, false, "", false)
  }

  datatype SchoolEffect =
    | StartAlarmEffects
    | StopAlarmEffects
    | PlayVoice(voicePath: string)
    | PlayVideo(videoPath: string)
    | ShowBadgeAnimation
    | PlayBadgeSound
    | PlayCompletedSound
    | UnlockForestScene
    | NavigateToMap
    | PlaySlowDownVoice
    | ShowIdleHint

  /** The play button accepts a click: it is on show and no video plays. */
  predicate CanPlay(s: SchoolState)
  {
    s.showPlayButton && !s.isVideoPlaying
  }

  /** The state after entry: the alarm shows and sounds and the play button shows. */
  function Entered(s: SchoolState): (r: SchoolState)
    ensures r.showAlarmEffect && r.showPlayButton && r.isAlarmPlaying
    ensures r.(showAlarmEffect := s.showAlarmEffect, showPlayButton := s.showPlayButton, isAlarmPlaying := s.isAlarmPlaying) == s
  {
    s.(showAlarmEffect := true, showPlayButton := true, isAlarmPlaying := true)
  }

  /** The state once the video starts: button and alarm off, the video playing from path. */
  function StartedVideo(s: SchoolState, path: string): (r: SchoolState)
    ensures r.isVideoPlaying && !r.showPlayButton && !r.showAlarmEffect && !r.isAlarmPlaying
    ensures r.currentVideoPath == path && !CanPlay(r)
    ensures r.isVideoPaused == s.isVideoPaused && r.showBadgeAnimation == s.showBadgeAnimation
    ensures r.isCompleted == s.isCompleted && r.showVideoControls == s.showVideoControls && r.showIdleHint == s.showIdleHint
  {
    s.(showPlayButton := false, showAlarmEffect := false, isVideoPlaying := true,
       isAlarmPlaying := false, currentVideoPath := path)
  }

  /** Pause: a playing, running video becomes paused; any other state is kept. */
  function Paused(s: SchoolState): (r: SchoolState)
    ensures r.isVideoPaused <==> s.isVideoPaused || s.isVideoPlaying
    ensures r.(isVideoPaused := s.isVideoPaused) == s
  {
    if !s.isVideoPlaying || s.isVideoPaused then s else s.(isVideoPaused := true)
  }

  /** Resume: a playing, paused video runs again; any other state is kept. */
  function Resumed(s: SchoolState): (r: SchoolState)
    ensures r.isVideoPaused <==> s.isVideoPaused && !s.isVideoPlaying
    ensures r.(isVideoPaused := s.isVideoPaused) == s
  {
    if !s.isVideoPlaying || !s.isVideoPaused then s else s.(isVideoPaused := false)
  }

  /** Exit: a playing video stops and the play button returns with the alarm off; otherwise nothing changes. */
  function Exited(s: SchoolState): (r: SchoolState)
    ensures s.isVideoPlaying ==> !r.isVideoPlaying && !r.isVideoPaused && r.showPlayButton && !r.showAlarmEffect && !r.isAlarmPlaying
    ensures s.isVideoPlaying ==> r.(isVideoPlaying := true, isVideoPaused := s.isVideoPaused, showPlayButton := s.showPlayButton,
                                    showAlarmEffect := s.showAlarmEffect, isAlarmPlaying := s.isAlarmPlaying) == s
    ensures !s.isVideoPlaying ==> r == s
  {
    if !s.isVideoPlaying then s
    else s.(isVideoPlaying := false, isVideoPaused := false, showPlayButton := true,
            showAlarmEffect := false, isAlarmPlaying := false)
  }

  /** Closing the badge animation: back to the play button with video and alarm off; otherwise nothing changes. */
  function BadgeClosed(s: SchoolState): (r: SchoolState)
    ensures s.showBadgeAnimation ==> (!r.showBadgeAnimation && r.showPlayButton && !r.isVideoPlaying && !r.isVideoPaused &&
                                      !r.showAlarmEffect && !r.isAlarmPlaying)
    ensures s.showBadgeAnimation ==> r.(showBadgeAnimation := true, showPlayButton := s.showPlayButton, isVideoPlaying := s.isVideoPlaying,
                                        isVideoPaused := s.isVideoPaused, showAlarmEffect := s.showAlarmEffect,
                                        isAlarmPlaying := s.isAlarmPlaying) == s
    ensures !s.showBadgeAnimation ==> r == s
  {
    if !s.showBadgeAnimation then s
    else s.(showBadgeAnimation := false, showPlayButton := true, isVideoPlaying := false,
            isVideoPaused := false, showAlarmEffect := false, isAlarmPlaying := false)
  }

  /** The effects of BackToMap: none while the video plays, else the alarm stopped if it sounds, then navigation. */
  function BackToMapEffects(s: SchoolState): (e: seq<SchoolEffect>)
    ensures s.isVideoPlaying ==> e == []
    ensures !s.isVideoPlaying ==> |e| >= 1 && e[|e| - 1] == NavigateToMap
    ensures StopAlarmEffects in e <==> !s.isVideoPlaying && s.isAlarmPlaying
  {
    if s.isVideoPlaying then []
    else (if s.isAlarmPlaying then [StopAlarmEffects] else []) + [NavigateToMap]
  }

  /** Resuming right after a pause gives back the playing state. */
  lemma ResumeUndoesPause(s: SchoolState)
    requires s.isVideoPlaying && !s.isVideoPaused
    ensures Paused(s).isVideoPaused
    ensures Resumed(Paused(s)) == s
  {
  }

  /** Pausing right after a resume gives back the paused state. */
  lemma PauseUndoesResume(s: SchoolState)
    requires s.isVideoPlaying && s.isVideoPaused
    ensures !Resumed(s).isVideoPaused
    ensures Paused(Resumed(s)) == s
  {
  }

  /** Leaving a playing video or closing the badge animation always lets the video be started again. */
  lemma ExitAndCloseAllowReplay(s: SchoolState)
    ensures s.isVideoPlaying ==> CanPlay(Exited(s))
    ensures s.showBadgeAnimation ==> CanPlay(BadgeClosed(s))
  {
  }

  /** The rapid-click guard, at its school settings, fires on this click. */
  predicate GuardFires(stamps: seq<int>, now: int)
  {
    var w := ClickGuard.Push(stamps, now, ClickGuard.DefaultTriggerCount);
    |w| >= ClickGuard.DefaultTriggerCount && ClickGuard.AllGapsBelow(w, ClickGuard.DefaultRapidClickThresholdMs)
  }

  class SchoolViewModel {
    const videoPath: string
    const rapidClickGuard: ClickGuard.RapidClickGuard
    const idleTimer: Idle.IdleTimer
    var state: SchoolState
    /** The effects sent so far, in order. */
    var effects: seq<SchoolEffect>

    /** The guard keeps its default settings and both helpers are consistent. */
    ghost predicate Valid()
      reads this, rapidClickGuard, idleTimer
    {
      rapidClickGuard.Valid() && idleTimer.Valid() &&
      rapidClickGuard.triggerCount == ClickGuard.DefaultTriggerCount &&
      rapidClickGuard.rapidClickThresholdMs == ClickGuard.DefaultRapidClickThresholdMs
    }

    /** Creation starts idle detection with the 30-second default at time now. */
    constructor (videoPath: string, now: int)
      ensures Valid()
      ensures this.videoPath == videoPath && state == InitialState() && effects == []
      ensures rapidClickGuard.clickTimestamps == []
      ensures idleTimer.state == Idle.Running && idleTimer.timeoutMillis == Idle.DefaultIdleTimeoutMs
      ensures idleTimer.lastActivityTime == now
    {
      this.videoPath := videoPath;
      var timer := new Idle.IdleTimer();
      timer.StartIdleDetection(Idle.DefaultIdleTimeoutMs, now);
      idleTimer := timer;
      rapidClickGuard := new ClickGuard.RapidClickGuard(ClickGuard.DefaultRapidClickThresholdMs, ClickGuard.DefaultTriggerCount);
      state := InitialState();
      effects := [];
    }

    /** The progress collector: isCompleted follows whether the school scene is COMPLETED. */
    method OnProgress(progress: GameProgress)
      modifies this
      ensures state == old(state).(isCompleted := GetSceneStatus(progress, School) == Completed)
      ensures effects == old(effects)
    {
      state := state.(isCompleted := GetSceneStatus(progress, School) == Completed);
    }

    /**
     * ScreenEntered: activity is reported and the click checked; a rapid
     * click only asks the child to slow down and clears the guard, any
     * other starts the alarm with its voice line.
     */
    method ScreenEntered(now: int) returns (slowedDown: bool)
      requires Valid()
      modifies this, rapidClickGuard, idleTimer
      ensures Valid()
      ensures slowedDown <==> GuardFires(old(rapidClickGuard.clickTimestamps), now)
      ensures slowedDown ==> (state == old(state) && effects == old(effects) + [PlaySlowDownVoice] &&
                              rapidClickGuard.clickTimestamps == [])
      ensures !slowedDown ==> (state == Entered(old(state)) &&
                               effects == old(effects) + [StartAlarmEffects, PlayVoice(VoiceFireAlert)] &&
                               rapidClickGuard.clickTimestamps == ClickGuard.Push(old(rapidClickGuard.clickTimestamps), now, ClickGuard.DefaultTriggerCount))
      ensures old(idleTimer.isDetectionRunning) ==> idleTimer.lastActivityTime == now
      ensures idleTimer.state == old(idleTimer.state)
    {
      idleTimer.ReportActivity(now);
      slowedDown := rapidClickGuard.CheckClick(now);
      if slowedDown {
        effects := effects + [PlaySlowDownVoice];
        rapidClickGuard.Reset();
        return;
      }
      state := state.(showAlarmEffect := true, showPlayButton := true, isAlarmPlaying := true);
      effects := effects + [StartAlarmEffects, PlayVoice(VoiceFireAlert)];
    }

    /**
     * PlayButtonClicked: ignored unless the button accepts a click; then as
     * ScreenEntered, a rapid click only asks the child to slow down, and any
     * other stops the alarm and starts the video.
     */
    method PlayButtonClicked(now: int) returns (slowedDown: bool)
      requires Valid()
      modifies this, rapidClickGuard, idleTimer
      ensures Valid()
      ensures !CanPlay(old(state)) ==> (!slowedDown && state == old(state) && effects == old(effects) &&
                                       unchanged(rapidClickGuard) && unchanged(idleTimer))
      ensures slowedDown <==> CanPlay(old(state)) && GuardFires(old(rapidClickGuard.clickTimestamps), now)
      ensures slowedDown ==> (state == old(state) && effects == old(effects) + [PlaySlowDownVoice] &&
                              rapidClickGuard.clickTimestamps == [])
      ensures CanPlay(old(state)) && !slowedDown ==>
                (state == StartedVideo(old(state), videoPath) &&
                 effects == old(effects) + [StopAlarmEffects, PlayVideo(videoPath)])
      ensures CanPlay(old(state)) && old(idleTimer.isDetectionRunning) ==> idleTimer.lastActivityTime == now
      ensures CanPlay(old(state)) && !old(idleTimer.isDetectionRunning) ==> idleTimer.lastActivityTime == old(idleTimer.lastActivityTime)
      ensures idleTimer.isDetectionRunning == old(idleTimer.isDetectionRunning) && idleTimer.timeoutMillis == old(idleTimer.timeoutMillis)
      ensures idleTimer.hasCallback == old(idleTimer.hasCallback) && idleTimer.idleCallbacks == old(idleTimer.idleCallbacks)
      ensures idleTimer.state == old(idleTimer.state)
    {
      var currentState := state;
      if !currentState.showPlayButton || currentState.isVideoPlaying {
        return false;
      }
      idleTimer.ReportActivity(now);
      slowedDown := rapidClickGuard.CheckClick(now);
      if slowedDown {
        effects := effects + [PlaySlowDownVoice];
        rapidClickGuard.Reset();
        return;
      }
      state := currentState.(showPlayButton := false, showAlarmEffect := false, isVideoPlaying := true,
                             isAlarmPlaying := false, currentVideoPath := videoPath);
      effects := effects + [StopAlarmEffects, PlayVideo(videoPath)];
    }

    /** BadgeAnimationCompleted: the animation hides, and after a short delay navigation to the map follows. */
    method BadgeAnimationCompleted()
      modifies this
      ensures state == old(state).(showBadgeAnimation := false)
      ensures effects == old(effects) + [NavigateToMap]
    {
      state := state.(showBadgeAnimation := false);
      effects := effects + [NavigateToMap];
    }

    /** BackToMapClicked: refused while the video plays; otherwise idle detection stops, the alarm stops if it sounds, and the map follows. */
    method BackToMapClicked(now: int)
      requires Valid()
      modifies this, idleTimer
      ensures Valid()
      ensures state == old(state)
      ensures effects == old(effects) + BackToMapEffects(old(state))
      ensures old(state).isVideoPlaying ==> unchanged(idleTimer)
      ensures !old(state).isVideoPlaying ==> idleTimer.state == Idle.Idle && !idleTimer.hasCallback
    {
      var currentState := state;
      if currentState.isVideoPlaying {
        return;
      }
      idleTimer.ReportActivity(now);
      idleTimer.StopIdleDetection();
      if currentState.isAlarmPlaying {
        effects := effects + [StopAlarmEffects];
      }
      effects := effects + [NavigateToMap];
    }

    /** The idle callback: the idle hint is sent. */
    method OnIdleTimeout()
      modifies this
      ensures state == old(state) && effects == old(effects) + [ShowIdleHint]
    {
      effects := effects + [ShowIdleHint];
    }

    /** PauseVideoClicked: the video pauses if it plays and runs; activity is reported only then. */
    method PauseVideoClicked(now: int)
      requires Valid()
      modifies this, idleTimer
      ensures Valid()
      ensures state == Paused(old(state)) && effects == old(effects)
      ensures idleTimer.state == old(idleTimer.state)
      ensures !(old(state).isVideoPlaying && !old(state).isVideoPaused) ==> unchanged(idleTimer)
      ensures (old(state).isVideoPlaying && !old(state).isVideoPaused) ==>
                idleTimer.lastActivityTime == (if old(idleTimer.isDetectionRunning) then now else old(idleTimer.lastActivityTime))
      ensures idleTimer.isDetectionRunning == old(idleTimer.isDetectionRunning) && idleTimer.timeoutMillis == old(idleTimer.timeoutMillis)
      ensures idleTimer.hasCallback == old(idleTimer.hasCallback) && idleTimer.idleCallbacks == old(idleTimer.idleCallbacks)
    {
      var currentState := state;
      if !currentState.isVideoPlaying || currentState.isVideoPaused {
        return;
      }
      idleTimer.ReportActivity(now);
      state := currentState.(isVideoPaused := true);
    }

    /** ResumeVideoClicked: a paused video runs again; activity is reported only then. */
    method ResumeVideoClicked(now: int)
      requires Valid()
      modifies this, idleTimer
      ensures Valid()
      ensures state == Resumed(old(state)) && effects == old(effects)
      ensures idleTimer.state == old(idleTimer.state)
      ensures !(old(state).isVideoPlaying && old(state).isVideoPaused) ==> unchanged(idleTimer)
      ensures (old(state).isVideoPlaying && old(state).isVideoPaused) ==>
                idleTimer.lastActivityTime == (if old(idleTimer.isDetectionRunning) then now else old(idleTimer.lastActivityTime))
      ensures idleTimer.isDetectionRunning == old(idleTimer.isDetectionRunning) && idleTimer.timeoutMillis == old(idleTimer.timeoutMillis)
      ensures idleTimer.hasCallback == old(idleTimer.hasCallback) && idleTimer.idleCallbacks == old(idleTimer.idleCallbacks)
    {
      var currentState := state;
      if !currentState.isVideoPlaying || !currentState.isVideoPaused {
        return;
      }
      idleTimer.ReportActivity(now);
      state := currentState.(isVideoPaused := false);
    }

    /** ExitVideoClicked: a playing video is left for the play button. */
    method ExitVideoClicked(now: int)
      requires Valid()
      modifies this, idleTimer
      ensures Valid()
      ensures state == Exited(old(state)) && effects == old(effects)
      ensures idleTimer.state == old(idleTimer.state)
      ensures !old(state).isVideoPlaying ==> unchanged(idleTimer)
      ensures old(state).isVideoPlaying ==>
                idleTimer.lastActivityTime == (if old(idleTimer.isDetectionRunning) then now else old(idleTimer.lastActivityTime))
      ensures idleTimer.isDetectionRunning == old(idleTimer.isDetectionRunning) && idleTimer.timeoutMillis == old(idleTimer.timeoutMillis)
      ensures idleTimer.hasCallback == old(idleTimer.hasCallback) && idleTimer.idleCallbacks == old(idleTimer.idleCallbacks)
    {
      var currentState := state;
      if !currentState.isVideoPlaying {
        return;
      }
      idleTimer.ReportActivity(now);
      state := currentState.(isVideoPlaying := false, isVideoPaused := false, showPlayButton := true,
                             showAlarmEffect := false, isAlarmPlaying := false);
    }

    /** CloseBadgeAnimation: the badge animation on show gives way to the play button. */
    method CloseBadgeAnimation(now: int)
      requires Valid()
      modifies this, idleTimer
      ensures Valid()
      ensures state == BadgeClosed(old(state)) && effects == old(effects)
      ensures idleTimer.state == old(idleTimer.state)
      ensures !old(state).showBadgeAnimation ==> unchanged(idleTimer)
      ensures old(state).showBadgeAnimation ==>
                idleTimer.lastActivityTime == (if old(idleTimer.isDetectionRunning) then now else old(idleTimer.lastActivityTime))
      ensures idleTimer.isDetectionRunning == old(idleTimer.isDetectionRunning) && idleTimer.timeoutMillis == old(idleTimer.timeoutMillis)
      ensures idleTimer.hasCallback == old(idleTimer.hasCallback) && idleTimer.idleCallbacks == old(idleTimer.idleCallbacks)
    {
      var currentState := state;
      if !currentState.showBadgeAnimation {
        return;
      }
      idleTimer.ReportActivity(now);
      state := currentState.(showBadgeAnimation := false, showPlayButton := true, isVideoPlaying := false,
                             isVideoPaused := false, showAlarmEffect := false, isAlarmPlaying := false);
    }
  }
}

=== FILE: seqs.dfy ===
// Kotlin's order-preserving list operations (filter, count) on Dafny sequences.
module Seqs {

  /** a is b with some elements removed and the rest kept in their order. */
  predicate IsSubsequence<T(==)>(a: seq<T>, b: seq<T>)
    decreases |b|
  {
    if a == [] then true
    else if b == [] then false
    else if a[|a| - 1] == b[|b| - 1] then IsSubsequence(a[..|a| - 1], b[..|b| - 1])
    else IsSubsequence(a, b[..|b| - 1])
  }

  /** List.filter: the elements that satisfy p, in their order. */
  function Filter<T(==,!new)>(s: seq<T>, p: T -> bool): (r: seq<T>)
    ensures |r| <= |s|
    ensures forall x :: x in r <==> x in s && p(x)
    ensures forall i :: 0 <= i < |r| ==> p(r[i])
    ensures IsSubsequence(r, s)
    decreases |s|
  {
    if s == [] then []
    else
      var rest := Filter(s[..|s| - 1], p);
      var last := s[|s| - 1];
      assert s == s[..|s| - 1] + [last];
      SubsequenceExtend(rest, s[..|s| - 1], last);
      if p(last) then rest + [last] else rest
  }

  /** Extending the longer sequence keeps a subsequence, and so does extending both alike. */
  lemma SubsequenceExtend<T>(a: seq<T>, b: seq<T>, x: T)
    requires IsSubsequence(a, b)
    ensures IsSubsequence(a, b + [x]) && IsSubsequence(a + [x], b + [x])
    decreases |b|, 1
  {
    assert (b + [x])[..|b|] == b;
    assert (a + [x])[..|a|] == a;
    if a != [] && a[|a| - 1] == x {
      SubsequenceDropLast(a, b);
    }
  }

  /** Dropping the last element of a subsequence keeps it a subsequence. */
  lemma {:induction false} SubsequenceDropLast<T>(a: seq<T>, b: seq<T>)
    requires a != [] && IsSubsequence(a, b)
    ensures IsSubsequence(a[..|a| - 1], b)
    decreases |b|, 0
  {
    var a' := a[..|a| - 1];
    if a' != [] {
      if a[|a| - 1] == b[|b| - 1] {
        SubsequenceExtend(a', b[..|b| - 1], b[|b| - 1]);
        assert b[..|b| - 1] + [b[|b| - 1]] == b;
      } else {
        SubsequenceDropLast(a, b[..|b| - 1]);
        SubsequenceExtend(a', b[..|b| - 1], b[|b| - 1]);
        assert b[..|b| - 1] + [b[|b| - 1]] == b;
      }
    }
  }

  /** Filtering distributes over concatenation: it keeps each part's elements in place. */
  lemma {:induction false} FilterAppend<T(!new)>(a: seq<T>, b: seq<T>, p: T -> bool)
    ensures Filter(a + b, p) == Filter(a, p) + Filter(b, p)
    decreases |b|
  {
    if b == [] {
      assert a + b == a;
    } else {
      var b', last := b[..|b| - 1], b[|b| - 1];
      var tail := if p(last) then [last] else [];
      FilterAppend(a, b', p);
      assert (a + b)[..|a + b| - 1] == a + b' && (a + b)[|a + b| - 1] == last;
      assert Filter(a + b, p) == Filter(a + b', p) + tail;
      assert Filter(b, p) == Filter(b', p) + tail;
    }
  }

  /** Filtering a filtered list again changes nothing. */
  lemma {:induction false} FilterIdempotent<T(!new)>(s: seq<T>, p: T -> bool)
    ensures Filter(Filter(s, p), p) == Filter(s, p)
    decreases |s|
  {
    if s != [] {
      var s' := s[..|s| - 1];
      FilterIdempotent(s', p);
      if p(s[|s| - 1]) {
        FilterAppend(Filter(s', p), [s[|s| - 1]], p);
      }
    }
  }

  /** Filtering keeps every element exactly when every element satisfies p. */
  lemma {:induction false} FilterKeepsAll<T(!new)>(s: seq<T>, p: T -> bool)
    ensures |Filter(s, p)| == |s| <==> forall i :: 0 <= i < |s| ==> p(s[i])
    decreases |s|
  {
    if s != [] {
      var s' := s[..|s| - 1];
      var last := s[|s| - 1];
      var rest := Filter(s', p);
      assert Filter(s, p) == if p(last) then rest + [last] else rest;
      FilterKeepsAll(s', p);
      assert |rest| <= |s'|;
      if forall i :: 0 <= i < |s| ==> p(s[i]) {
        forall i | 0 <= i < |s'| ensures p(s'[i]) {
          assert s'[i] == s[i];
        }
        assert p(last);
        assert |Filter(s, p)| == |rest| + 1 == |s|;
      }
      if |Filter(s, p)| == |s| {
        assert p(last) && |rest| == |s'|;
        forall i | 0 <= i < |s| ensures p(s[i]) {
          if i < |s'| { assert s[i] == s'[i]; }
        }
      }
    }
  }

  /** When every element satisfies p, filtering returns the list itself. */
  lemma {:induction false} FilterAllKept<T(!new)>(s: seq<T>, p: T -> bool)
    requires forall i :: 0 <= i < |s| ==> p(s[i])
    ensures Filter(s, p) == s
    decreases |s|
  {
    if s != [] {
      var s' := s[..|s| - 1];
      FilterAllKept(s', p);
      assert s == s' + [s[|s| - 1]];
    }
  }

  /** No element occurs twice. */
  predicate NoDuplicates<T(==)>(s: seq<T>)
  {
    forall i, j :: 0 <= i < j < |s| ==> s[i] != s[j]
  }

  /** Filtering a list without duplicates keeps as many elements as there are distinct ones that satisfy p. */
  lemma {:induction false} FilterCountsDistinct<T(!new)>(s: seq<T>, p: T -> bool, kept: set<T>)
    requires NoDuplicates(s)
    requires forall x :: x in kept <==> x in s && p(x)
    ensures |Filter(s, p)| == |kept|
    decreases |s|
  {
    if s != [] {
      var s', last := s[..|s| - 1], s[|s| - 1];
      NoDuplicatesSnoc(s);
      assert s == s' + [last];
      if p(last) {
        FilterCountsDistinct(s', p, kept - {last});
      } else {
        FilterCountsDistinct(s', p, kept);
      }
    }
  }

  /** Without duplicates, the front of a list has none either and does not hold the last element. */
  lemma NoDuplicatesSnoc<T>(s: seq<T>)
    requires s != [] && NoDuplicates(s)
    ensures NoDuplicates(s[..|s| - 1]) && s[|s| - 1] !in s[..|s| - 1]
  {
  }
}

=== FILE: session_timer.dfy ===
// The per-session play timer (presentation/common/SessionTimer.kt): a
// state machine IDLE / RUNNING / PAUSED / TIME_LIMIT_REACHED, a polling
// loop that recomputes the elapsed and remaining time once a second, a
// one-shot reminder flag, and the usage record written when a session
// ends. The clock and today's date are parameters; one pass of the
// polling loop is `Tick`.
module Session {
  import Arith
  import Settings
  import opened Store

  datatype SessionTimerState = Idle | Running | Paused | TimeLimitReached

  /**
   * getRemainingMinutes on a remaining time: 0 when nothing is left,
   * otherwise `(remaining + 59_999) / 60_000` on a Long, narrowed to Int.
   * For every remaining time a started session can hold it is the number of
   * minutes rounded up.
   */
  function RemainingMinutesOf(remaining: int): (m: int)
    ensures Arith.IntMin <= m <= Arith.IntMax
    ensures remaining <= 0 ==> m == 0
    ensures 0 < remaining <= Arith.IntMax * 60000 ==> 1 <= m && (m - 1) * 60000 < remaining <= m * 60000
  {
    if remaining <= 0 then 0
    else
      var q := Arith.Quot(Arith.WrapLong(remaining + 60000 - 1), 60000);
      CeilingFits(remaining, q);
      Arith.ToInt(q)
  }

  /** Below the Int bound the Long sum does not wrap and the rounded-up quotient fits an Int. */
  lemma CeilingFits(remaining: int, q: int)
    requires 0 < remaining
    requires q == Arith.Quot(Arith.WrapLong(remaining + 60000 - 1), 60000)
    ensures remaining <= Arith.IntMax * 60000 ==> 1 <= q <= Arith.IntMax && (q - 1) * 60000 < remaining <= q * 60000
  {
    if remaining <= Arith.IntMax * 60000 {
      assert Arith.WrapLong(remaining + 60000 - 1) == remaining + 59999;
      assert q * 60000 <= remaining + 59999 < q * 60000 + 60000;
    }
  }

  /**
   * Before any session the remaining-time value is Long.MAX_VALUE, and the
   * Long sum wraps: the minutes come out negative.
   */
  lemma NeverStartedMinutes()
    ensures RemainingMinutesOf(Arith.LongMax) == -1692789775
  {
    assert Arith.WrapLong(Arith.LongMax + 59999) == -9223372036854715810;
    assert Arith.Quot(-9223372036854715810, 60000) == -153722867280911;
  }

  class SessionTimer {
    /** The repository recordUsage is sent to. */
    const repository: ProgressStore

    var isTimerRunning: bool
    var sessionDurationMillis: int
    var elapsedTimeMillis: int
    var reminderMillis: int
    var reminderSent: bool
    var sessionStartTime: int
    var pauseStartTime: int
    var totalPausedMillis: int
    /** The published state. */
    var state: SessionTimerState
    /** The published elapsed time (ms). */
    var elapsedTime: int
    /** The published remaining time (ms); Long.MAX_VALUE until the first session starts. */
    var timeRemaining: int
    /** Whether a session has ever been started. */
    ghost var started: bool

    /**
     * The loop runs exactly in state RUNNING; until a session starts nothing
     * is published, and afterwards the remaining time never exceeds the
     * session length, which a 32-bit minute count bounds.
     */
    ghost predicate Valid()
      reads this
    {
      (isTimerRunning <==> state == Running) &&
      Arith.IntMin * 1000 <= sessionDurationMillis <= Arith.IntMax * 1000 &&
      (!started ==> state == Idle && timeRemaining == Arith.LongMax) &&
      (started ==> timeRemaining <= Arith.Max(0, sessionDurationMillis))
    }

    constructor (progressRepository: ProgressStore)
      ensures Valid() && !started
      ensures repository == progressRepository
      ensures state == Idle && !isTimerRunning && !reminderSent
      ensures elapsedTime == 0 && timeRemaining == Arith.LongMax
    {
      repository := progressRepository;
      isTimerRunning := false;
      sessionDurationMillis := 0;
      elapsedTimeMillis := 0;
      reminderMillis := 0;
      reminderSent := false;
      sessionStartTime := 0;
      pauseStartTime := 0;
      totalPausedMillis := 0;
      state := Idle;
      elapsedTime := 0;
      timeRemaining := Arith.LongMax;
      started := false;
    }

    /** startSession: stops any running session and starts a fresh one at now. */
    method StartSession(durationMinutes: int, reminderMinutesBefore: int, now: int)
      modifies this
      ensures Valid() && started
      ensures state == Running && isTimerRunning
      ensures sessionDurationMillis == Settings.MinutesToMillis(durationMinutes)
      ensures reminderMillis == Settings.MinutesToMillis(reminderMinutesBefore)
      ensures elapsedTimeMillis == 0 && elapsedTime == 0 && !reminderSent
      ensures totalPausedMillis == 0 && sessionStartTime == now && pauseStartTime == old(pauseStartTime)
      ensures timeRemaining == sessionDurationMillis
    {
      StopSession();
      sessionDurationMillis := Settings.MinutesToMillis(durationMinutes);
      reminderMillis := Settings.MinutesToMillis(reminderMinutesBefore);
      elapsedTimeMillis := 0;
      reminderSent := false;
      totalPausedMillis := 0;
      sessionStartTime := now;
      state := Running;
      elapsedTime := 0;
      timeRemaining := sessionDurationMillis;
      started := true;
      isTimerRunning := true;
    }

    /** pauseSession: only a running session pauses; the loop stops and the pause start is noted. */
    method PauseSession(now: int)
      requires Valid()
      modifies this
      ensures Valid()
      ensures old(state) != Running ==> unchanged(this)
      ensures old(state) == Running ==> state == Paused && !isTimerRunning && pauseStartTime == now
      ensures old(state) == Running ==> totalPausedMillis == old(totalPausedMillis) && reminderSent == old(reminderSent)
      ensures old(state) == Running ==> elapsedTime == old(elapsedTime) && timeRemaining == old(timeRemaining)
      ensures sessionStartTime == old(sessionStartTime) && sessionDurationMillis == old(sessionDurationMillis)
    {
      if state != Running {
        return;
      }
      isTimerRunning := false;
      pauseStartTime := now;
      state := Paused;
    }

    /** resumeSession: only a paused session resumes; the pause is added to the paused total. */
    method ResumeSession(now: int)
      requires Valid()
      modifies this
      ensures Valid()
      ensures old(state) != Paused ==> unchanged(this)
      ensures old(state) == Paused ==> state == Running && isTimerRunning
      ensures old(state) == Paused ==> totalPausedMillis == old(totalPausedMillis) + (now - old(pauseStartTime))
      ensures old(state) == Paused ==> reminderSent == old(reminderSent) && elapsedTime == old(elapsedTime)
      ensures sessionStartTime == old(sessionStartTime) && sessionDurationMillis == old(sessionDurationMillis)
    {
      if state != Paused {
        return;
      }
      totalPausedMillis := totalPausedMillis + (now - pauseStartTime);
      state := Running;
      isTimerRunning := true;
    }

    /** stopSession: the loop stops and the timer is IDLE; nothing is recorded. */
    method StopSession()
      modifies this
      ensures !isTimerRunning && state == Idle
      ensures old(Valid()) ==> Valid()
      ensures started == old(started) && timeRemaining == old(timeRemaining) && elapsedTime == old(elapsedTime)
      ensures reminderSent == old(reminderSent) && sessionDurationMillis == old(sessionDurationMillis)
      ensures elapsedTimeMillis == old(elapsedTimeMillis) && reminderMillis == old(reminderMillis)
      ensures sessionStartTime == old(sessionStartTime) && totalPausedMillis == old(totalPausedMillis) && pauseStartTime == old(pauseStartTime)
    {
      isTimerRunning := false;
      state := Idle;
    }

    /**
     * endSessionAndRecord: stops the session and, when the published elapsed
     * time is positive, records it as today's usage.
     */
    method EndSessionAndRecord(today: string)
      requires Valid()
      modifies this, repository
      ensures Valid()
      ensures !isTimerRunning && state == Idle
      ensures elapsedTime == old(elapsedTime) && timeRemaining == old(timeRemaining) && reminderSent == old(reminderSent)
      ensures sessionStartTime == old(sessionStartTime) && totalPausedMillis == old(totalPausedMillis) && elapsedTimeMillis == old(elapsedTimeMillis)
      ensures sessionDurationMillis == old(sessionDurationMillis) && reminderMillis == old(reminderMillis) && started == old(started)
      ensures old(elapsedTime) > 0 ==> repository.writes == old(repository.writes) + [UsageRecorded(today, old(elapsedTime))]
      ensures old(elapsedTime) > 0 ==> repository.settings == Settings.RecordUsage(old(repository.settings), today, old(elapsedTime))
      ensures old(elapsedTime) <= 0 ==> unchanged(repository)
      ensures repository.progress == old(repository.progress) && repository.badgeTable == old(repository.badgeTable)
    {
      var finalElapsed := elapsedTime;
      StopSession();
      if finalElapsed > 0 {
        repository.RecordUsage(today, finalElapsed);
      }
      state := Idle;
    }

    /** reportActivity: reserved, and does nothing. */
    method ReportActivity()
      modifies {}
    {
    }

    /**
     * One pass of the timer loop at clock time now. The loop has ended when
     * the timer is not running. Otherwise the elapsed time is the wall time
     * since the start less the paused time (never negative), the remaining
     * time is what is left of the session (never negative), the reminder is
     * flagged once no more than the lead time remains, and when the session
     * length is reached the session ends, its elapsed time is recorded and
     * the loop stops.
     */
    method Tick(now: int, today: string) returns (continues: bool)
      requires Valid()
      modifies this, repository
      ensures Valid()
      ensures !old(isTimerRunning) ==> !continues && unchanged(this) && unchanged(repository)
      ensures old(isTimerRunning) ==> (
        var e := Arith.Max(0, now - old(sessionStartTime) - old(totalPausedMillis));
        elapsedTimeMillis == e && elapsedTime == e &&
        timeRemaining == Arith.Max(0, sessionDurationMillis - e) &&
        (reminderSent <==> old(reminderSent) || sessionDurationMillis - e <= reminderMillis) &&
        (continues <==> e < sessionDurationMillis) &&
        (continues ==> state == Running && unchanged(repository)) &&
        (!continues ==> state == Idle && !isTimerRunning) &&
        (!continues && e > 0 ==> repository.writes == old(repository.writes) + [UsageRecorded(today, e)] &&
                                 repository.settings == Settings.RecordUsage(old(repository.settings), today, e)) &&
        (!continues && e <= 0 ==> unchanged(repository)))
      ensures sessionStartTime == old(sessionStartTime) && totalPausedMillis == old(totalPausedMillis)
      ensures sessionDurationMillis == old(sessionDurationMillis) && reminderMillis == old(reminderMillis)
      ensures repository.progress == old(repository.progress) && repository.badgeTable == old(repository.badgeTable)
      ensures old(reminderSent) ==> reminderSent
      ensures !continues && old(isTimerRunning) && reminderMillis >= 0 ==> reminderSent
    {
      if !isTimerRunning {
        return false;
      }
      var currentElapsed := now - sessionStartTime - totalPausedMillis;
      elapsedTimeMillis := Arith.Max(0, currentElapsed);
      elapsedTime := elapsedTimeMillis;
      timeRemaining := Arith.Max(0, sessionDurationMillis - elapsedTimeMillis);
      CheckAndSendReminder();
      if elapsedTimeMillis >= sessionDurationMillis {
        HandleTimeLimitReached(today);
        return false;
      }
      return true;
    }

    /** checkAndSendReminder: flags the reminder once no more than the lead time remains. */
    method CheckAndSendReminder()
      modifies this
      ensures reminderSent <==> old(reminderSent) || sessionDurationMillis - elapsedTimeMillis <= reminderMillis
      ensures isTimerRunning == old(isTimerRunning) && state == old(state) && started == old(started)
      ensures elapsedTime == old(elapsedTime) && timeRemaining == old(timeRemaining) && elapsedTimeMillis == old(elapsedTimeMillis)
      ensures sessionStartTime == old(sessionStartTime) && totalPausedMillis == old(totalPausedMillis)
      ensures sessionDurationMillis == old(sessionDurationMillis) && reminderMillis == old(reminderMillis)
    {
      var remaining := sessionDurationMillis - elapsedTimeMillis;
      if remaining <= reminderMillis && !reminderSent {
        reminderSent := true;
      }
    }

    /** handleTimeLimitReached: TIME_LIMIT_REACHED is published, then the session ends and is recorded. */
    method HandleTimeLimitReached(today: string)
      requires Valid() && started
      modifies this, repository
      ensures Valid()
      ensures !isTimerRunning && state == Idle
      ensures elapsedTime == old(elapsedTime) && timeRemaining == old(timeRemaining) && reminderSent == old(reminderSent)
      ensures sessionStartTime == old(sessionStartTime) && totalPausedMillis == old(totalPausedMillis) && elapsedTimeMillis == old(elapsedTimeMillis)
      ensures sessionDurationMillis == old(sessionDurationMillis) && reminderMillis == old(reminderMillis)
      ensures old(elapsedTime) > 0 ==> repository.writes == old(repository.writes) + [UsageRecorded(today, old(elapsedTime))]
      ensures old(elapsedTime) > 0 ==> repository.settings == Settings.RecordUsage(old(repository.settings), today, old(elapsedTime))
      ensures old(elapsedTime) <= 0 ==> unchanged(repository)
      ensures repository.progress == old(repository.progress) && repository.badgeTable == old(repository.badgeTable)
    {
      state := TimeLimitReached;
      isTimerRunning := false;
      EndSessionAndRecord(today);
    }

    /**
     * getRemainingMinutes on the published remaining time: once a session
     * has started, the remaining time rounded up to whole minutes.
     */
    function RemainingMinutes(): (m: int)
      reads this
      ensures Valid() && started ==> 0 <= m && (m == 0 <==> timeRemaining <= 0)
      ensures Valid() && started && timeRemaining > 0 ==> (m - 1) * 60000 < timeRemaining <= m * 60000
      ensures Valid() && !started ==> m == -1692789775
    {
      NeverStartedMinutes();
      RemainingMinutesOf(timeRemaining)
    }

    /** shouldShowReminder: the reminder has been flagged and the loop of a running session is on. */
    predicate ShouldShowReminder(): (r: bool)
      reads this
      ensures r ==> reminderSent
      ensures Valid() ==> (r <==> reminderSent && isTimerRunning)
    {
      reminderSent && state == Running
    }
  }
}

=== FILE: store.dfy ===
// The progress repository the use cases and view models read and write
// (domain/repository/ProgressRepository.kt, with the read-back shape of
// data/repository/ProgressRepositoryImpl.kt): the stored progress record,
// the badge table and the parent settings, plus a log of the writes in
// the order they were issued.
module Store {
  import opened Scenes
  import opened Badges
  import opened Progress
  import opened Settings

  /** One write against the repository. */
  datatype StoreWrite =
    | SceneStatusWritten(scene: SceneType, status: SceneStatus)
    | BadgeInserted(badge: Badge)
    | PlayTimeAdded(millis: int)
    | UsageRecorded(date: string, millis: int)
    | SettingsWritten(settings: ParentSettings)
    | ProgressReset

  /**
   * recordUsage as data/repository/ProgressRepositoryImpl.kt writes it: the
   * settings flow it reads starts with an emission of the defaults, and
   * first() takes that emission, so the stored settings play no part. The
   * usage map that is written back holds the new date alone, under the
   * default durations.
   */
  function RecordUsageAsWritten(stored: ParentSettings, date: string, durationMillis: int): (r: ParentSettings)
    ensures r.sessionDurationMinutes == DefaultSessionDuration && r.reminderMinutesBefore == DefaultReminderMinutes
    ensures r.dailyUsageStats == map[date := durationMillis]
  {
    Settings.RecordUsage(Settings.Default(), date, durationMillis)
  }

  /**
   * The write-back agrees with recording on the stored settings exactly when
   * the stored settings already are the defaults with nothing recorded but
   * the date itself (at zero).
   */
  lemma RecordUsageAsWrittenAgreesOnlyOnDefaults(stored: ParentSettings, date: string, durationMillis: int)
    ensures RecordUsageAsWritten(stored, date, durationMillis) == Settings.RecordUsage(stored, date, durationMillis) <==>
            (stored.sessionDurationMinutes == DefaultSessionDuration && stored.reminderMinutesBefore == DefaultReminderMinutes &&
             stored.dailyUsageStats.Keys <= {date} && UsageForDate(stored, date) == 0)
  {
    var asWritten := RecordUsageAsWritten(stored, date, durationMillis);
    var intended := Settings.RecordUsage(stored, date, durationMillis);
    if stored.sessionDurationMinutes == DefaultSessionDuration && stored.reminderMinutesBefore == DefaultReminderMinutes &&
       stored.dailyUsageStats.Keys <= {date} && UsageForDate(stored, date) == 0 {
      assert intended.dailyUsageStats.Keys == {date};
      assert intended.dailyUsageStats == asWritten.dailyUsageStats;
    }
  }

  /**
   * A parent who chose 30-minute sessions with a 5-minute reminder and has
   * one day of usage on record: recording a second of play on the next day
   * writes back the 15/2 defaults and forgets the first day.
   */
  lemma RecordUsageForgetsStoredSettings()
    ensures var stored := ParentSettings(30, 5, map["2024-01-01" := 60000]);
      var r := RecordUsageAsWritten(stored, "2024-01-02", 1000);
      r.sessionDurationMinutes == 15 && r.reminderMinutesBefore == 2 &&
      UsageForDate(r, "2024-01-01") == 0 && UsageForDate(stored, "2024-01-01") == 60000 &&
      Settings.RecordUsage(stored, "2024-01-02", 1000) == ParentSettings(30, 5, map["2024-01-01" := 60000, "2024-01-02" := 1000])
  {
    var stored := ParentSettings(30, 5, map["2024-01-01" := 60000]);
    assert "2024-01-01" != "2024-01-02";
    assert UsageForDate(RecordUsageAsWritten(stored, "2024-01-02", 1000), "2024-01-01") == 0;
  }

  class ProgressStore {
    /** The stored progress row (its badge list is not part of the row). */
    var progress: GameProgress
    /** The badge table, in insertion order. */
    var badgeTable: seq<Badge>
    /** The stored parent settings. */
    var settings: ParentSettings
    /** Every write issued so far, oldest first. */
    var writes: seq<StoreWrite>

    constructor (progress0: GameProgress, badges0: seq<Badge>, settings0: ParentSettings)
      ensures progress == progress0 && badgeTable == badges0 && settings == settings0 && writes == []
    {
      progress := progress0;
      badgeTable := badges0;
      settings := settings0;
      writes := [];
    }

    /**
     * getGameProgress().first(): the stored row, read back with an empty
     * badge list because badges live in their own table.
     */
    function CurrentProgress(): (p: GameProgress)
      reads this
      ensures p.badges == []
      ensures p.(badges := progress.badges) == progress
    {
      progress.(badges := [])
    }

    /** updateSingleSceneStatus: only that scene's status changes. */
    method UpdateSingleSceneStatus(scene: SceneType, status: SceneStatus)
      modifies this
      ensures progress == UpdateSceneStatus(old(progress), scene, status)
      ensures badgeTable == old(badgeTable) && settings == old(settings)
      ensures writes == old(writes) + [SceneStatusWritten(scene, status)]
    {
      progress := UpdateSceneStatus(progress, scene, status);
      writes := writes + [SceneStatusWritten(scene, status)];
    }

    /** addBadge: the badge is inserted at the end of the badge table. */
    method AddBadge(badge: Badge)
      modifies this
      ensures badgeTable == old(badgeTable) + [badge]
      ensures progress == old(progress) && settings == old(settings)
      ensures writes == old(writes) + [BadgeInserted(badge)]
    {
      badgeTable := badgeTable + [badge];
      writes := writes + [BadgeInserted(badge)];
    }

    /** addTotalPlayTime: only the total play time grows. */
    method AddTotalPlayTime(additionalTime: int)
      modifies this
      ensures progress == AddPlayTime(old(progress), additionalTime)
      ensures badgeTable == old(badgeTable) && settings == old(settings)
      ensures writes == old(writes) + [PlayTimeAdded(additionalTime)]
    {
      progress := AddPlayTime(progress, additionalTime);
      writes := writes + [PlayTimeAdded(additionalTime)];
    }

    /** recordUsage: the settings' usage map records the duration for the date. */
    method RecordUsage(date: string, durationMillis: int)
      modifies this
      ensures settings == Settings.RecordUsage(old(settings), date, durationMillis)
      ensures progress == old(progress) && badgeTable == old(badgeTable)
      ensures writes == old(writes) + [UsageRecorded(date, durationMillis)]
    {
      settings := Settings.RecordUsage(settings, date, durationMillis);
      writes := writes + [UsageRecorded(date, durationMillis)];
    }

    /**
     * resetProgress: the progress row returns to its initial values, the
     * badge table empties and the parent settings return to their defaults.
     */
    method ResetProgress()
      modifies this
      ensures progress == Initial() && badgeTable == [] && settings == Settings.Default()
      ensures writes == old(writes) + [ProgressReset]
    {
      progress := Initial();
      badgeTable := [];
      settings := Settings.Default();
      writes := writes + [ProgressReset];
    }

    /** updateParentSettings: the settings are replaced. */
    method UpdateParentSettings(newSettings: ParentSettings)
      modifies this
      ensures settings == newSettings
      ensures progress == old(progress) && badgeTable == old(badgeTable)
      ensures writes == old(writes) + [SettingsWritten(newSettings)]
    {
      settings := newSettings;
      writes := writes + [SettingsWritten(newSettings)];
    }
  }
}

=== FILE: text.dfy ===
// Decimal rendering of integers and simple string predicates, as Kotlin's
// string templates ("$n") and String.startsWith use them.
module Text {

  /** The character of a decimal digit. */
  function DigitChar(d: nat): (c: char)
    requires d < 10
    ensures '0' <= c <= '9'
  {
    "0123456789"[d]
  }

  /** The value of a decimal digit character. */
  function DigitValue(c: char): nat
  {
    if '0' <= c <= '9' then (c as int - '0' as int) else 0
  }

  /** The value of a string of decimal digits, most significant first. */
  function DigitsValue(s: string): nat
  {
    if s == [] then 0 else DigitsValue(s[..|s| - 1]) * 10 + DigitValue(s[|s| - 1])
  }

  predicate IsDigits(s: string)
  {
    forall i :: 0 <= i < |s| ==> '0' <= s[i] <= '9'
  }

  /** Decimal rendering of a natural number, without leading zeros. */
  function NatToString(n: nat): (s: string)
    ensures |s| >= 1 && IsDigits(s)
    ensures |s| > 1 ==> s[0] != '0'
    decreases n
  {
    if n < 10 then [DigitChar(n)] else NatToString(n / 10) + [DigitChar(n % 10)]
  }

  lemma DigitRoundTrip(d: nat)
    requires d < 10
    ensures DigitValue(DigitChar(d)) == d
  {
  }

  /** Reading the rendering back gives the number: the rendering loses nothing. */
  lemma {:induction false} NatToStringRoundTrip(n: nat)
    ensures DigitsValue(NatToString(n)) == n
    decreases n
  {
    if n < 10 {
      DigitRoundTrip(n);
    } else {
      var s := NatToString(n);
      NatToStringRoundTrip(n / 10);
      DigitRoundTrip(n % 10);
      assert s[..|s| - 1] == NatToString(n / 10);
    }
  }

  lemma NatToStringInjective(m: nat, n: nat)
    requires NatToString(m) == NatToString(n)
    ensures m == n
  {
    NatToStringRoundTrip(m);
    NatToStringRoundTrip(n);
  }

  /** Decimal rendering of an integer, with a leading '-' when it is negative. */
  function IntToString(i: int): (s: string)
    ensures |s| >= 1
    ensures (s[0] == '-') <==> i < 0
    ensures i >= 0 ==> IsDigits(s)
    ensures '0' <= s[|s| - 1] <= '9'
    ensures forall k :: 0 <= k < |s| ==> s[k] == '-' || '0' <= s[k] <= '9'
  {
    if i < 0 then "-" + NatToString(-i) else NatToString(i)
  }

  /** Two integers render alike only when they are equal. */
  lemma IntToStringInjective(i: int, j: int)
    requires IntToString(i) == IntToString(j)
    ensures i == j
  {
    if i < 0 && j < 0 {
      assert IntToString(i)[1..] == NatToString(-i);
      assert IntToString(j)[1..] == NatToString(-j);
      NatToStringInjective(-i, -j);
    } else if i >= 0 && j >= 0 {
      NatToStringInjective(i, j);
    }
  }

  /** String.startsWith. */
  predicate StartsWith(s: string, prefix: string)
  {
    |prefix| <= |s| && s[..|prefix|] == prefix
  }

  /** Two texts "a c x" and "b c y" with no c inside a or b split at the same place. */
  lemma SplitAtMarker(a: string, b: string, x: string, y: string, c: char)
    requires c !in a && c !in b
    requires a + [c] + x == b + [c] + y
    ensures a == b && x == y
  {
    if |a| < |b| {
      MarkerInLonger(a, b, x, y, c);
      assert false;
    } else if |b| < |a| {
      MarkerInLonger(b, a, y, x, c);
      assert false;
    } else {
      assert a == (a + [c] + x)[..|a|];
      assert b == (b + [c] + y)[..|b|];
      assert x == (a + [c] + x)[|a| + 1..];
      assert y == (b + [c] + y)[|b| + 1..];
    }
  }

  /** If the marker after the shorter head lines up inside the longer head, the longer head contains it. */
  lemma MarkerInLonger(a: string, b: string, x: string, y: string, c: char)
    requires a + [c] + x == b + [c] + y
    requires |a| < |b|
    ensures c in b
  {
    assert b[|a|] == (b + [c] + y)[|a|] == (a + [c] + x)[|a|];
  }
}

=== FILE: time_limit.dfy ===
// The parent-set session time limit: checking elapsed time against it and
// changing it (domain/usecase/CheckTimeLimitUseCase.kt).
module TimeLimit {
  import opened Settings
  import opened Store
  import Arith
  import Text

  /** The outcome of a time-limit check. */
  datatype TimeLimitResult = TimeLimitResult(
    hasReachedLimit: bool,
    shouldShowReminder: bool,
    remainingTimeMillis: int,
    canExtend: bool)

  /**
   * invoke: the time left is the session length minus the elapsed time,
   * never below zero; the limit is reached once the elapsed time covers
   * the session; the reminder shows while time is left but no more than
   * the reminder lead time; extending is offered exactly when the limit is
   * reached.
   */
  function Check(settings: ParentSettings, elapsedTimeMs: int): (r: TimeLimitResult)
    ensures r.remainingTimeMillis == Arith.Max(0, SessionDurationMillis(settings) - elapsedTimeMs)
    ensures r.hasReachedLimit <==> elapsedTimeMs >= SessionDurationMillis(settings)
    ensures r.hasReachedLimit <==> r.remainingTimeMillis == 0
    ensures r.shouldShowReminder <==> 0 < SessionDurationMillis(settings) - elapsedTimeMs <= ReminderMillis(settings)
    ensures r.shouldShowReminder ==> !r.hasReachedLimit
    ensures r.canExtend <==> r.hasReachedLimit
  {
    var sessionDurationMs := SessionDurationMillis(settings);
    var reminderMs := ReminderMillis(settings);
    var remainingTimeMs := Arith.Max(sessionDurationMs - elapsedTimeMs, 0);
    var hasReachedLimit := elapsedTimeMs >= sessionDurationMs;
    var shouldShowReminder := !hasReachedLimit && remainingTimeMs <= reminderMs && remainingTimeMs > 0;
    TimeLimitResult(hasReachedLimit, shouldShowReminder, remainingTimeMs, hasReachedLimit)
  }

  /** As time passes the time left never grows, and a reached limit stays reached. */
  lemma CheckMonotone(settings: ParentSettings, e1: int, e2: int)
    requires e1 <= e2
    ensures Check(settings, e2).remainingTimeMillis <= Check(settings, e1).remainingTimeMillis
    ensures Check(settings, e1).hasReachedLimit ==> Check(settings, e2).hasReachedLimit
  {
  }

  /** shouldShowReminder flow: the raw time left lies in 1..reminder. */
  function ShouldShowReminder(settings: ParentSettings, elapsedTimeMs: int): (r: bool)
    ensures r == Check(settings, elapsedTimeMs).shouldShowReminder
  {
    var remainingTimeMs := SessionDurationMillis(settings) - elapsedTimeMs;
    1 <= remainingTimeMs <= ReminderMillis(settings)
  }

  /** hasReachedLimit flow. */
  function HasReachedLimit(settings: ParentSettings, elapsedTimeMs: int): (r: bool)
    ensures r == Check(settings, elapsedTimeMs).hasReachedLimit
  {
    elapsedTimeMs >= SessionDurationMillis(settings)
  }

  /** getRemainingTime flow. */
  function RemainingTime(settings: ParentSettings, elapsedTimeMs: int): (ms: int)
    ensures ms == Check(settings, elapsedTimeMs).remainingTimeMillis
  {
    if SessionDurationMillis(settings) - elapsedTimeMs >= 0 then SessionDurationMillis(settings) - elapsedTimeMs else 0
  }

  /**
   * getTodayRemainingTime: a whole session, what a check reports before any
   * time has elapsed; a negative (wrapped) length is a limit already reached.
   */
  function TodayRemainingTime(settings: ParentSettings, today: string): (ms: int)
    ensures ms >= 0 ==> ms == Check(settings, 0).remainingTimeMillis
    ensures ms <= 0 <==> Check(settings, 0).hasReachedLimit
    ensures Arith.IntMin <= settings.sessionDurationMinutes * 60 <= Arith.IntMax ==> ms == settings.sessionDurationMinutes * 60000
  {
    SessionDurationMillis(settings)
  }

  /** The time left today does not depend on the usage recorded today, nor on the day. */
  lemma TodayRemainingIgnoresUsage(settings: ParentSettings, today: string, other: string, used: int)
    ensures TodayRemainingTime(RecordUsage(settings, today, used), today) == TodayRemainingTime(settings, other)
  {
  }

  /** remainingMinutes: whole minutes left, narrowed to Int. */
  function RemainingMinutes(r: TimeLimitResult): (m: int)
    ensures 0 <= r.remainingTimeMillis <= Arith.IntMax * 60000 ==>
      0 <= m && m * 60000 <= r.remainingTimeMillis < m * 60000 + 60000
  {
    Arith.ToInt(Arith.WholeMinutes(r.remainingTimeMillis))
  }

  /** Whole minutes and leftover seconds of a duration in ms, truncating like Kotlin. */
  function MinutesSeconds(ms: int): (ps: (int, int))
    ensures ps.0 * 60 + ps.1 == Arith.Quot(ms, 1000)
    ensures ms >= 0 ==> 0 <= ps.1 < 60 && 0 <= ps.0
  {
    var seconds := Arith.Quot(ms, 1000);
    (Arith.Quot(seconds, 60), Arith.Rem(seconds, 60))
  }

  /** getRemainingTimeText: "<m>分<s>秒". */
  function RemainingTimeText(r: TimeLimitResult): string
  {
    var minutes := Arith.Quot(Arith.Quot(r.remainingTimeMillis, 1000), 60);
    var seconds := Arith.ToInt(Arith.Rem(Arith.Quot(r.remainingTimeMillis, 1000), 60));
    Text.IntToString(minutes) + "分" + Text.IntToString(seconds) + "秒"
  }

  /** A text can be read back: different minute/second pairs never print the same. */
  lemma RemainingTimeTextInjective(r1: TimeLimitResult, r2: TimeLimitResult)
    requires RemainingTimeText(r1) == RemainingTimeText(r2)
    ensures MinutesSeconds(r1.remainingTimeMillis) == MinutesSeconds(r2.remainingTimeMillis)
  {
    var p1 := MinutesSeconds(r1.remainingTimeMillis);
    var p2 := MinutesSeconds(r2.remainingTimeMillis);
    MinutesSecondsTextParts(p1.0, p1.1, p2.0, p2.1);
  }

  /** "<m>分<s>秒" determines both numbers. */
  lemma MinutesSecondsTextParts(i1: int, j1: int, i2: int, j2: int)
    requires Text.IntToString(i1) + "分" + Text.IntToString(j1) + "秒" ==
             Text.IntToString(i2) + "分" + Text.IntToString(j2) + "秒"
    ensures i1 == i2 && j1 == j2
  {
    var m1, m2 := Text.IntToString(i1), Text.IntToString(i2);
    var s1, s2 := Text.IntToString(j1), Text.IntToString(j2);
    assert m1 + ['分'] + (s1 + "秒") == m2 + ['分'] + (s2 + "秒") by {
      assert m1 + "分" + s1 + "秒" == m1 + ['分'] + (s1 + "秒");
      assert m2 + "分" + s2 + "秒" == m2 + ['分'] + (s2 + "秒");
    }
    Text.SplitAtMarker(m1, m2, s1 + "秒", s2 + "秒", '分');
    Text.IntToStringInjective(i1, i2);
    assert s1 == s2 by {
      assert s1 == (s1 + "秒")[..|s1 + "秒"| - 1];
      assert s2 == (s2 + "秒")[..|s2 + "秒"| - 1];
    }
    Text.IntToStringInjective(j1, j2);
  }

  /** extendTime's default extension, in minutes. */
  const DefaultExtensionMinutes: int := 5
  /** updateTimeLimit's accepted range, in minutes. */
  const MinTimeLimit: int := 5
  const MaxTimeLimit: int := 120

  class CheckTimeLimitUseCase {
    const repository: ProgressStore

    constructor (repository: ProgressStore)
      ensures this.repository == repository
    {
      this.repository := repository;
    }

    /** invoke: checks the elapsed time against the stored settings. */
    function Invoke(elapsedTimeMs: int): (r: TimeLimitResult)
      reads repository
      ensures r == Check(repository.settings, elapsedTimeMs)
    {
      Check(repository.settings, elapsedTimeMs)
    }

    /** getTodayUsage: the usage recorded for today. */
    function TodayUsage(today: string): (ms: int)
      reads repository
      ensures ms == UsageForDate(repository.settings, today)
    {
      UsageForDate(repository.settings, today)
    }

    /**
     * extendTime: the session grows by the extension, an Int sum that wraps;
     * nothing else in the settings changes.
     */
    method ExtendTime(additionalMinutes: int) returns (updated: ParentSettings)
      modifies repository
      ensures updated.sessionDurationMinutes == Arith.ToInt(old(repository.settings.sessionDurationMinutes) + additionalMinutes)
      ensures Arith.IntMin <= old(repository.settings.sessionDurationMinutes) + additionalMinutes <= Arith.IntMax ==>
        updated.sessionDurationMinutes == old(repository.settings.sessionDurationMinutes) + additionalMinutes
      ensures updated.(sessionDurationMinutes := old(repository.settings.sessionDurationMinutes)) == old(repository.settings)
      ensures repository.settings == updated
      ensures repository.writes == old(repository.writes) + [SettingsWritten(updated)]
      ensures repository.progress == old(repository.progress) && repository.badgeTable == old(repository.badgeTable)
    {
      var current := repository.settings;
      updated := current.(sessionDurationMinutes := Arith.ToInt(current.sessionDurationMinutes + additionalMinutes));
      repository.UpdateParentSettings(updated);
    }

    /** updateTimeLimit: the session length becomes the request clamped to 5..120 minutes. */
    method UpdateTimeLimit(minutes: int) returns (updated: ParentSettings)
      modifies repository
      ensures MinTimeLimit <= updated.sessionDurationMinutes <= MaxTimeLimit
      ensures MinTimeLimit <= minutes <= MaxTimeLimit ==> updated.sessionDurationMinutes == minutes
      ensures minutes < MinTimeLimit ==> updated.sessionDurationMinutes == MinTimeLimit
      ensures minutes > MaxTimeLimit ==> updated.sessionDurationMinutes == MaxTimeLimit
      ensures updated.(sessionDurationMinutes := old(repository.settings.sessionDurationMinutes)) == old(repository.settings)
      ensures repository.settings == updated
      ensures repository.writes == old(repository.writes) + [SettingsWritten(updated)]
      ensures repository.progress == old(repository.progress) && repository.badgeTable == old(repository.badgeTable)
    {
      var validMinutes := Arith.CoerceIn(minutes, MinTimeLimit, MaxTimeLimit);
      var current := repository.settings;
      updated := current.(sessionDurationMinutes := validMinutes);
      repository.UpdateParentSettings(updated);
    }
  }

  /**
   * updateTimeLimit accepts lengths that updateSessionDuration of the
   * settings rejects: 45 minutes is stored as it is by the one and
   * refused by the other.
   */
  lemma TimeLimitWiderThanDurations(s: ParentSettings)
    ensures Arith.CoerceIn(45, MinTimeLimit, MaxTimeLimit) == 45
    ensures UpdateSessionDuration(s, 45).Failure?
  {
  }
}

=== FILE: unlock_scene.dfy ===
// Unlocking a scene through the repository
// (domain/usecase/UnlockSceneUseCase.kt).
module UnlockScene {
  import opened Wrappers
  import opened Scenes
  import opened Progress
  import opened Store

  /**
   * checkUnlockCondition: the fire station may always be unlocked; the
   * school once the fire station is completed (exactly four devices); the
   * forest once the school is completed.
   */
  function CheckUnlockCondition(p: GameProgress, scene: SceneType): (r: bool)
    ensures scene == FireStation ==> r
    ensures scene == School ==> (r <==> |p.fireStationCompletedItems| == FireStationTotalItems)
    ensures scene == Forest ==> (r <==> GetSceneStatus(p, School) == Completed)
  {
    match scene
    case FireStation => true
    case School => IsFireStationCompleted(p)
    case Forest => IsSceneCompleted(p, School)
  }

  /**
   * The use case's condition and the completion rule of the extensions
   * agree while at most four devices are recorded; with a fifth recorded
   * item the extension still opens the school and the use case does not.
   */
  lemma UnlockRulesAgree(p: GameProgress, scene: SceneType)
    ensures |p.fireStationCompletedItems| <= FireStationTotalItems ==>
      (CheckUnlockCondition(p, scene) <==> IsSceneUnlockedByCompletion(p, scene))
    ensures |p.fireStationCompletedItems| > FireStationTotalItems ==>
      !CheckUnlockCondition(p, School) && IsSceneUnlockedByCompletion(p, School)
  {
  }

  const MessagePrefix: string := "Cannot unlock scene: "
  const MessageSuffix: string := ", prerequisites not met"

  /**
   * The message of the IllegalStateException for a scene whose prerequisites
   * are missing: the fixed prefix, the enum constant's name, the fixed suffix.
   */
  function PrerequisitesMessage(scene: SceneType): (msg: string)
    ensures |msg| == |MessagePrefix| + |SceneName(scene)| + |MessageSuffix|
    ensures msg[..|MessagePrefix|] == MessagePrefix
    ensures msg[|MessagePrefix|..|msg| - |MessageSuffix|] == SceneName(scene)
    ensures msg[|msg| - |MessageSuffix|..] == MessageSuffix
  {
    MessagePrefix + SceneName(scene) + MessageSuffix
  }

  /** The message names its scene: different scenes give different messages. */
  lemma PrerequisitesMessagesDistinct(a: SceneType, b: SceneType)
    ensures PrerequisitesMessage(a) == PrerequisitesMessage(b) <==> a == b
  {
    if a != b && |SceneName(a)| == |SceneName(b)| {
      var i := |MessagePrefix|;
      assert PrerequisitesMessage(a)[i] == SceneName(a)[0] != SceneName(b)[0] == PrerequisitesMessage(b)[i];
    }
  }

  /** getUnlockHint: a fixed hint per scene. */
  function UnlockHint(scene: SceneType): (hint: string)
    ensures hint != []
  {
    match scene
    case FireStation => "消防站随时可以进入学习！"
    case School => "完成消防站所有设备学习后解锁"
    case Forest => "完成学校场景后解锁"
  }

  /** Different scenes get different hints. */
  lemma UnlockHintsDistinct(a: SceneType, b: SceneType)
    ensures UnlockHint(a) == UnlockHint(b) <==> a == b
  {
    if a != b {
      assert UnlockHint(a)[2] != UnlockHint(b)[2];
    }
  }

  class UnlockSceneUseCase {
    const repository: ProgressStore

    constructor (repository: ProgressStore)
      ensures this.repository == repository
    {
      this.repository := repository;
    }

    /** isSceneUnlocked: whether the scene is unlocked in the stored progress. */
    predicate SceneUnlocked(scene: SceneType)
      reads repository
    {
      IsSceneUnlocked(repository.CurrentProgress(), scene)
    }

    /**
     * invoke: an already unlocked scene is returned as it is; a scene whose
     * prerequisites are missing fails without writing; otherwise exactly one
     * write marks it UNLOCKED and the re-read progress is returned.
     */
    method Invoke(scene: SceneType) returns (r: Result<GameProgress, string>)
      modifies repository
      ensures r.Success? <==> old(SceneUnlocked(scene)) || CheckUnlockCondition(old(repository.CurrentProgress()), scene)
      ensures r.Success? ==> r.value == repository.CurrentProgress() && SceneUnlocked(scene)
      ensures r.Failure? ==> r.error == PrerequisitesMessage(scene)
      ensures old(SceneUnlocked(scene)) || r.Failure? ==>
        repository.progress == old(repository.progress) && repository.writes == old(repository.writes)
      ensures !old(SceneUnlocked(scene)) && r.Success? ==>
        repository.progress == UpdateSceneStatus(old(repository.progress), scene, Unlocked) &&
        repository.writes == old(repository.writes) + [SceneStatusWritten(scene, Unlocked)]
      ensures repository.badgeTable == old(repository.badgeTable) && repository.settings == old(repository.settings)
    {
      var current := repository.CurrentProgress();
      if IsSceneUnlocked(current, scene) {
        return Success(current);
      }
      if !CheckUnlockCondition(current, scene) {
        return Failure(PrerequisitesMessage(scene));
      }
      repository.UpdateSingleSceneStatus(scene, Unlocked);
      r := Success(repository.CurrentProgress());
    }
  }
}

=== FILE: welcome_vm.dfy ===
// The welcome screen (presentation/welcome/WelcomeViewModel.kt): the truck
// drives in, the little tiger waves and greets, and once the greeting has
// played the app moves on to the map by itself. The navigation the source
// sends after a two-second delay follows the handler's state change here.
module WelcomeVM {
  const GreetingVoice: string := "audio/voices/welcome_greeting.mp3"

  datatype WelcomeState = WelcomeState(
    isTruckAnimationCompleted: bool,
    showWaveAnimation: bool,
    isVoicePlaying: bool,
    shouldNavigate: bool)

  /** WelcomeState(): every flag off. */
  const InitialState := WelcomeState(false, false, false, false)

  /** The three events the view model handles. */
  datatype WelcomeEvent = TruckAnimationCompleted | WaveAnimationCompleted | VoicePlaybackCompleted

  datatype WelcomeEffect = PlayWaveAnimation | PlayVoice(audioPath: string) | NavigateToMap

  /** The state after one event. */
  function Next(s: WelcomeState, e: WelcomeEvent): (r: WelcomeState)
    ensures e == TruckAnimationCompleted ==>
      (r.isTruckAnimationCompleted && r.showWaveAnimation && r.isVoicePlaying && r.shouldNavigate == s.shouldNavigate)
    ensures e == WaveAnimationCompleted ==> r == s.(showWaveAnimation := false)
    ensures e == VoicePlaybackCompleted ==>
      (!r.isVoicePlaying && r.shouldNavigate &&
       r.isTruckAnimationCompleted == s.isTruckAnimationCompleted && r.showWaveAnimation == s.showWaveAnimation)
    ensures s.shouldNavigate ==> r.shouldNavigate
    ensures s.isTruckAnimationCompleted ==> r.isTruckAnimationCompleted
  {
    match e
    case TruckAnimationCompleted => s.(isTruckAnimationCompleted := true, showWaveAnimation := true, isVoicePlaying := true)
    case WaveAnimationCompleted => s.(showWaveAnimation := false)
    case VoicePlaybackCompleted => s.(isVoicePlaying := false, shouldNavigate := true)
  }

  /** The effects of one event, in the order they are sent. */
  function EffectsOf(e: WelcomeEvent): (effects: seq<WelcomeEffect>)
    ensures e == TruckAnimationCompleted ==> effects == [PlayWaveAnimation, PlayVoice(GreetingVoice)]
    ensures e == WaveAnimationCompleted ==> effects == []
    ensures e == VoicePlaybackCompleted ==> effects == [NavigateToMap]
  {
    match e
    case TruckAnimationCompleted => [PlayWaveAnimation, PlayVoice(GreetingVoice)]
    case WaveAnimationCompleted => []
    case VoicePlaybackCompleted => [NavigateToMap]
  }

  /** The state after a run of events. */
  function Run(s: WelcomeState, events: seq<WelcomeEvent>): WelcomeState
    decreases |events|
  {
    if events == [] then s else Run(Next(s, events[0]), events[1..])
  }

  /** The effects of a run of events. */
  function RunEffects(events: seq<WelcomeEvent>): seq<WelcomeEffect>
    decreases |events|
  {
    if events == [] then [] else EffectsOf(events[0]) + RunEffects(events[1..])
  }

  /**
   * Neither flag ever goes back to false: after any run, navigation is
   * pending exactly when it was before or the greeting finished during the
   * run, and the truck has arrived exactly when it had before or its
   * animation finished during the run.
   */
  lemma {:induction false} RunFlagsMonotone(s: WelcomeState, events: seq<WelcomeEvent>)
    ensures Run(s, events).shouldNavigate <==> s.shouldNavigate || VoicePlaybackCompleted in events
    ensures Run(s, events).isTruckAnimationCompleted <==> s.isTruckAnimationCompleted || TruckAnimationCompleted in events
    decreases |events|
  {
    if events != [] {
      RunFlagsMonotone(Next(s, events[0]), events[1..]);
      assert events == [events[0]] + events[1..];
    }
  }

  /** A run requests the map exactly when the greeting finished during it. */
  lemma {:induction false} NavigationFollowsGreeting(events: seq<WelcomeEvent>)
    ensures NavigateToMap in RunEffects(events) <==> VoicePlaybackCompleted in events
    decreases |events|
  {
    if events != [] {
      NavigationFollowsGreeting(events[1..]);
      assert events == [events[0]] + events[1..];
    }
  }

  class WelcomeViewModel {
    var state: WelcomeState
    /** The effects sent so far, in order. */
    var effects: seq<WelcomeEffect>
    /** The events handled so far. */
    ghost var handled: seq<WelcomeEvent>

    /** The state and the effects are those of the events handled since creation. */
    ghost predicate Valid()
      reads this
    {
      state == Run(InitialState, handled) && effects == RunEffects(handled)
    }

    constructor ()
      ensures Valid()
      ensures state == InitialState && effects == [] && handled == []
    {
      state := InitialState;
      effects := [];
      handled := [];
    }

    /** onEvent: the event's state change, then its effects. */
    method OnEvent(e: WelcomeEvent)
      requires Valid()
      modifies this
      ensures Valid()
      ensures handled == old(handled) + [e]
      ensures state == Next(old(state), e)
      ensures effects == old(effects) + EffectsOf(e)
    {
      match e {
        case TruckAnimationCompleted =>
          state := state.(isTruckAnimationCompleted := true, showWaveAnimation := true, isVoicePlaying := true);
          effects := effects + [PlayWaveAnimation, PlayVoice(GreetingVoice)];
        case WaveAnimationCompleted =>
          state := state.(showWaveAnimation := false);
        case VoicePlaybackCompleted =>
          state := state.(isVoicePlaying := false, shouldNavigate := true);
          effects := effects + [NavigateToMap];
      }
      RunAppend(InitialState, old(handled), e);
      handled := handled + [e];
    }
  }

  /** Running one more event continues from where the run stopped. */
  lemma {:induction false} RunAppend(s: WelcomeState, events: seq<WelcomeEvent>, e: WelcomeEvent)
    ensures Run(s, events + [e]) == Next(Run(s, events), e)
    ensures RunEffects(events + [e]) == RunEffects(events) + EffectsOf(e)
    decreases |events|
  {
    if events != [] {
      assert (events + [e])[1..] == events[1..] + [e];
      RunAppend(Next(s, events[0]), events[1..], e);
    } else {
      assert [e][1..] == [];
    }
  }
}

=== FILE: wrappers.dfy ===
// Optional values and results with an error, as Kotlin's nullable types,
// Result<T> and thrown exceptions are modelled throughout.
module Wrappers {

  datatype Option<T> = None | Some(value: T)

  datatype Result<T, E> = Success(value: T) | Failure(error: E)
}
